=== FILE: README.md ===
# interactions-bot core in Dafny

A model of the core of interactions-bot. This is a Discord bot server that
receives interactions over HTTP. It checks their Ed25519 signature and turns
the raw payload into a typed interaction. It then routes the interaction to
the first registered handler that answers to it, and answers Discord with a
status and a body. The bot also registers slash commands and pushes them to
Discord in one bulk overwrite. It builds the REST endpoints it calls through
a typed chain of path steps. It logs outcomes with ANSI-coloured lines.

Each source file of the core has its own Dafny module:

- `Uint8Arrays` (uint8_arrays.dfy): hex and byte-array conversion.
  This covers the `/.{1,2}/g` chunking over UTF-16 code units, the
  `parseInt(…, 16)` parsing, byte truncation, and array concatenation.
- `Logger` (logger.dfy): the ANSI wrapping and the `log`, `joinedLog` and
  `error` lines, modelled as the text printed.
- `Environment` (environment.dfy): the application variables with `?? ""`,
  and the command-line flags.
- `Uri` and `Endpoint` (uri.dfy, endpoint.dfy): the typed step chain.
  - The chain's allowed orderings are a stage machine.
  - The path grows by each step.
  - The URL is resolved against `https://discord.com/api/v10/` following
    section 5.2 of RFC 3986.
- `CommandOptions`, `Commands` (command_option.dfy, command.dfy): the
  option union with its nesting rules, commands and their builder methods,
  and the raw registration bodies.
- `CommandManagers` (command_manager.dfy): registration, the raw list, and
  the `PUT` request `push` sends, with its log line.
- `InteractionData`, `Handlers`, `Interactions` (interaction_data.dfy,
  handlers.dfy, interactions.dfy): the data subclasses, the handler kinds,
  the interaction subclasses, the type guards, and the responders. Each
  responder is modelled as the endpoint and callback body it posts.
- `InteractionManagers` (interaction_manager.dfy): handler lookup, `handle`,
  the verification middleware, and the route's 500 fallback.
- base.dfy: shared `Option`, `Result`, JSON values and decimal rendering.

Mutating builders and singletons become pure functions from the old value to
the new one. Several things become parameters:

- the process environment (`map<string, string>`) and `argv` (`seq<string>`);
- the Ed25519 check (`verify`);
- `JSON.parse` together with its cast (`parse`);
- UTF-8 encoding (`utf8`);
- a handler's `handle` body (`run`).

`fetch` is replaced by the request value it would be given. Its answer is
replaced by the status it would return.

## Model

| member | source | states |
|---|---|---|
| Uint8Arrays.DecodeHex | src/util/Uint18Array.ts:12-21 | Hex text decodes to one byte per chunk of one or two UTF-16 code units. Each byte is `parseInt` of its chunk, truncated to 8 bits. Decoding fails with "Value is not a valid hex string" exactly when there are no chunks. Its partners are DecodeHexDigits, DecodeEncodeHex and DecodeHexFailsIff. |
| Uint8Arrays.CodeUnitsLineTerminators | src/util/Uint18Array.ts:14 | A string's UTF-16 code units are all line terminators exactly when its characters are, since a surrogate never is one. |
| Uint8Arrays.DecodeHexFailsIff | src/util/Uint18Array.ts:14-18 | Hex decoding throws exactly for a string made only of line terminators, the empty string included. |
| Uint8Arrays.DecodeTwoChunks | src/util/Uint18Array.ts:14-21 | A string whose matches are exactly two chunks decodes to the two bytes those chunks parse to. |
| Uint8Arrays.DecodeSupplementary | src/util/Uint18Array.ts:14-21 | A character outside the Basic Multilingual Plane is two code units and forms a chunk of its own. So such a character followed by a hex digit decodes to two bytes: 0, then the digit's value. For the emoji U+1F600 followed by `a` these are 0 and 10. |
| Uint8Arrays.ChunksEmptyIff | src/util/Uint18Array.ts:14-18 | `match` returns null exactly when every character is a line terminator, since `.` skips them. So the empty string and newline-only strings throw. |
| Uint8Arrays.ParseIntHex | src/util/Uint18Array.ts:20 | `parseInt(chunk, 16)` is NaN exactly when the chunk has no hex digits after leading whitespace, a sign and an optional `0x`. The sign of a parsed result follows the sign character. |
| Uint8Arrays.DecodeHexDigits | src/util/Uint18Array.ts:14-21 | On a string of hex digits, byte k is 16·digit(2k)+digit(2k+1), and an odd last digit stands alone. |
| Uint8Arrays.DecodeEncodeHex | src/util/Uint18Array.ts:12-21 | Decoding the two-digit hex encoding of any non-empty byte sequence gives it back. |
| Uint8Arrays.DecodeEmptyHexFails | src/util/Uint18Array.ts:16-18 | The empty hex string throws rather than giving an empty array. |
| Uint8Arrays.ValueToUint8Array | src/util/Uint18Array.ts:7-44 | null and undefined give an empty array. Hex text is decoded. Other text is UTF-8 encoded. Buffers, ArrayBuffers and Uint8Arrays pass their bytes through. It fails exactly for an unrecognised value, or for hex text made only of line terminators (through DecodeHexFailsIff). |
| Uint8Arrays.ConcatUint8Arrays | src/util/Uint18Array.ts:51-66 | The merged array is the arrays' contents in order, its length is the sum of their lengths, and no arrays give an empty one. |
| Uint8Arrays.FlattenLength | src/util/Uint18Array.ts:52 | The length computed by `reduce` is the length of the concatenation. |
| Logger.AnsiWrapped | src/model/Logger.ts:80-92 | Without bold, italic or colour the text is unchanged. With a colour it is wrapped in an SGR sequence carrying the style codes and `38;2;r;g;b`, then reset. With style only, the opening has no terminating `m`. UnwrapAnsiWrapped is its inverse. |
| Logger.UnwrapAnsiWrapped | src/model/Logger.ts:80-92 | Wrapping loses nothing: the content is recovered from the wrapped text for any configuration. |
| Logger.StyleOnlyIsUnterminated | src/model/Logger.ts:91 | For bold or italic without colour, the escape is followed directly by the codes and the content. No `m` closes the parameter list. |
| Logger.Log | src/model/Logger.ts:24-31 | Without a configuration the content is printed as is. With one it is ANSI-wrapped. JoinedLog of a single part prints the same line. |
| Logger.JoinedLog | src/model/Logger.ts:37-47 | An empty list prints the empty line, and one part prints as `log` would print it. |
| Logger.JoinedLogAppend | src/model/Logger.ts:37-47 | Joining two lists of parts prints the first list's text followed by the second's. |
| Logger.JoinedLogPlain | src/model/Logger.ts:38-44 | Parts without configuration are concatenated unchanged. |
| Logger.CodePrefix | src/model/Logger.ts:64 | A missing or zero code gives no prefix. Any other code gives `[Error <code>]: `. |
| Logger.CodePrefixReadsBack | src/model/Logger.ts:64 | Reading the text between `[Error ` and `]: ` as an integer gives back every non-zero code. A missing or zero code leaves nothing to read. |
| Logger.CodePrefixInjective | src/model/Logger.ts:64 | Two codes give the same prefix only when they are equal or both falsy. |
| Logger.Error | src/model/Logger.ts:53-69 | Without properties the content is printed in the error colour. With properties, the bold code prefix comes first and then the coloured content. |
| Logger.ErrorWithCode | src/model/Logger.ts:54-65 | The exact escape sequences of an error line with a non-zero code: bold red prefix, reset, red content, reset. |
| Environment.ApplicationOf | src/model/Environment.ts:6-12 | Each of id, secret and public key is its variable when set, and the empty string otherwise. Clients.SecretReadings relates its secret to the headers and to the client's getter. |
| Environment.HasArgument | src/model/Environment.ts:42-44 | True exactly when some argument after the first two is `--name` or `-alias` for one of the aliases. |
| Environment.ShouldPushCommands | src/model/Environment.ts:50-52 | True exactly when a user argument is `--push-commands`, `-p` or `-pc`. |
| Uri.Resolve | src/model/static/Endpoint.ts:26 | Resolving a reference against the base URL succeeds exactly for path-relative references. Other reference forms are outside this model. |
| Uri.ResolvePlain | src/model/static/Endpoint.ts:22-26 | A relative path of plain segments, resolved against a base path ending in `/`, is the origin, then the base, then the path. No dot segment or query is introduced. |
| Endpoint.Latest | src/model/static/Endpoint.ts:36-38 | The latest endpoint uses version v10 and starts with an empty path. RunPath shows every permitted chain from it keeps v10. |
| Endpoint.RelativePath | src/model/static/Endpoint.ts:22-24 | A single leading slash is removed, and any other path is kept. PermittedUrl shows that the URL of a permitted chain is the base followed by this relative path. |
| Endpoint.Url | src/model/static/Endpoint.ts:20-27 | The URL is defined exactly when the path without its leading slash is a path-relative reference. |
| Endpoint.RunPermitted | src/model/static/Endpoint.ts:188-217 | A sequence of path steps can be chained from `latest` exactly when each step is offered by the type the previous step returned. |
| Endpoint.RunPath | src/model/static/Endpoint.ts:46-167 | A permitted chain keeps version v10. Its path is the segments of its steps, each behind a slash. |
| Endpoint.RunExtends | src/model/static/Endpoint.ts:46-167 | Each step only appends its own segments to the path built so far. |
| Endpoint.CallbackPath | src/model/static/Endpoint.ts:56-59 | `interaction(id, token).callback` is `/interactions/<id>/<token>/callback`. |
| Endpoint.OriginalMessagePath | src/model/static/Endpoint.ts:67-70 | `webhook(app, token).messages.original` is `/webhooks/<app>/<token>/messages/@original`. |
| Endpoint.CommandsPath | src/model/static/Endpoint.ts:78-95 | The global and guild command paths are `/applications/<app>/commands` and `/applications/<app>/guilds/<guild>/commands`. |
| Endpoint.PermittedUrl | src/model/static/Endpoint.ts:16-27 | For a permitted chain with plain arguments, the URL is always defined. It is `https://discord.com/api/v10/` followed by the path without its leading slash. |
| CommandOptions.TypeCode | src/model/command/CommandOption.ts:20-31 | Each option kind has its own Discord type code from 1 to 11. Code 1 is exactly the subcommand and code 2 exactly the group. |
| CommandOptions.WellFormedDepth | src/model/command/CommandOption.ts:67 | A well-formed option nests at most three deep. A subcommand nests at most two deep, and a value option is a leaf. |
| CommandOptions.ToRaw | src/model/command/CommandOption.ts:168-217 | The raw body carries the type code, name and description. Only the kinds that have choices, lengths, ranges or channel types carry those fields, and only leaves carry `required`. |
| CommandOptions.FromRawToRaw | src/model/command/CommandOption.ts:168-217 | The conversion to raw loses nothing: a reader recovers every option, nested options included. |
| CommandOptions.ToRawInjective | src/model/command/CommandOption.ts:168-217 | Distinct options give distinct raw bodies. |
| CommandOptions.WellFormedIff | src/model/command/CommandOption.ts:49-63 | An option meets the union's rules exactly when its raw record meets the same rules stated on the raw record. The rules cover choices excluding autocomplete, choice values matching the option type, and the nesting allowed. |
| Commands.New | src/model/command/Command.ts:47-53 | A new command has the given name, the given description (empty by default) and the given type (chat input by default). Every optional field is unset. NewRaw gives its registration body. |
| Commands.NewRaw | src/model/command/Command.ts:47-53 | A fresh command registers as its name, an empty description and the chat-input type 1, with no other field set. `defaultMemberPermissions` is `null` in the source; null and absent are both `None`. That body reads back as the same command. |
| Commands.AddOption | src/model/command/Command.ts:61-65 | The option is appended to the existing options, which start empty, and nothing else changes. |
| Commands.AddOptions | src/model/command/Command.ts:71-74 | The options are appended in order. No options leaves the command unchanged, and the other fields never change. |
| Commands.AddOptionsAppend | src/model/command/Command.ts:71-74 | Adding two lists of options in two calls is adding their concatenation. |
| Commands.AddOptionsSnoc | src/model/command/Command.ts:61-74 | Adding a list of options and then one more is adding the longer list, so `addOptions` is `addOption` repeated in argument order. |
| Commands.SetDefaultMemberPermissions | src/model/command/Command.ts:80-83 | Only the default member permissions change. |
| Commands.SetIsDMAllowed | src/model/command/Command.ts:89-92 | Only the DM permission changes. |
| Commands.SetIsNSFW | src/model/command/Command.ts:98-101 | Only the age restriction changes. |
| Commands.SettersCommute | src/model/command/Command.ts:80-101 | The setters commute, and a later call of the same setter overrides an earlier one. |
| Commands.ToRaw | src/model/command/Command.ts:106-116 | The raw body carries name, description, type, permissions, DM permission and NSFW. Its options are present exactly when the command's are, each option converted element by element. |
| Commands.FromRawToRaw | src/model/command/Command.ts:36-38 | A command is recovered from its raw body. |
| Commands.AddOptionsOnRaw | src/model/command/Command.ts:71-74 | After adding options, the raw options are the old raw options followed by the new ones. |
| CommandManagers.Register | src/model/manager/CommandManager.ts:42-44 | The commands are appended after those already registered, in order. |
| CommandManagers.RegisterAccumulates | src/model/manager/CommandManager.ts:42-44 | Registering in two calls is registering the concatenation. |
| CommandManagers.RawCommands | src/model/manager/CommandManager.ts:22-24 | There is one raw body per registered command, in order, and each converts back to its command. |
| CommandManagers.Push | src/model/manager/CommandManager.ts:51-59 | `push` sends a PUT to the application's commands URL. The secret travels behind `Bot ` and is recovered unchanged. The body is every registered command in order. |
| CommandManagers.PushAsWrittenThrows | src/model/manager/CommandManager.ts:52 | Calling the `endpoint` getter's value throws before any request, so the intended request is never sent. |
| CommandManagers.PushLogSuccess | src/model/manager/CommandManager.ts:61-62 | Status 200 logs the plain success line, and every other status logs a different line. |
| CommandManagers.PushLogFailure | src/model/manager/CommandManager.ts:63-67 | Every status other than 200 logs the same bold-red line, tagged `[Error 409]` whatever Discord answered. |
| Clients.RequestHeadersCarrySecret | src/model/client/Client.ts:37-42 | The headers are exactly Authorization and a JSON Content-Type, and the secret is recovered from `Bot <secret>`. |
| Clients.RequestHeadersInjective | src/model/client/Client.ts:37-42 | Different secrets give different headers. |
| Clients.EnvironmentSecret | src/model/client/Client.ts:32-34 | The client's secret is the variable when set. When unset, the template literal renders it as `undefined`. |
| Clients.SecretReadings | src/model/client/Client.ts:32-42 | Headers built from the environment's secret carry the variable, or the empty string when it is unset. The client's getter agrees when the variable is set. When it is unset, the getter's headers carry `undefined` instead, so they differ. |
| Clients.ApplicationEndpoint | src/model/client/Client.ts:20-22 | The `endpoint` getter is the chain `latest.application(id)`, whose path is `/applications/<id>`. |
| Handlers.TypeOf | src/model/interaction/InteractionHandler.ts:49-129 | Each handler kind declares an interaction type other than ping. |
| Handlers.GuardsClassify | src/model/interaction/InteractionHandler.ts:25-42 | Each type guard holds for exactly its own handler kind. |
| InteractionData.ChatInput | src/model/interaction/InteractionData.ts:99-103 | Chat-input data keeps the common fields, the options and the guild. |
| InteractionData.InitCommand | src/model/interaction/InteractionData.ts:57-69 | The data keeps the raw fields. Chat-input data keeps options and guild, and context-menu data keeps its target. |
| InteractionData.InitCommandClassifies | src/model/interaction/InteractionData.ts:57-84 | The subclass chosen agrees with `isCommand` and `isContextMenu`, which never both hold. The diagnostic is printed exactly for the base class. |
| InteractionData.MessageCommandAsWritten | src/model/interaction/InteractionData.ts:60-68 | As written, a message command gets the base class although `isContextMenu` holds for it, and "Invalid interaction type." is printed. The corrected factory gives it context-menu data and prints nothing. |
| InteractionData.CommandDiagnosticAgrees | src/model/interaction/InteractionData.ts:60-68 | The printed line as written and the corrected one agree for every type but message commands. As written, the line is printed exactly when the base class is built. |
| InteractionData.InitCommandAgrees | src/model/interaction/InteractionData.ts:60-68 | For every type other than message commands, the corrected factory agrees with the code as written. |
| InteractionData.FindOption | src/model/interaction/InteractionData.ts:113-122 | The search returns the first option of the type. It returns none exactly when no option has that type. |
| InteractionData.SubcommandPathAsWrittenShape | src/model/interaction/InteractionData.ts:113-122 | As written, a path exists exactly when some top-level option is a subcommand. It is `group/sub` with a top-level group, and `sub` without one. |
| InteractionData.SubcommandPath | src/model/interaction/InteractionData.ts:113-122 | Without a subcommand group, the corrected path agrees with the code as written. |
| InteractionData.SubcommandPathInGroup | src/model/interaction/InteractionData.ts:113-122 | For a subcommand inside a group, the code as written finds no path, while the corrected one gives `group/sub`. |
| InteractionData.SubcommandPathPresent | src/model/interaction/InteractionData.ts:113-122 | The corrected path exists exactly when there is a subcommand: at the top level without a group, and inside the group otherwise. |
| InteractionData.InitComponent | src/model/interaction/InteractionData.ts:165-181 | Component data keeps the custom id and component type. Select-menu data keeps the selected values. |
| InteractionData.InitComponentClassifies | src/model/interaction/InteractionData.ts:165-199 | The subclass chosen agrees with `isButton` and `isSelectMenu`, which never both hold. The diagnostic is printed exactly for the base class. |
| InteractionData.InitModal | src/model/interaction/InteractionData.ts:252-255 | Modal data keeps the custom id and the submitted components. |
| InteractionData.InitModalRoundTrip | src/model/interaction/InteractionData.ts:252-255 | The constructor is inverse to reading the payload back, so distinct payloads give distinct modal data. |
| Interactions.BaseOf | src/model/interaction/Interaction.ts:88-105 | The common fields are copied from the raw payload. The corrected constructor takes the permissions from `app_permissions` and keeps the locale. |
| Interactions.BaseAsWrittenLosesFields | src/model/interaction/Interaction.ts:93-94 | As written, the permissions are the application id and the locale is never set. The two constructors agree only when the payload already has those values. |
| Interactions.Init | src/model/interaction/Interaction.ts:111-127 | Building an interaction fails exactly when a subclass that reads `data` is given a payload without it. Otherwise the common fields are those of the corrected constructor (BaseOf), and command data is that of the corrected factory (InteractionData.InitCommand). |
| Interactions.InitClassifies | src/model/interaction/Interaction.ts:111-154 | On what `init` builds, each type guard holds exactly for its own subclass. "Invalid interaction type." is printed exactly for the base class. |
| Interactions.InitLog | src/model/interaction/Interaction.ts:111-127 | Building an interaction prints at most one line. A payload without the data it needs prints nothing, and an unknown interaction type prints "Invalid interaction type.". This is the corrected program: it uses the corrected command diagnostic, so a message command prints nothing. InitLogAsWrittenDiffers gives the log as written. |
| Interactions.InitLogAsWrittenDiffers | src/model/interaction/InteractionData.ts:60-68 | The building log as written differs from the corrected one exactly for a command payload of a message command. There the log as written is ["Invalid interaction type."] and the corrected log is empty. |
| Interactions.InitLogIff | src/model/interaction/InteractionData.ts:57-69 | Building prints a line exactly when the interaction, its command data or its component data falls back to the base class. For components the line is "Invalid component type.", and otherwise "Invalid interaction type.". |
| Interactions.InitThrows | src/model/interaction/Interaction.ts:111-127 | Only the four data-reading types can throw, and each does when `data` is missing. |
| Interactions.InitData | src/model/interaction/Interaction.ts:291-419 | Autocomplete gets chat-input data and commands get the corrected factory's data (InteractionData.InitCommand). Components get component data and the message, and modals get modal data. |
| Interactions.Key | src/model/manager/InteractionManager.ts:42-52 | Every interaction except pings and the base class has a name or custom id to be matched on. |
| Interactions.InitKey | src/model/manager/InteractionManager.ts:42-52 | The key is the command name for commands and autocomplete, and the custom id for components and modals. |
| Interactions.Sender | src/model/interaction/Interaction.ts:78-80 | The sender is the member's user when there is one, and the interaction's user otherwise. |
| Interactions.SenderOfInit | src/model/interaction/Interaction.ts:78-80 | For what `init` builds, the sender is the payload's member user in a guild and the payload's user otherwise. There is no sender exactly when the payload has neither. A sender is always one of the payload's two users. |
| Interactions.InitModalSubmission | src/model/interaction/Interaction.ts:111-127 | A modal submission built by `init` carries the payload's modal data unchanged. Its key is the payload's custom id. |
| Interactions.Flagged | src/model/interaction/Interaction.ts:193-245 | The response fields keep every key but `flags`. `flags` is 64 exactly when ephemeral and is absent otherwise. |
| Interactions.Defer | src/model/interaction/Interaction.ts:193-204 | `defer` posts a deferred channel message to the callback URL. Its body holds only `flags`, and it is ephemeral exactly when asked. |
| Interactions.EditResponse | src/model/interaction/Interaction.ts:211-223 | `editResponse` targets the original-message webhook with a channel-message body. The body is the fields with the ephemeral flag. |
| Interactions.Respond | src/model/interaction/Interaction.ts:230-245 | `respond` posts a channel message to the callback URL, ephemeral exactly when asked. Plain text becomes the `content` field. |
| Interactions.RespondTextIsContent | src/model/interaction/Interaction.ts:230-245 | Responding with text is responding with a `content` field. `respond` and `editResponse` build the same callback body. |
| Interactions.ShowModal | src/model/interaction/Interaction.ts:258-267 | `showModal` posts the modal response type with the modal as data to the callback URL. |
| Interactions.ChoiceRoundTrip | src/model/interaction/Interaction.ts:302-313 | An autocomplete choice is recovered from its JSON. |
| Interactions.RespondWith | src/model/interaction/Interaction.ts:302-313 | `respondWith` posts an autocomplete result whose data holds only `choices`. That holds exactly the given choices, in order. |
| Interactions.DeferUpdateOriginalMessage | src/model/interaction/Interaction.ts:374-382 | Posts the deferred-update response type without data to the callback URL. |
| Interactions.UpdateOriginalMessage | src/model/interaction/Interaction.ts:388-397 | Posts the update-message response type with the fields as data to the callback URL. |
| Interactions.RespondersTargets | src/model/interaction/Interaction.ts:193-397 | Every responder but `editResponse` posts to the same callback URL. |
| Interactions.ResponseTypesDistinct | src/model/interaction/Interaction.ts:193-397 | `defer`, `respond`, `showModal`, `respondWith`, `deferUpdateOriginalMessage` and `updateOriginalMessage` send the types 5, 4, 9, 8, 6 and 7. These are pairwise distinct and none is the pong type. Only `editResponse` shares a type, with `respond`. |
| Interactions.OnlyUpdateKeepsFlags | src/model/interaction/Interaction.ts:193-397 | Of the message responders, only `updateOriginalMessage` passes a caller's `flags` through. `respond`, `editResponse` and `defer` carry `flags` exactly when ephemeral, as 64. |
| Interactions.CallbackEndpoint | src/model/interaction/Interaction.ts:194 | The callback URL is the chain `interaction(id, token).callback`. |
| Interactions.OriginalEndpoint | src/model/interaction/Interaction.ts:212 | The original-message URL is the chain `webhook(applicationId, token).messages.original`. |
| Interactions.SendTo | src/model/interaction/Interaction.ts:163-170 | The response is POSTed to the target URL, with the secret in the authorization header and the callback as the body. |
| Interactions.SendToAsWrittenThrows | src/model/interaction/Interaction.ts:168 | Calling the `requestHeaders` getter's value throws, so no response is ever sent. |
| Interactions.SendToLogPresence | src/model/interaction/Interaction.ts:173-177 | A line is logged exactly when Discord does not answer 204. |
| Interactions.SendToLogReportsStatus | src/model/interaction/Interaction.ts:173-177 | For a non-zero status the line names that status as `[Error <status>]`. |
| InteractionManagers.Register | src/model/manager/InteractionManager.ts:36-38 | A handler is appended, and an absent one leaves the manager unchanged. |
| InteractionManagers.MatchesIff | src/model/manager/InteractionManager.ts:41-55 | A handler answers an interaction exactly when their types agree and the interaction's name or custom id is the handler's. |
| InteractionManagers.NothingMatchesPing | src/model/manager/InteractionManager.ts:41-55 | No handler answers a ping or an interaction of unknown type. |
| InteractionManagers.FirstMatch | src/model/manager/InteractionManager.ts:41 | The first handler in registration order that matches, or none exactly when none matches. |
| InteractionManagers.HandlerFor | src/model/manager/InteractionManager.ts:40-61 | The lookup returns the first matching handler. It throws the "Could not find a handler" message with id and type exactly when none matches. |
| InteractionManagers.FirstRegisteredWins | src/model/manager/InteractionManager.ts:36-55 | Registering another handler never changes which handler an already-answered interaction gets. |
| InteractionManagers.FailureLogAsWrittenLosesError | src/model/manager/InteractionManager.ts:88-91 | As written, every failure logs the same `[object Object]` line. The corrected line is bold `[Error 400]: ` followed by the error text, from which the error can be told apart. |
| InteractionManagers.Handle | src/model/manager/InteractionManager.ts:70-96 | Handling throws exactly when `init` does, and otherwise answers 200 or 404. The log starts with the lines building the interaction printed. A ping is answered 200 with `{"type":1}` and logs nothing. This is the corrected program: the error line is FailureLog, not the `[object Object]` line as written, and the building lines are InitLog's. |
| InteractionManagers.HandleSucceeds | src/model/manager/InteractionManager.ts:75-95 | The answer is 200 exactly for a ping, or when the first matching handler completes. A 404 has no body and logs one line after the building lines. A 200 logs only the building lines. |
| InteractionManagers.HandleWithoutHandler | src/model/manager/InteractionManager.ts:80-95 | With no matching handler no handler code runs. A non-ping gets 404, and its log is the building lines followed by the not-found message. This is the corrected program: as written the line is FailureLogAsWritten's `[object Object]`. |
| InteractionManagers.Serve | src/index.ts:45-51 | A request without a body gets 501 "Invalid request signature.". An error the signature check throws escapes with that error's text. Every answer is one of 200, 401, 404, 500 and 501. |
| InteractionManagers.ServeRejectsUnverified | src/model/manager/InteractionManager.ts:116-125 | A signature that fails verification gets 401 "Invalid request signature." before the body is parsed or any handler runs. |
| InteractionManagers.ServeOnlyVerifiedReachesHandlers | src/model/manager/InteractionManager.ts:102-129 | A 200, 404 or 500 answer implies the signature verified and the body parsed. A 500 comes exactly from an interaction `init` rejects. |
| InteractionManagers.ServeVerified | src/model/manager/InteractionManager.ts:116-128 | A verified and parsed request is answered as `handle` answers it. |

## Left out

- Ed25519 signature verification is the parameter `verify`. Its Buffer and hex decoding is folded into it.
- `fetch`, Hono's context, `streamToString`, `TextEncoder`, `JSON.parse` and `JSON.stringify` are outside the model. Requests are values, statuses are inputs, and parsing is the parameter `parse`.
- An error that escapes the verification middleware, such as a missing signature header or a throwing `verify`, is left to Hono. It is modelled as `Escaped` with the error's text and without an HTTP answer.
- Printing to the console is modelled as the line's text. The data classes' `console.error` diagnostics are modelled as the text they would print.
- JavaScript numbers are unbounded integers here. A Number option's `minValue` and `maxValue`, a choice's value and the numbers of the JSON responses may be doubles in the source and are integers in the model. `NaN` enters only through `parseInt`, which is modelled.
- Strings are sequences of Unicode scalar values. The hex decoder reads them as UTF-16 code units, and writes each unit of a surrogate pair as U+FFFD, which every step of the decoder treats as it treats a surrogate. A lone surrogate cannot occur in the model's strings. UTF-8 encoding is the parameter `utf8`.
- URL resolution covers path-relative references, section 5.2 of RFC 3986. Other reference forms give no URL, and percent-encoding and the WHATWG URL parser's further normalisation are outside the model.
- Screen and modal builders, Snowflake, and the other status codes and getters of the client are not part of this model.
- The `commands` getter of src/model/manager/CommandManager.ts:17-19 returns itself and recurses until the stack overflows. Nothing in the core reads it, so it is not modelled.
- The call `push()` without arguments at src/index.ts:27 is the script's start-up and is not part of this model.
- A handler's `handle` body is user code. It is the parameter `run`, which reports success or the error text it threw.
- `null` and an absent property are the same `None` throughout. So `defaultMemberPermissions = null` in the command constructor and an unset field read alike.
- A payload whose `data` has the wrong shape for its type is treated like one without data. Only missing data is distinguished in the model.
- Error texts thrown by the JavaScript runtime, such as "is not a function", are written in one engine's wording; other engines word them differently.
- The `env` argument of the interaction constructors is unused in the source and left out.
- Interactions.Init: states the corrected program. The common fields are BaseOf's and command data is the corrected InteractionData.InitCommand's. As written, a message command gets base data without its target (InteractionData.MessageCommandAsWritten), and the common fields are those of Interactions.BaseAsWrittenLosesFields.
- Interactions.InitData: states that commands get the corrected InteractionData.InitCommand's data. As written, a message command gets base data, which InteractionData.MessageCommandAsWritten states.
- Interactions.InitLog: states the corrected program's log, in which a message command prints nothing. As written it prints "Invalid interaction type.", which Interactions.InitLogAsWrittenDiffers states.
- InteractionManagers.Handle: states the corrected program. As written the error line is FailureLogAsWritten's `[object Object]` and the building lines are Interactions.InitLogAsWritten's, so the log does not start with InitLog for a message command.
- InteractionManagers.HandleWithoutHandler: states the corrected not-found line. As written it is FailureLogAsWritten's `[object Object]`, the same whatever the message.
- The raw option record is keyed by field, not by JSON name. The source spells some keys in camelCase (`hasAutocomplete`, `minLength`, `maxLength`, `minValue`, `maxValue`, `channelTypes`) where Discord's API expects snake_case. The model does not state the key spelling.
- Interactions.SendToLogReportsStatus: does not state the line for status 0, which `error` prints without a code because 0 is falsy. That case is covered by Logger.CodePrefix instead.

## Findings

| source | as written | input that shows it | evidently intended | confidence | as-written member | corrected member |
|---|---|---|---|---|---|---|
| src/model/manager/InteractionManager.ts:88-91 | `Logger.shared.error` is passed one object holding the content and the code, where it takes a string and properties | any handler failure or missing handler: the line is `[object Object]` in red with no code | log `String(error)` with code 400 | high, not executed | InteractionManagers.FailureLogAsWrittenLosesError | InteractionManagers.FailureLog |
| src/model/manager/CommandManager.ts:52 | the `endpoint` getter's value is called as a function | any call of `push` throws "Client.shared.endpoint is not a function" | `endpoint` read as a property, with the commands URL built from `push`'s own `applicationId` argument (CommandManager.ts:48) | high, not executed | CommandManagers.PushAsWrittenThrows | CommandManagers.Push |
| src/model/interaction/Interaction.ts:168 | the `requestHeaders` getter's value is called as a function | every responder throws "Client.shared.requestHeaders is not a function" | headers built from the secret | high, not executed | Interactions.SendToAsWrittenThrows | Interactions.SendTo |
| src/model/interaction/InteractionData.ts:113-122 | only top-level options are searched for the subcommand | a group `g` holding subcommand `s`: the path is undefined | `g/s` | medium, not executed | InteractionData.SubcommandPathInGroup | InteractionData.SubcommandPath |
| src/model/interaction/InteractionData.ts:60-68 | only user commands get context-menu data | a message command (type 3) gets base data although `isContextMenu` holds, and "Invalid interaction type." is printed | context-menu data with its target | medium, not executed | InteractionData.MessageCommandAsWritten | InteractionData.InitCommand |
| src/model/interaction/Interaction.ts:93-94 | `applicationPermissions` is copied from `application_id`, and `locale` is never assigned | any payload whose `app_permissions` differs from its application id | permissions from `app_permissions`, locale from `locale` | high, not executed | Interactions.BaseAsWrittenLosesFields | Interactions.BaseOf |

=== FILE: base.dfy ===
/** The optional-value wrapper used wherever the source has a field or a
    result that may be `undefined` or `null`. */
module Optional {

  datatype Option<+T> = None | Some(value: T) {

    /** The wrapped value, or `default` when there is none (the `??` operator). */
    function GetOr(default: T): T {
      match this
      case Some(v) => v
      case None => default
    }
  }
}

/** The results of operations that can throw in the source. */
module Results {

  datatype Result<+T> = Ok(value: T) | Err(message: string)
}

/** JSON values, used for the payloads this system carries without looking
    inside them (resolved entities, channels, message bodies, modal
    components). Numbers are integers in this model. */
module Json {

  datatype Json =
    | Null
    | Bool(b: bool)
    | Number(n: int)
    | String(s: string)
    | Array(items: seq<Json>)
    | Object(members: map<string, Json>)
}

/** Decimal rendering of integers, as a JavaScript template literal renders an
    integral number. */
module Strings {

  function DigitChar(d: nat): (c: char)
    requires d < 10
    ensures '0' <= c <= '9'
  {
    "0123456789"[d]
  }

  function DigitValue(c: char): (d: nat)
    requires '0' <= c <= '9'
    ensures d < 10
  {
    (c as int - '0' as int) as nat
  }

  /** Decimal digits of `n`, most significant first, no leading zeros. */
  function NatToString(n: nat): (s: string)
    ensures 1 <= |s|
    ensures forall i :: 0 <= i < |s| ==> '0' <= s[i] <= '9'
    decreases n
  {
    if n < 10 then [DigitChar(n)] else NatToString(n / 10) + [DigitChar(n % 10)]
  }

  function IntToString(x: int): (s: string)
    ensures 1 <= |s|
  {
    if x < 0 then "-" + NatToString(-x) else NatToString(x)
  }

  /** The value of a non-empty string of decimal digits. */
  function ParseNat(s: string): nat
    requires forall i :: 0 <= i < |s| ==> '0' <= s[i] <= '9'
  {
    if |s| == 0 then 0 else ParseNat(s[..|s| - 1]) * 10 + DigitValue(s[|s| - 1])
  }

  /** Rendering loses nothing: the digits read back as the number. */
  lemma {:induction false} NatToStringRoundTrip(n: nat)
    ensures ParseNat(NatToString(n)) == n
    decreases n
  {
    var s := NatToString(n);
    if n < 10 {
      assert s[..|s| - 1] == [];
    } else {
      NatToStringRoundTrip(n / 10);
      assert s[..|s| - 1] == NatToString(n / 10);
    }
  }
}

/** Sequence facts stated once for any element type, so that proofs about
    sequences of large records do not unfold the records to compare them. */
module Sequences {
  lemma HeadTail<T>(a: seq<T>, b: seq<T>)
    requires |a| > 0
    ensures (a + b)[0] == a[0]
    ensures (a + b)[1..] == a[1..] + b
  {
  }

  lemma Associative<T>(x: seq<T>, y: seq<T>, z: seq<T>)
    ensures x + (y + z) == (x + y) + z
  {
  }

  lemma AppendEmpty<T>(a: seq<T>, b: seq<T>)
    requires |a| == 0
    ensures a + b == b
  {
  }
}

=== FILE: client.dfy ===
/** The computed properties of src/model/client/Client.ts that the command push
    and the interaction responders use, and the shape of the HTTP requests
    they hand to `fetch`. The process environment is a parameter. */
module Clients {
  import opened Optional
  import Endpoint
  import Environment

  /** The HTTP methods the system sends with. */
  datatype Method = Post | Put

  /** A request as passed to `fetch`: the HTTP method, the URL of the endpoint,
      the headers and the body before `JSON.stringify`. */
  datatype Request<B> = Request(verb: Method, url: Option<string>, headers: map<string, string>, body: B)

  /** The `Bot ` prefix of the authorization header. */
  const BotPrefix: string := "Bot "

  /** `requestHeaders` for a given application secret. */
  function RequestHeaders(secret: string): map<string, string> {
    map["Authorization" := BotPrefix + secret, "Content-Type" := "application/json"]
  }

  /** The secret an authorization header carries. */
  function SecretOf(headers: map<string, string>): Option<string> {
    if "Authorization" in headers && |headers["Authorization"]| >= |BotPrefix|
       && headers["Authorization"][..|BotPrefix|] == BotPrefix
    then Some(headers["Authorization"][|BotPrefix|..])
    else None
  }

  /** The headers carry exactly two entries, a JSON content type and the
      secret behind `Bot `, from which the secret is recovered unchanged. */
  lemma RequestHeadersCarrySecret(secret: string)
    ensures RequestHeaders(secret).Keys == {"Authorization", "Content-Type"}
    ensures RequestHeaders(secret)["Content-Type"] == "application/json"
    ensures SecretOf(RequestHeaders(secret)) == Some(secret)
  {
    var h := BotPrefix + secret;
    assert h[..|BotPrefix|] == BotPrefix;
    assert h[|BotPrefix|..] == secret;
  }

  /** Distinct secrets give distinct headers. */
  lemma RequestHeadersInjective(a: string, b: string)
    requires RequestHeaders(a) == RequestHeaders(b)
    ensures a == b
  {
    RequestHeadersCarrySecret(a);
    RequestHeadersCarrySecret(b);
  }

  /** The `applicationSecret` getter as the template literal renders it: an
      unset variable reads as the text `undefined`. */
  function EnvironmentSecret(env: map<string, string>): (r: string)
    ensures "APPLICATION_SECRET" in env ==> r == env["APPLICATION_SECRET"]
    ensures "APPLICATION_SECRET" !in env ==> r == "undefined"
  {
    if "APPLICATION_SECRET" in env then env["APPLICATION_SECRET"] else "undefined"
  }

  /** The two readings of the secret: the environment's `application`
      getter falls back to `""`, the client's getter to the text
      `undefined`. Headers built from either carry the variable when it is
      set; when it is unset they carry different secrets, so the command
      push and the responders authorize differently. */
  lemma SecretReadings(env: map<string, string>)
    ensures SecretOf(RequestHeaders(Environment.ApplicationOf(env).secret))
            == Some(Environment.Variable(env, "APPLICATION_SECRET"))
    ensures "APPLICATION_SECRET" in env ==>
      RequestHeaders(EnvironmentSecret(env)) == RequestHeaders(Environment.ApplicationOf(env).secret)
    ensures "APPLICATION_SECRET" !in env ==>
      SecretOf(RequestHeaders(EnvironmentSecret(env))) == Some("undefined")
      && SecretOf(RequestHeaders(Environment.ApplicationOf(env).secret)) == Some("")
      && RequestHeaders(EnvironmentSecret(env)) != RequestHeaders(Environment.ApplicationOf(env).secret)
  {
    RequestHeadersCarrySecret(Environment.ApplicationOf(env).secret);
    RequestHeadersCarrySecret(EnvironmentSecret(env));
  }

  /** The `endpoint` getter: `Endpoint.latest.application(applicationId)`. */
  function ApplicationEndpoint(applicationId: string): (e: Endpoint.Endpoint)
    ensures Endpoint.Run([Endpoint.ApplicationStep(applicationId)]) == Some(e)
    ensures e.path == "/applications/" + applicationId
  {
    var steps := [Endpoint.ApplicationStep(applicationId)];
    assert Endpoint.Run(steps) == Endpoint.RunFrom(Endpoint.ApplicationStage, Endpoint.Application(Endpoint.Latest(), applicationId), steps[1..]);
    Endpoint.Application(Endpoint.Latest(), applicationId)
  }

  /** The error a call of a getter's value raises: neither `endpoint` nor
      `requestHeaders` is a method, so `Client.shared.endpoint(...)` and
      `Client.shared.requestHeaders(...)` call an object. */
  function NotAFunction(property: string): string {
    "TypeError: Client.shared." + property + " is not a function"
  }
}

=== FILE: command.dfy ===
/** The application command of src/model/command/Command.ts: the builder
    (constructor defaults, `addOption`, `addOptions`, the setters) and the
    `toRaw` transform to the registration body. Each builder call is a pure
    function from the command before to the command after; the source
    mutates and returns the same object. */
module Commands {
  import opened Optional
  import opened CommandOptions
  import Sequences

  // ApplicationCommandType codes.
  const ChatInputCode: int := 1
  const UserCode: int := 2
  const MessageCode: int := 3

  /** A command. `defaultMemberPermissions` is `None` for `null`; the other
      optional properties are `None` when unset. */
  datatype Command = Command(
    name: string,
    description: string,
    typ: int,
    options: Option<seq<CommandOption>>,
    defaultMemberPermissions: Option<string>,
    isDMAllowed: Option<bool>,
    isNSFW: Option<bool>)

  /** `new Command(name, description = "", type = ChatInput)`. */
  function New(name: string, description: string := "", typ: int := ChatInputCode): (c: Command)
    ensures c.name == name && c.description == description && c.typ == typ
    ensures c.options.None? && c.defaultMemberPermissions.None?
    ensures c.isDMAllowed.None? && c.isNSFW.None?
  {
    Command(name, description, typ, None, None, None, None)
  }

  /** The options so far, an unset list read as empty. */
  function OptionsOf(c: Command): seq<CommandOption> {
    if c.options.Some? then c.options.value else []
  }

  /** `addOption`: the list is created when unset and the option appended. */
  function AddOption(c: Command, o: CommandOption): (r: Command)
    ensures r.options == Some(OptionsOf(c) + [o])
    ensures r == c.(options := r.options)
  {
    c.(options := Some(OptionsOf(c) + [o]))
  }

  /** `addOptions(...options)`: `addOption` for each argument in order. */
  function AddOptions(c: Command, os: seq<CommandOption>): (r: Command)
    ensures |os| == 0 ==> r == c
    ensures |os| > 0 ==> r.options == Some(OptionsOf(c) + os)
    ensures r == c.(options := r.options)
    decreases |os|
  {
    if |os| == 0 then c
    else
      var next := AddOption(c, os[0]);
      var r := AddOptions(next, os[1..]);
      assert OptionsOf(next) == OptionsOf(c) + [os[0]];
      SplitFirst(OptionsOf(c), os);
      r
  }

  /** Appending the first element, then the rest, appends the whole list. */
  lemma SplitFirst<T>(prefix: seq<T>, os: seq<T>)
    requires |os| > 0
    ensures (prefix + [os[0]]) + os[1..] == prefix + os
    ensures |os| == 1 ==> prefix + [os[0]] == prefix + os
  {
    Sequences.Associative(prefix, [os[0]], os[1..]);
    assert [os[0]] + os[1..] == os;
  }

  /** Adding two lists in turn is adding their concatenation. */
  lemma {:induction false} AddOptionsAppend(c: Command, a: seq<CommandOption>, b: seq<CommandOption>)
    ensures AddOptions(AddOptions(c, a), b) == AddOptions(c, a + b)
    decreases |a|
  {
    if |a| == 0 {
      Sequences.AppendEmpty(a, b);
    } else {
      Sequences.HeadTail(a, b);
      AddOptionsAppend(AddOption(c, a[0]), a[1..], b);
    }
  }

  /** Adding a list and then one more option is adding the longer list:
      `addOptions` is `addOption` repeated in argument order. */
  lemma AddOptionsSnoc(c: Command, os: seq<CommandOption>, o: CommandOption)
    ensures AddOptions(c, os + [o]) == AddOption(AddOptions(c, os), o)
  {
    AddOptionsAppend(c, os, [o]);
    var d := AddOptions(c, os);
    assert AddOptions(d, [o]) == AddOption(d, o) by {
      assert [o][1..] == [];
    }
  }

  /** `setDefaultMemberPermissions`. */
  function SetDefaultMemberPermissions(c: Command, permissions: string): (r: Command)
    ensures r.defaultMemberPermissions == Some(permissions)
    ensures r.name == c.name && r.description == c.description && r.typ == c.typ
    ensures r.options == c.options && r.isDMAllowed == c.isDMAllowed && r.isNSFW == c.isNSFW
  {
    c.(defaultMemberPermissions := Some(permissions))
  }

  /** `setIsDMAllowed`. */
  function SetIsDMAllowed(c: Command, value: bool): (r: Command)
    ensures r.isDMAllowed == Some(value)
    ensures r.name == c.name && r.description == c.description && r.typ == c.typ
    ensures r.options == c.options && r.defaultMemberPermissions == c.defaultMemberPermissions
    ensures r.isNSFW == c.isNSFW
  {
    c.(isDMAllowed := Some(value))
  }

  /** `setIsNSFW`. */
  function SetIsNSFW(c: Command, value: bool): (r: Command)
    ensures r.isNSFW == Some(value)
    ensures r.name == c.name && r.description == c.description && r.typ == c.typ
    ensures r.options == c.options && r.defaultMemberPermissions == c.defaultMemberPermissions
    ensures r.isDMAllowed == c.isDMAllowed
  {
    c.(isNSFW := Some(value))
  }

  /** The setters touch distinct fields, so their order does not matter, and
      the last of two calls to the same setter wins. */
  lemma SettersCommute(c: Command, p: string, dm: bool, nsfw: bool)
    ensures SetIsDMAllowed(SetDefaultMemberPermissions(c, p), dm) == SetDefaultMemberPermissions(SetIsDMAllowed(c, dm), p)
    ensures SetIsNSFW(SetIsDMAllowed(c, dm), nsfw) == SetIsDMAllowed(SetIsNSFW(c, nsfw), dm)
    ensures SetIsNSFW(SetDefaultMemberPermissions(c, p), nsfw) == SetDefaultMemberPermissions(SetIsNSFW(c, nsfw), p)
    ensures SetIsDMAllowed(SetIsDMAllowed(c, !dm), dm) == SetIsDMAllowed(c, dm)
  {
  }

  // ---------------------------------------------------------------------
  // The registration body
  // ---------------------------------------------------------------------

  /** `RESTPostAPIApplicationCommandsJSONBody` as `toRaw` builds it. */
  datatype RawCommand = RawCommand(
    name: string,
    description: string,
    typ: int,
    options: Option<seq<RawOption>>,
    defaultMemberPermissions: Option<string>,
    dmPermission: Option<bool>,
    nsfw: Option<bool>)

  /** `toRaw`, which is also the `raw` getter. */
  function ToRaw(c: Command): (r: RawCommand)
    ensures r.name == c.name && r.description == c.description && r.typ == c.typ
    ensures r.options.Some? <==> c.options.Some?
    ensures c.options.Some? ==> |r.options.value| == |c.options.value|
    ensures c.options.Some? ==> forall i :: 0 <= i < |c.options.value| ==> r.options.value[i] == CommandOptions.ToRaw(c.options.value[i])
    ensures r.defaultMemberPermissions == c.defaultMemberPermissions
    ensures r.dmPermission == c.isDMAllowed && r.nsfw == c.isNSFW
  {
    RawCommand(
      c.name,
      c.description,
      c.typ,
      if c.options.Some? then Some(ToRawAll(c.options.value)) else None,
      c.defaultMemberPermissions,
      c.isDMAllowed,
      c.isNSFW)
  }

  /** The command a registration body describes, or `None` when a nested
      option does not read back. */
  function FromRaw(r: RawCommand): Option<Command> {
    if r.options.None? then
      Some(Command(r.name, r.description, r.typ, None, r.defaultMemberPermissions, r.dmPermission, r.nsfw))
    else
      match FromRawAll(r.options.value)
      case None => None
      case Some(os) => Some(Command(r.name, r.description, r.typ, Some(os), r.defaultMemberPermissions, r.dmPermission, r.nsfw))
  }

  /** `toRaw` loses nothing about a command. */
  lemma FromRawToRaw(c: Command)
    ensures FromRaw(ToRaw(c)) == Some(c)
  {
    if c.options.Some? {
      FromRawAllToRawAll(c.options.value);
    }
  }

  /** Each setter changes exactly its own property of the registration body. */
  lemma SettersOnRaw(c: Command, p: string, v: bool)
    ensures ToRaw(SetDefaultMemberPermissions(c, p)) == ToRaw(c).(defaultMemberPermissions := Some(p))
    ensures ToRaw(SetIsDMAllowed(c, v)) == ToRaw(c).(dmPermission := Some(v))
    ensures ToRaw(SetIsNSFW(c, v)) == ToRaw(c).(nsfw := Some(v))
  {
  }

  /** A fresh command registers as its name, the default empty description
      and chat-input type, and no other property set: the `null` default
      member permissions and the unset fields are all `None`. The body reads
      back as the same command. */
  lemma NewRaw(name: string, description: string, typ: int)
    ensures ToRaw(New(name)) == RawCommand(name, "", ChatInputCode, None, None, None, None)
    ensures ToRaw(New(name, description, typ)) == RawCommand(name, description, typ, None, None, None, None)
    ensures FromRaw(RawCommand(name, description, typ, None, None, None, None)) == Some(New(name, description, typ))
    ensures ToRaw(New(name)).typ == 1
  {
  }

  /** Adding options appends their raw forms, in order, to the raw options. */
  lemma AddOptionsOnRaw(c: Command, os: seq<CommandOption>)
    requires |os| > 0
    ensures ToRaw(AddOptions(c, os)).options == Some(ToRawAll(OptionsOf(c)) + ToRawAll(os))
  {
    ToRawAllAppend(OptionsOf(c), os);
  }
}

=== FILE: command_manager.dfy ===
/** The command registry of src/model/manager/CommandManager.ts: registering
    commands, the raw registration bodies, and the bulk overwrite request
    `push` sends to Discord together with the line it logs for the status
    Discord answers with. The shared instance is a value passed in and
    returned; `fetch` is replaced by the request it would send and the
    status it gets back. */
module CommandManagers {
  import opened Optional
  import opened Results
  import Commands
  import Clients
  import Endpoint
  import Logger
  import Strings

  datatype CommandManager = CommandManager(commandList: seq<Commands.Command>)

  /** The shared instance when first created. */
  const Empty: CommandManager := CommandManager([])

  /** `register(...commands)`: the commands are appended in order. */
  function Register(m: CommandManager, commands: seq<Commands.Command>): (r: CommandManager)
    ensures |r.commandList| == |m.commandList| + |commands|
    ensures r.commandList[..|m.commandList|] == m.commandList
    ensures r.commandList[|m.commandList|..] == commands
  {
    CommandManager(m.commandList + commands)
  }

  /** Registering in two calls is registering the concatenation. */
  lemma RegisterAccumulates(m: CommandManager, a: seq<Commands.Command>, b: seq<Commands.Command>)
    ensures Register(Register(m, a), b) == Register(m, a + b)
  {
    assert (m.commandList + a) + b == m.commandList + (a + b);
  }

  // ---------------------------------------------------------------------
  // Raw commands
  // ---------------------------------------------------------------------

  /** `commandList.map(command => command.raw)`. */
  function RawList(cs: seq<Commands.Command>): (rs: seq<Commands.RawCommand>)
    ensures |rs| == |cs|
    ensures forall i :: 0 <= i < |cs| ==> rs[i] == Commands.ToRaw(cs[i])
  {
    if |cs| == 0 then [] else [Commands.ToRaw(cs[0])] + RawList(cs[1..])
  }

  /** The `rawCommands` getter, computed with a loop over the list. */
  method RawCommands(m: CommandManager) returns (raws: seq<Commands.RawCommand>)
    ensures |raws| == |m.commandList|
    ensures forall i :: 0 <= i < |raws| ==> raws[i] == Commands.ToRaw(m.commandList[i])
    ensures forall i :: 0 <= i < |raws| ==> Commands.FromRaw(raws[i]) == Some(m.commandList[i])
  {
    raws := [];
    var k := 0;
    while k < |m.commandList|
      invariant 0 <= k <= |m.commandList|
      invariant |raws| == k
      invariant forall i :: 0 <= i < k ==> raws[i] == Commands.ToRaw(m.commandList[i])
      invariant forall i :: 0 <= i < k ==> Commands.FromRaw(raws[i]) == Some(m.commandList[i])
    {
      Commands.FromRawToRaw(m.commandList[k]);
      raws := raws + [Commands.ToRaw(m.commandList[k])];
      k := k + 1;
    }
  }

  // ---------------------------------------------------------------------
  // Pushing
  // ---------------------------------------------------------------------

  /** `push(applicationId, applicationSecret)` as written: its first
      statement calls the value of the `endpoint` getter, which is not a
      function, so it throws before any request is made. */
  function PushAsWritten(m: CommandManager, applicationId: string, applicationSecret: string)
    : Result<Clients.Request<seq<Commands.RawCommand>>>
  {
    Err(Clients.NotAFunction("endpoint"))
  }

  /** The commands endpoint of an application. */
  function CommandsEndpoint(applicationId: string): (e: Endpoint.Endpoint)
    ensures Endpoint.Run([Endpoint.ApplicationStep(applicationId), Endpoint.CommandsStep]) == Some(e)
    ensures e.path == "/applications/" + applicationId + "/commands"
  {
    Endpoint.CommandsPath(applicationId, "");
    Endpoint.Commands(Clients.ApplicationEndpoint(applicationId))
  }

  /** `push` as intended: a `PUT` of every registered command's raw body to
      the application's commands endpoint, authorized with the secret. */
  function Push(m: CommandManager, applicationId: string, applicationSecret: string)
    : (r: Clients.Request<seq<Commands.RawCommand>>)
    ensures r.verb == Clients.Put
    ensures r.url == Endpoint.Url(CommandsEndpoint(applicationId))
    ensures Clients.SecretOf(r.headers) == Some(applicationSecret)
    ensures |r.body| == |m.commandList|
    ensures forall i :: 0 <= i < |r.body| ==> Commands.FromRaw(r.body[i]) == Some(m.commandList[i])
  {
    Clients.RequestHeadersCarrySecret(applicationSecret);
    var body := RawList(m.commandList);
    assert forall i :: 0 <= i < |body| ==> Commands.FromRaw(body[i]) == Some(m.commandList[i]) by {
      forall i | 0 <= i < |body| ensures Commands.FromRaw(body[i]) == Some(m.commandList[i]) {
        Commands.FromRawToRaw(m.commandList[i]);
      }
    }
    Clients.Request(Clients.Put, Endpoint.Url(CommandsEndpoint(applicationId)),
                    Clients.RequestHeaders(applicationSecret), body)
  }

  /** The request the written code never reaches is the intended one. */
  lemma PushAsWrittenThrows(m: CommandManager, applicationId: string, applicationSecret: string)
    ensures PushAsWritten(m, applicationId, applicationSecret).Err?
    ensures Push(m, applicationId, applicationSecret).url.Some? ==>
      PushAsWritten(m, applicationId, applicationSecret) != Ok(Push(m, applicationId, applicationSecret))
  {
  }

  /** Status 200, the one status `push` treats as success. */
  const OK: int := 200

  /** Code 409, which every failure line carries. */
  const Conflict: int := 409

  /** The line `push` logs once Discord has answered with `status`. */
  function PushLog(status: int): string {
    if status == OK then Logger.Log("Successfully pushed commands to Discord.", None)
    else Logger.Error("Failed to push commands to Discord.", Some(Logger.ErrorProperties(Some(Conflict))))
  }

  /** Success is reported for status 200 and only for it. */
  lemma PushLogSuccess(status: int)
    ensures status == OK ==> PushLog(status) == "Successfully pushed commands to Discord."
    ensures status != OK ==> PushLog(status) != PushLog(OK)
  {
    if status != OK {
      Logger.ErrorWithCode("Failed to push commands to Discord.", Conflict);
      assert PushLog(status)[0] == Logger.Escape[0];
      assert PushLog(OK)[0] == 'S';
    }
  }

  /** Every status other than 200 gives the same line, which names code 409
      whatever Discord sent. */
  lemma PushLogFailure(status: int, other: int)
    requires status != OK
    ensures PushLog(status) ==
      Logger.Sgr("1;38;2;247;79;82") + "[Error 409]: " + Logger.Reset
      + Logger.Sgr(";38;2;247;79;82") + "Failed to push commands to Discord." + Logger.Reset
    ensures other != OK ==> PushLog(other) == PushLog(status)
  {
    Logger.ErrorWithCode("Failed to push commands to Discord.", Conflict);
    ConflictText();
  }

  lemma ConflictText()
    ensures Logger.CodePrefix(Some(Conflict)) == "[Error 409]: "
  {
    assert Strings.NatToString(4) == "4" && Strings.NatToString(40) == "40";
    assert Strings.NatToString(409) == "409";
  }
}

=== FILE: command_option.dfy ===
/** The application-command options of src/model/command/CommandOption.ts:
    the eleven option kinds, the constraints their types put on them, and the
    `toRaw` transform to the wire record. */
module CommandOptions {
  import opened Optional
  import Sequences

  // ApplicationCommandOptionType codes.
  const SubcommandCode: int := 1
  const SubcommandGroupCode: int := 2
  const StringCode: int := 3
  const IntegerCode: int := 4
  const BooleanCode: int := 5
  const UserCode: int := 6
  const ChannelCode: int := 7
  const RoleCode: int := 8
  const MentionableCode: int := 9
  const NumberCode: int := 10
  const AttachmentCode: int := 11

  /** The value of a choice: a string, or a number. */
  datatype ChoiceValue = StringValue(text: string) | NumberValue(number: int)

  datatype Choice = Choice(name: string, value: ChoiceValue)

  /** The nested options of a subcommand, which may be absent. (A dedicated
      type rather than `Option<seq<CommandOption>>`, so that recursion into
      the nested options is seen to terminate.) */
  datatype Nested = Absent | Present(items: seq<CommandOption>)

  /** The `Option` union. Absent optional properties are `None`. */
  datatype CommandOption =
    | Subcommand(name: string, description: string, options: Nested)
    | SubcommandGroup(name: string, description: string, subcommands: seq<CommandOption>)
    | StringOption(name: string, description: string, choices: Option<seq<Choice>>,
                   hasAutocomplete: Option<bool>, isRequired: Option<bool>,
                   minLength: Option<int>, maxLength: Option<int>)
    | IntegerOption(name: string, description: string, choices: Option<seq<Choice>>,
                    hasAutocomplete: Option<bool>, isRequired: Option<bool>,
                    minValue: Option<int>, maxValue: Option<int>)
    | BooleanOption(name: string, description: string, isRequired: Option<bool>)
    | UserOption(name: string, description: string, isRequired: Option<bool>)
    | ChannelOption(name: string, description: string, isRequired: Option<bool>,
                    channelTypes: Option<seq<int>>)
    | RoleOption(name: string, description: string, isRequired: Option<bool>)
    | MentionableOption(name: string, description: string, isRequired: Option<bool>)
    | NumberOption(name: string, description: string, choices: Option<seq<Choice>>,
                   hasAutocomplete: Option<bool>, isRequired: Option<bool>,
                   minValue: Option<int>, maxValue: Option<int>)
    | AttachmentOption(name: string, description: string, isRequired: Option<bool>)

  /** The `type` of an option. */
  function TypeCode(o: CommandOption): (code: int)
    ensures SubcommandCode <= code <= AttachmentCode
    ensures code == SubcommandCode <==> o.Subcommand?
    ensures code == SubcommandGroupCode <==> o.SubcommandGroup?
  {
    match o
    case Subcommand(_, _, _) => SubcommandCode
    case SubcommandGroup(_, _, _) => SubcommandGroupCode
    case StringOption(_, _, _, _, _, _, _) => StringCode
    case IntegerOption(_, _, _, _, _, _, _) => IntegerCode
    case BooleanOption(_, _, _) => BooleanCode
    case UserOption(_, _, _) => UserCode
    case ChannelOption(_, _, _, _) => ChannelCode
    case RoleOption(_, _, _) => RoleCode
    case MentionableOption(_, _, _) => MentionableCode
    case NumberOption(_, _, _, _, _, _, _) => NumberCode
    case AttachmentOption(_, _, _) => AttachmentCode
  }

  /** `NonSubcommandOption`: every kind but the two subcommand kinds. */
  predicate IsLeaf(o: CommandOption) {
    !o.Subcommand? && !o.SubcommandGroup?
  }

  /** The kinds built with `AutocompleteOrChoices`. */
  predicate HasChoices(o: CommandOption) {
    o.StringOption? || o.IntegerOption? || o.NumberOption?
  }

  /** The kinds whose only extra property is `isRequired`. */
  predicate IsPlainRequireable(o: CommandOption) {
    o.BooleanOption? || o.UserOption? || o.RoleOption? || o.MentionableOption? || o.AttachmentOption?
  }

  // ---------------------------------------------------------------------
  // The constraints of the option types
  // ---------------------------------------------------------------------

  /** `AutocompleteOrChoices`: either no choices (and any autocomplete flag),
      or choices with an autocomplete flag that is absent or `false`. */
  predicate ChoicesExclusive(choices: Option<seq<Choice>>, hasAutocomplete: Option<bool>) {
    choices.Some? ==> hasAutocomplete != Some(true)
  }

  /** `Choice<string>` for string options, `Choice<number>` for integer and
      number options. */
  predicate ChoiceValuesMatch(choices: Option<seq<Choice>>, wantsString: bool) {
    choices.Some? ==>
      forall k :: 0 <= k < |choices.value| ==> choices.value[k].value.StringValue? == wantsString
  }

  /** What the type of a non-subcommand option demands of it. */
  predicate LeafWellFormed(o: CommandOption) {
    && IsLeaf(o)
    && (HasChoices(o) ==> ChoicesExclusive(o.choices, o.hasAutocomplete))
    && (HasChoices(o) ==> ChoiceValuesMatch(o.choices, o.StringOption?))
  }

  /** What the `Option` union demands: a group holds only subcommands, a
      subcommand only non-subcommand options, and every option with choices
      keeps them apart from autocompletion. */
  predicate WellFormed(o: CommandOption) {
    match o
    case SubcommandGroup(_, _, subs) =>
      forall i :: 0 <= i < |subs| ==> subs[i].Subcommand? && SubcommandWellFormed(subs[i])
    case Subcommand(_, _, _) => SubcommandWellFormed(o)
    case _ => LeafWellFormed(o)
  }

  predicate SubcommandWellFormed(o: CommandOption)
    requires o.Subcommand?
  {
    o.options.Present? ==> forall i :: 0 <= i < |o.options.items| ==> LeafWellFormed(o.options.items[i])
  }

  /** Nesting depth: 1 for an option without nested options. */
  function Depth(o: CommandOption): (d: nat)
    ensures d >= 1
    decreases o, 1
  {
    match o
    case SubcommandGroup(_, _, subs) => 1 + MaxDepth(subs)
    case Subcommand(_, _, opts) => if opts.Present? then 1 + MaxDepth(opts.items) else 1
    case _ => 1
  }

  function MaxDepth(os: seq<CommandOption>): (d: nat)
    ensures forall i :: 0 <= i < |os| ==> Depth(os[i]) <= d
    ensures |os| == 0 ==> d == 0
    ensures |os| > 0 ==> exists i :: 0 <= i < |os| && Depth(os[i]) == d
    decreases os, 0
  {
    if |os| == 0 then 0
    else
      var rest := MaxDepth(os[1..]);
      assert forall i :: 1 <= i < |os| ==> os[i] == os[1..][i - 1];
      if Depth(os[0]) >= rest then Depth(os[0]) else rest
  }

  /** The nesting constraint bounds the depth: group, subcommand, leaf. */
  lemma WellFormedDepth(o: CommandOption)
    requires WellFormed(o)
    ensures Depth(o) <= 3
    ensures o.Subcommand? ==> Depth(o) <= 2
    ensures IsLeaf(o) ==> Depth(o) == 1
  {
    match o
    case SubcommandGroup(_, _, subs) =>
      forall i | 0 <= i < |subs| ensures Depth(subs[i]) <= 2 {
        SubcommandDepth(subs[i]);
      }
      if |subs| > 0 {
        var i :| 0 <= i < |subs| && Depth(subs[i]) == MaxDepth(subs);
      }
    case Subcommand(_, _, _) => SubcommandDepth(o);
    case _ =>
  }

  lemma SubcommandDepth(o: CommandOption)
    requires o.Subcommand? && SubcommandWellFormed(o)
    ensures Depth(o) <= 2
  {
    if o.options.Present? {
      var os := o.options.items;
      if |os| > 0 {
        var i :| 0 <= i < |os| && Depth(os[i]) == MaxDepth(os);
        assert IsLeaf(os[i]);
      }
    }
  }

  // ---------------------------------------------------------------------
  // The wire record
  // ---------------------------------------------------------------------

  /** The `options` property of a wire record, which may be absent. */
  datatype RawNested = RawAbsent | RawPresent(rawItems: seq<RawOption>)

  /** `APIApplicationCommandOption` as `toRaw` builds it; a property the
      transform does not set, or sets to `undefined`, is `None`. */
  datatype RawOption = RawOption(
    typ: int,
    name: string,
    description: string,
    options: RawNested,
    choices: Option<seq<Choice>>,
    hasAutocomplete: Option<bool>,
    minLength: Option<int>,
    maxLength: Option<int>,
    minValue: Option<int>,
    maxValue: Option<int>,
    channelTypes: Option<seq<int>>,
    required: Option<bool>)

  /** The `common` part: type, name and description, nothing else. */
  function Common(o: CommandOption): RawOption {
    RawOption(TypeCode(o), o.name, o.description, RawAbsent, None, None, None, None, None, None, None, None)
  }

  /** `toRaw`. */
  function ToRaw(o: CommandOption): (r: RawOption)
    ensures r.typ == TypeCode(o) && r.name == o.name && r.description == o.description
    ensures o.Subcommand? ==> r.options.RawPresent? == o.options.Present?
    ensures o.SubcommandGroup? ==> r.options.RawPresent?
    ensures IsLeaf(o) ==> r.options.RawAbsent? && r.required == o.isRequired
    ensures HasChoices(o) ==> r.choices == o.choices && r.hasAutocomplete == o.hasAutocomplete
    ensures !HasChoices(o) ==> r.choices.None? && r.hasAutocomplete.None?
    ensures o.StringOption? ==> r.minLength == o.minLength && r.maxLength == o.maxLength
    ensures !o.StringOption? ==> r.minLength.None? && r.maxLength.None?
    ensures o.IntegerOption? || o.NumberOption? ==> r.minValue == o.minValue && r.maxValue == o.maxValue
    ensures !(o.IntegerOption? || o.NumberOption?) ==> r.minValue.None? && r.maxValue.None?
    ensures o.ChannelOption? ==> r.channelTypes == o.channelTypes
    ensures !o.ChannelOption? ==> r.channelTypes.None?
    ensures !IsLeaf(o) ==> r.required.None?
    decreases o, 1
  {
    var common := Common(o);
    match o
    case Subcommand(_, _, opts) =>
      common.(options := if opts.Present? then RawPresent(ToRawAll(opts.items)) else RawAbsent)
    case SubcommandGroup(_, _, subs) =>
      common.(options := RawPresent(ToRawAll(subs)))
    case StringOption(_, _, choices, autocomplete, required, minLength, maxLength) =>
      common.(choices := choices, hasAutocomplete := autocomplete,
              minLength := minLength, maxLength := maxLength, required := required)
    case IntegerOption(_, _, choices, autocomplete, required, minValue, maxValue) =>
      common.(choices := choices, hasAutocomplete := autocomplete,
              minValue := minValue, maxValue := maxValue, required := required)
    case NumberOption(_, _, choices, autocomplete, required, minValue, maxValue) =>
      common.(choices := choices, hasAutocomplete := autocomplete,
              minValue := minValue, maxValue := maxValue, required := required)
    case ChannelOption(_, _, required, channelTypes) =>
      common.(channelTypes := channelTypes, required := required)
    case BooleanOption(_, _, required) => common.(required := required)
    case UserOption(_, _, required) => common.(required := required)
    case RoleOption(_, _, required) => common.(required := required)
    case MentionableOption(_, _, required) => common.(required := required)
    case AttachmentOption(_, _, required) => common.(required := required)
  }

  /** Nested options are transformed in order by the same function; absent
      ones stay absent. */
  lemma ToRawNested(o: CommandOption)
    ensures o.Subcommand? && o.options.Present? ==> ToRaw(o).options.rawItems == ToRawAll(o.options.items)
    ensures o.SubcommandGroup? ==> ToRaw(o).options.rawItems == ToRawAll(o.subcommands)
  {
  }

  /** `options.map(toRaw)`: order and length are kept. */
  function ToRawAll(os: seq<CommandOption>): (rs: seq<RawOption>)
    ensures |rs| == |os|
    ensures forall i :: 0 <= i < |os| ==> rs[i] == ToRaw(os[i])
    decreases os, 0
  {
    if |os| == 0 then []
    else
      var rest := ToRawAll(os[1..]);
      assert forall i :: 1 <= i < |os| ==> os[i] == os[1..][i - 1];
      [ToRaw(os[0])] + rest
  }

  lemma {:induction false} ToRawAllAppend(a: seq<CommandOption>, b: seq<CommandOption>)
    ensures ToRawAll(a + b) == ToRawAll(a) + ToRawAll(b)
  {
    if |a| == 0 {
      Sequences.AppendEmpty(a, b);
      Sequences.AppendEmpty(ToRawAll(a), ToRawAll(b));
    } else {
      Sequences.HeadTail(a, b);
      ToRawAllAppend(a[1..], b);
      Sequences.Associative([ToRaw(a[0])], ToRawAll(a[1..]), ToRawAll(b));
    }
  }

  // ---------------------------------------------------------------------
  // Reading a wire record back
  // ---------------------------------------------------------------------

  /** The option a wire record describes, reading for each type code exactly
      the properties that kind carries; `None` for an unknown type code, a
      group without options, or a nested record that does not read. */
  function FromRaw(r: RawOption): Option<CommandOption>
    decreases r, 1
  {
    if r.typ == SubcommandCode then
      if r.options.RawAbsent? then Some(Subcommand(r.name, r.description, Absent))
      else
        match FromRawAll(r.options.rawItems)
        case None => None
        case Some(os) => Some(Subcommand(r.name, r.description, Present(os)))
    else if r.typ == SubcommandGroupCode then
      if r.options.RawAbsent? then None
      else
        match FromRawAll(r.options.rawItems)
        case None => None
        case Some(os) => Some(SubcommandGroup(r.name, r.description, os))
    else if r.typ == StringCode then
      Some(StringOption(r.name, r.description, r.choices, r.hasAutocomplete, r.required, r.minLength, r.maxLength))
    else if r.typ == IntegerCode then
      Some(IntegerOption(r.name, r.description, r.choices, r.hasAutocomplete, r.required, r.minValue, r.maxValue))
    else if r.typ == NumberCode then
      Some(NumberOption(r.name, r.description, r.choices, r.hasAutocomplete, r.required, r.minValue, r.maxValue))
    else if r.typ == ChannelCode then
      Some(ChannelOption(r.name, r.description, r.required, r.channelTypes))
    else if r.typ == BooleanCode then Some(BooleanOption(r.name, r.description, r.required))
    else if r.typ == UserCode then Some(UserOption(r.name, r.description, r.required))
    else if r.typ == RoleCode then Some(RoleOption(r.name, r.description, r.required))
    else if r.typ == MentionableCode then Some(MentionableOption(r.name, r.description, r.required))
    else if r.typ == AttachmentCode then Some(AttachmentOption(r.name, r.description, r.required))
    else None
  }

  function FromRawAll(rs: seq<RawOption>): Option<seq<CommandOption>>
    decreases rs, 0
  {
    if |rs| == 0 then Some([])
    else
      match FromRaw(rs[0])
      case None => None
      case Some(o) =>
        match FromRawAll(rs[1..])
        case None => None
        case Some(os) => Some([o] + os)
  }

  /** `toRaw` loses nothing: every option can be read back from its wire
      record, nested options included. */
  lemma {:induction false} FromRawToRaw(o: CommandOption)
    ensures FromRaw(ToRaw(o)) == Some(o)
    decreases o, 1
  {
    match o
    case Subcommand(_, _, opts) =>
      if opts.Present? {
        FromRawAllToRawAll(opts.items);
      }
    case SubcommandGroup(_, _, subs) =>
      FromRawAllToRawAll(subs);
    case _ =>
  }

  lemma {:induction false} FromRawAllToRawAll(os: seq<CommandOption>)
    ensures FromRawAll(ToRawAll(os)) == Some(os)
    decreases os, 0
  {
    if |os| > 0 {
      var rs := ToRawAll(os);
      assert rs[1..] == ToRawAll(os[1..]);
      FromRawToRaw(os[0]);
      FromRawAllToRawAll(os[1..]);
      assert [os[0]] + os[1..] == os;
    }
  }

  /** Hence distinct options never share a wire record. */
  lemma ToRawInjective(a: CommandOption, b: CommandOption)
    requires ToRaw(a) == ToRaw(b)
    ensures a == b
  {
    FromRawToRaw(a);
    FromRawToRaw(b);
  }

  // ---------------------------------------------------------------------
  // The constraints on the wire
  // ---------------------------------------------------------------------

  /** The option constraints stated on wire records: a group (code 2) lists
      subcommands (code 1), a subcommand lists codes 3 to 11, and a string,
      integer or number record (codes 3, 4, 10) with choices does not ask for
      autocompletion and has choice values of its own kind. */
  predicate RawValid(r: RawOption)
    decreases r
  {
    && SubcommandCode <= r.typ <= AttachmentCode
    && (r.typ == SubcommandGroupCode ==>
          && r.options.RawPresent?
          && forall i :: 0 <= i < |r.options.rawItems| ==>
               r.options.rawItems[i].typ == SubcommandCode && RawSubcommandValid(r.options.rawItems[i]))
    && (r.typ == SubcommandCode ==> RawSubcommandValid(r))
    && (r.typ in {StringCode, IntegerCode, NumberCode} ==>
          && (r.choices.Some? ==> r.hasAutocomplete != Some(true))
          && (r.choices.Some? ==> forall k :: 0 <= k < |r.choices.value| ==>
                r.choices.value[k].value.StringValue? == (r.typ == StringCode)))
  }

  predicate RawSubcommandValid(r: RawOption) {
    r.options.RawPresent? ==>
      forall i :: 0 <= i < |r.options.rawItems| ==>
        && StringCode <= r.options.rawItems[i].typ <= AttachmentCode
        && RawLeafValid(r.options.rawItems[i])
  }

  predicate RawLeafValid(r: RawOption) {
    r.typ in {StringCode, IntegerCode, NumberCode} ==>
      && (r.choices.Some? ==> r.hasAutocomplete != Some(true))
      && (r.choices.Some? ==> forall k :: 0 <= k < |r.choices.value| ==>
            r.choices.value[k].value.StringValue? == (r.typ == StringCode))
  }

  lemma LeafValidIff(o: CommandOption)
    requires IsLeaf(o)
    ensures LeafWellFormed(o) <==> RawLeafValid(ToRaw(o))
  {
  }

  lemma SubcommandValidIff(o: CommandOption)
    requires o.Subcommand?
    ensures SubcommandWellFormed(o) <==> RawSubcommandValid(ToRaw(o))
  {
    if o.options.Present? {
      var os := o.options.items;
      var rs := ToRaw(o).options.rawItems;
      assert rs == ToRawAll(os);
      forall i | 0 <= i < |os|
        ensures LeafWellFormed(os[i]) <==> (StringCode <= rs[i].typ <= AttachmentCode && RawLeafValid(rs[i]))
      {
        if IsLeaf(os[i]) {
          LeafValidIff(os[i]);
        }
      }
    }
  }

  /** An option satisfies the constraints of its type exactly when its wire
      record satisfies them. */
  lemma WellFormedIff(o: CommandOption)
    ensures WellFormed(o) <==> RawValid(ToRaw(o))
  {
    var r := ToRaw(o);
    match o
    case SubcommandGroup(_, _, subs) =>
      var rs := r.options.rawItems;
      forall i | 0 <= i < |subs|
        ensures (subs[i].Subcommand? && SubcommandWellFormed(subs[i]))
            <==> (rs[i].typ == SubcommandCode && RawSubcommandValid(rs[i]))
      {
        if subs[i].Subcommand? {
          SubcommandValidIff(subs[i]);
        }
      }
    case Subcommand(_, _, _) => SubcommandValidIff(o);
    case _ => LeafValidIff(o);
  }
}

=== FILE: endpoint.dfy ===
/** The endpoint builder of src/model/static/Endpoint.ts: a path accumulator
    whose steps each append their own segments, the chaining types that say
    which step may follow which, and the resolution of the accumulated path
    against `https://discord.com/api/{version}/`. */
module Endpoint {
  import opened Optional
  import Uri

  datatype Version = V6 | V8 | V9 | V10

  function VersionName(v: Version): string {
    match v
    case V6 => "v6"
    case V8 => "v8"
    case V9 => "v9"
    case V10 => "v10"
  }

  /** A builder: the API version and the path accumulated so far. */
  datatype Endpoint = Endpoint(version: Version, path: string)

  const Origin: string := "https://discord.com"

  /** `Endpoint.latest`: a fresh builder on the default version `v10`. */
  function Latest(): (e: Endpoint)
    ensures e.version == V10 && e.path == ""
  {
    Endpoint(V10, "")
  }

  /** The path of `baseURL`. */
  function BasePath(e: Endpoint): (p: string)
    ensures |p| > 0 && p[0] == '/'
  {
    "/api/" + VersionName(e.version) + "/"
  }

  /** `baseURL`. */
  function BaseUrl(e: Endpoint): string {
    Origin + BasePath(e)
  }

  /** The accumulated path without one leading `/`. */
  function RelativePath(path: string): (r: string)
    ensures |path| > 0 && path[0] == '/' ==> r == path[1..]
    ensures !(|path| > 0 && path[0] == '/') ==> r == path
  {
    if |path| > 0 && path[0] == '/' then path[1..] else path
  }

  /** `url`: the relative path resolved against `baseURL`. `None` for an
      accumulated path that does not read as a relative-path reference,
      which no permitted chain produces (see `PermittedUrl`). */
  function Url(e: Endpoint): (r: Option<string>)
    ensures r.Some? <==> Uri.IsPathRelative(RelativePath(e.path))
  {
    Uri.Resolve(Origin, BasePath(e), RelativePath(e.path))
  }

  // ---------------------------------------------------------------------
  // The path steps
  // ---------------------------------------------------------------------

  function Application(e: Endpoint, applicationId: string): Endpoint {
    e.(path := e.path + "/applications/" + applicationId)
  }

  function Interaction(e: Endpoint, interactionId: string, interactionToken: string): Endpoint {
    e.(path := e.path + "/interactions/" + interactionId + "/" + interactionToken)
  }

  function Webhook(e: Endpoint, applicationId: string, interactionToken: string): Endpoint {
    e.(path := e.path + "/webhooks/" + applicationId + "/" + interactionToken)
  }

  function Guild(e: Endpoint, id: string): Endpoint {
    e.(path := e.path + "/guilds/" + id)
  }

  function Commands(e: Endpoint): Endpoint {
    e.(path := e.path + "/commands")
  }

  function Command(e: Endpoint, id: string): Endpoint {
    e.(path := e.path + "/commands/" + id)
  }

  function Permissions(e: Endpoint): Endpoint {
    e.(path := e.path + "/permissions")
  }

  function Callback(e: Endpoint): Endpoint {
    e.(path := e.path + "/callback")
  }

  function Messages(e: Endpoint): Endpoint {
    e.(path := e.path + "/messages")
  }

  function Original(e: Endpoint): Endpoint {
    e.(path := e.path + "/@original")
  }

  function Message(e: Endpoint, id: string): Endpoint {
    e.(path := e.path + "/messages/" + id)
  }

  // ---------------------------------------------------------------------
  // Call chains and the chaining types
  // ---------------------------------------------------------------------

  /** One call on a builder. */
  datatype Step =
    | ApplicationStep(applicationId: string)
    | InteractionStep(interactionId: string, interactionToken: string)
    | WebhookStep(webhookApplicationId: string, webhookToken: string)
    | GuildStep(guildId: string)
    | CommandsStep
    | CommandStep(commandId: string)
    | PermissionsStep
    | CallbackStep
    | MessagesStep
    | OriginalStep
    | MessageStep(messageId: string)

  /** The static type a builder has after a call: `Latest`, `Application`,
      `Guild`, `Commands` (also the type of `command`), `Interaction`,
      `Webhook`, `Messages`, or `Base`, which permits no further step. */
  datatype Stage = LatestStage | ApplicationStage | GuildStage | CommandsStage
                 | InteractionStage | WebhookStage | MessagesStage | BaseStage

  function Apply(e: Endpoint, step: Step): Endpoint {
    match step
    case ApplicationStep(a) => Application(e, a)
    case InteractionStep(i, t) => Interaction(e, i, t)
    case WebhookStep(a, t) => Webhook(e, a, t)
    case GuildStep(g) => Guild(e, g)
    case CommandsStep => Commands(e)
    case CommandStep(c) => Command(e, c)
    case PermissionsStep => Permissions(e)
    case CallbackStep => Callback(e)
    case MessagesStep => Messages(e)
    case OriginalStep => Original(e)
    case MessageStep(m) => Message(e, m)
  }

  /** The type after a call, when the type before admits the call. */
  function Next(stage: Stage, step: Step): Option<Stage> {
    match (stage, step)
    case (LatestStage, ApplicationStep(_)) => Some(ApplicationStage)
    case (LatestStage, InteractionStep(_, _)) => Some(InteractionStage)
    case (LatestStage, WebhookStep(_, _)) => Some(WebhookStage)
    case (ApplicationStage, GuildStep(_)) => Some(GuildStage)
    case (ApplicationStage, CommandsStep) => Some(CommandsStage)
    case (ApplicationStage, CommandStep(_)) => Some(CommandsStage)
    case (GuildStage, CommandsStep) => Some(CommandsStage)
    case (GuildStage, CommandStep(_)) => Some(CommandsStage)
    case (CommandsStage, PermissionsStep) => Some(BaseStage)
    case (InteractionStage, CallbackStep) => Some(BaseStage)
    case (WebhookStage, MessagesStep) => Some(MessagesStage)
    case (MessagesStage, OriginalStep) => Some(BaseStage)
    case (MessagesStage, MessageStep(_)) => Some(BaseStage)
    case _ => None
  }

  /** Runs a chain from `stage`, or `None` when a call is not admitted. */
  function RunFrom(stage: Stage, e: Endpoint, steps: seq<Step>): Option<Endpoint>
    decreases |steps|
  {
    if |steps| == 0 then Some(e)
    else match Next(stage, steps[0])
      case None => None
      case Some(next) => RunFrom(next, Apply(e, steps[0]), steps[1..])
  }

  /** `Endpoint.latest.<steps>`, when the chaining types admit it. */
  function Run(steps: seq<Step>): Option<Endpoint> {
    RunFrom(LatestStage, Latest(), steps)
  }

  /** The chains the types admit, written out independently: from `latest`,
      `application` (then optionally `guild`, then `commands` or `command`,
      then optionally `permissions`), `interaction` (then optionally
      `callback`), or `webhook` (then optionally `messages`, then optionally
      `original` or `message`). */
  predicate Permitted(steps: seq<Step>) {
    || |steps| == 0
    || (steps[0].ApplicationStep? && ApplicationTail(steps[1..]))
    || (steps[0].InteractionStep? && (|steps| == 1 || (|steps| == 2 && steps[1].CallbackStep?)))
    || (steps[0].WebhookStep? && WebhookTail(steps[1..]))
  }

  predicate IsCommandsCall(s: Step) { s.CommandsStep? || s.CommandStep? }

  predicate CommandsTail(t: seq<Step>) {
    |t| == 0 || (|t| == 1 && t[0].PermissionsStep?)
  }

  predicate ApplicationTail(t: seq<Step>) {
    || |t| == 0
    || (|t| >= 1 && IsCommandsCall(t[0]) && CommandsTail(t[1..]))
    || (|t| == 1 && t[0].GuildStep?)
    || (|t| >= 2 && t[0].GuildStep? && IsCommandsCall(t[1]) && CommandsTail(t[2..]))
  }

  predicate WebhookTail(t: seq<Step>) {
    || |t| == 0
    || (|t| == 1 && t[0].MessagesStep?)
    || (|t| == 2 && t[0].MessagesStep? && (t[1].OriginalStep? || t[1].MessageStep?))
  }

  /** The `Base` type admits no further call. */
  lemma BaseStageRuns(e: Endpoint, t: seq<Step>)
    ensures RunFrom(BaseStage, e, t).Some? <==> |t| == 0
  {
  }

  /** From the `Commands` type only `permissions` is admitted, and nothing
      after it. */
  lemma CommandsStageRuns(e: Endpoint, t: seq<Step>)
    ensures RunFrom(CommandsStage, e, t).Some? <==> CommandsTail(t)
  {
    if |t| >= 1 && t[0].PermissionsStep? {
      BaseStageRuns(Apply(e, t[0]), t[1..]);
    }
  }

  lemma ApplicationStageRuns(e: Endpoint, t: seq<Step>)
    ensures RunFrom(ApplicationStage, e, t).Some? <==> ApplicationTail(t)
  {
    if |t| >= 1 {
      var e1 := Apply(e, t[0]);
      if IsCommandsCall(t[0]) {
        assert RunFrom(ApplicationStage, e, t) == RunFrom(CommandsStage, e1, t[1..]);
        CommandsStageRuns(e1, t[1..]);
      } else if t[0].GuildStep? {
        assert RunFrom(ApplicationStage, e, t) == RunFrom(GuildStage, e1, t[1..]);
        if |t| >= 2 {
          assert t[1..][1..] == t[2..];
          if IsCommandsCall(t[1]) {
            assert RunFrom(GuildStage, e1, t[1..]) == RunFrom(CommandsStage, Apply(e1, t[1]), t[2..]);
            CommandsStageRuns(Apply(e1, t[1]), t[2..]);
          }
        }
      }
    }
  }

  /** From the `Messages` type only `original` or `message` is admitted, and
      nothing after it. */
  lemma MessagesStageRuns(e: Endpoint, t: seq<Step>)
    ensures RunFrom(MessagesStage, e, t).Some? <==> |t| == 0 || (|t| == 1 && (t[0].OriginalStep? || t[0].MessageStep?))
  {
    if |t| >= 1 && (t[0].OriginalStep? || t[0].MessageStep?) {
      BaseStageRuns(Apply(e, t[0]), t[1..]);
    }
  }

  lemma WebhookStageRuns(e: Endpoint, t: seq<Step>)
    ensures RunFrom(WebhookStage, e, t).Some? <==> WebhookTail(t)
  {
    if |t| >= 1 && t[0].MessagesStep? {
      assert RunFrom(WebhookStage, e, t) == RunFrom(MessagesStage, Apply(e, t[0]), t[1..]);
      MessagesStageRuns(Apply(e, t[0]), t[1..]);
    }
  }

  lemma InteractionStageRuns(e: Endpoint, t: seq<Step>)
    ensures RunFrom(InteractionStage, e, t).Some? <==> |t| == 0 || (|t| == 1 && t[0].CallbackStep?)
  {
    if |t| >= 1 && t[0].CallbackStep? {
      BaseStageRuns(Apply(e, t[0]), t[1..]);
    }
  }

  /** The chaining types admit exactly the chains `Permitted` lists. */
  lemma RunPermitted(steps: seq<Step>)
    ensures Run(steps).Some? <==> Permitted(steps)
  {
    if |steps| >= 1 {
      var e1 := Apply(Latest(), steps[0]);
      match steps[0]
      case ApplicationStep(_) =>
        assert Run(steps) == RunFrom(ApplicationStage, e1, steps[1..]);
        ApplicationStageRuns(e1, steps[1..]);
      case WebhookStep(_, _) =>
        assert Run(steps) == RunFrom(WebhookStage, e1, steps[1..]);
        WebhookStageRuns(e1, steps[1..]);
      case InteractionStep(_, _) =>
        assert Run(steps) == RunFrom(InteractionStage, e1, steps[1..]);
        InteractionStageRuns(e1, steps[1..]);
      case _ =>
        assert Run(steps).None?;
    }
  }

  // ---------------------------------------------------------------------
  // Paths of chains
  // ---------------------------------------------------------------------

  /** The segments one call appends, each written with a leading `/`. */
  function StepSegments(step: Step): seq<string> {
    match step
    case ApplicationStep(a) => ["applications", a]
    case InteractionStep(i, t) => ["interactions", i, t]
    case WebhookStep(a, t) => ["webhooks", a, t]
    case GuildStep(g) => ["guilds", g]
    case CommandsStep => ["commands"]
    case CommandStep(c) => ["commands", c]
    case PermissionsStep => ["permissions"]
    case CallbackStep => ["callback"]
    case MessagesStep => ["messages"]
    case OriginalStep => ["@original"]
    case MessageStep(m) => ["messages", m]
  }

  function ChainSegments(steps: seq<Step>): seq<string> {
    if |steps| == 0 then [] else StepSegments(steps[0]) + ChainSegments(steps[1..])
  }

  lemma JoinOne(a: string)
    ensures Uri.Join([a]) == "/" + a
  {
    assert [a][1..] == [];
  }

  lemma JoinTwo(a: string, b: string)
    ensures Uri.Join([a, b]) == "/" + a + "/" + b
  {
    assert [a, b][1..] == [b];
    JoinOne(b);
  }

  lemma JoinThree(a: string, b: string, c: string)
    ensures Uri.Join([a, b, c]) == "/" + a + "/" + b + "/" + c
  {
    assert [a, b, c][1..] == [b, c];
    JoinTwo(b, c);
  }

  lemma AppendOne(path: string, literal: string, w: string)
    requires literal == "/" + w
    ensures path + literal == path + Uri.Join([w])
  {
    JoinOne(w);
  }

  lemma AppendTwo(path: string, literal: string, w: string, x: string)
    requires literal == "/" + w + "/"
    ensures path + literal + x == path + Uri.Join([w, x])
  {
    JoinTwo(w, x);
  }

  lemma AppendThree(path: string, literal: string, w: string, x: string, y: string)
    requires literal == "/" + w + "/"
    ensures path + literal + x + "/" + y == path + Uri.Join([w, x, y])
  {
    JoinThree(w, x, y);
  }

  /** Every call appends exactly its own segments and keeps the version. */
  lemma ApplyAppends(e: Endpoint, step: Step)
    ensures Apply(e, step).version == e.version
    ensures Apply(e, step).path == e.path + Uri.Join(StepSegments(step))
  {
    if step.ApplicationStep? || step.InteractionStep? || step.WebhookStep? || step.GuildStep? || step.CommandStep? || step.MessageStep? {
      ApplyAppendsWithArguments(e, step);
    } else {
      ApplyAppendsWithoutArguments(e, step);
    }
  }

  lemma ApplyAppendsWithArguments(e: Endpoint, step: Step)
    requires step.ApplicationStep? || step.InteractionStep? || step.WebhookStep? || step.GuildStep? || step.CommandStep? || step.MessageStep?
    ensures Apply(e, step).path == e.path + Uri.Join(StepSegments(step))
  {
    match step
    case ApplicationStep(a) => AppendTwo(e.path, "/applications/", "applications", a);
    case InteractionStep(i, t) => AppendThree(e.path, "/interactions/", "interactions", i, t);
    case WebhookStep(a, t) => AppendThree(e.path, "/webhooks/", "webhooks", a, t);
    case GuildStep(g) => AppendTwo(e.path, "/guilds/", "guilds", g);
    case CommandStep(c) => AppendTwo(e.path, "/commands/", "commands", c);
    case MessageStep(m) => AppendTwo(e.path, "/messages/", "messages", m);
  }

  lemma ApplyAppendsWithoutArguments(e: Endpoint, step: Step)
    requires step.CommandsStep? || step.PermissionsStep? || step.CallbackStep? || step.MessagesStep? || step.OriginalStep?
    ensures Apply(e, step).path == e.path + Uri.Join(StepSegments(step))
  {
    match step
    case CommandsStep => AppendOne(e.path, "/commands", "commands");
    case PermissionsStep => AppendOne(e.path, "/permissions", "permissions");
    case CallbackStep => AppendOne(e.path, "/callback", "callback");
    case MessagesStep => AppendOne(e.path, "/messages", "messages");
    case OriginalStep => AppendOne(e.path, "/@original", "@original");
  }

  /** A chain's path is the concatenation of its calls' segments, so the path
      before a call is always a prefix of the path after it. */
  lemma {:induction false} RunFromPath(stage: Stage, e: Endpoint, steps: seq<Step>)
    requires RunFrom(stage, e, steps).Some?
    ensures RunFrom(stage, e, steps).value.version == e.version
    ensures RunFrom(stage, e, steps).value.path == e.path + Uri.Join(ChainSegments(steps))
    decreases |steps|
  {
    if |steps| > 0 {
      var next := Next(stage, steps[0]).value;
      var e1 := Apply(e, steps[0]);
      ApplyAppends(e, steps[0]);
      RunFromPath(next, e1, steps[1..]);
      Uri.JoinAppend(StepSegments(steps[0]), ChainSegments(steps[1..]));
    }
  }

  /** Every chain starts from an empty path on `v10`: nothing is carried
      over from an earlier use. */
  lemma RunPath(steps: seq<Step>)
    requires Run(steps).Some?
    ensures Run(steps).value == Endpoint(V10, Uri.Join(ChainSegments(steps)))
  {
    RunFromPath(LatestStage, Latest(), steps);
  }

  /** Extending an admitted chain by one call keeps the earlier path as a
      prefix. */
  lemma RunExtends(steps: seq<Step>, step: Step)
    requires Run(steps + [step]).Some?
    ensures Run(steps).Some?
    ensures Run(steps + [step]).value.path == Run(steps).value.path + Uri.Join(StepSegments(step))
  {
    RunFromSnoc(LatestStage, Latest(), steps, step);
  }

  lemma {:induction false} RunFromSnoc(stage: Stage, e: Endpoint, steps: seq<Step>, step: Step)
    requires RunFrom(stage, e, steps + [step]).Some?
    ensures RunFrom(stage, e, steps).Some?
    ensures RunFrom(stage, e, steps + [step]).value.path == RunFrom(stage, e, steps).value.path + Uri.Join(StepSegments(step))
    decreases |steps|
  {
    if |steps| == 0 {
      assert steps + [step] == [step];
      ApplyAppends(e, step);
      assert [step][1..] == [];
    } else {
      assert (steps + [step])[0] == steps[0];
      assert (steps + [step])[1..] == steps[1..] + [step];
      RunFromSnoc(Next(stage, steps[0]).value, Apply(e, steps[0]), steps[1..], step);
    }
  }

  // ---------------------------------------------------------------------
  // The chains the interaction responders and the command push use
  // ---------------------------------------------------------------------

  /** `interaction(i, t).callback` is `/interactions/i/t/callback`. */
  lemma CallbackPath(i: string, t: string)
    ensures Run([InteractionStep(i, t), CallbackStep])
         == Some(Endpoint(V10, "/interactions/" + i + "/" + t + "/callback"))
  {
    var steps := [InteractionStep(i, t), CallbackStep];
    var e1 := Interaction(Latest(), i, t);
    assert steps[1..] == [CallbackStep];
    assert Run(steps) == RunFrom(InteractionStage, e1, [CallbackStep]);
    assert RunFrom(InteractionStage, e1, [CallbackStep]) == RunFrom(BaseStage, Callback(e1), []);
    assert e1.path == "/interactions/" + i + "/" + t;
  }

  /** `webhook(a, t).messages.original` is `/webhooks/a/t/messages/@original`. */
  lemma OriginalMessagePath(a: string, t: string)
    ensures Run([WebhookStep(a, t), MessagesStep, OriginalStep])
         == Some(Endpoint(V10, "/webhooks/" + a + "/" + t + "/messages/@original"))
  {
    var steps := [WebhookStep(a, t), MessagesStep, OriginalStep];
    var e1 := Webhook(Latest(), a, t);
    var e2 := Messages(e1);
    assert steps[1..] == [MessagesStep, OriginalStep];
    assert steps[1..][1..] == [OriginalStep];
    assert Run(steps) == RunFrom(WebhookStage, e1, steps[1..]);
    assert RunFrom(WebhookStage, e1, steps[1..]) == RunFrom(MessagesStage, e2, [OriginalStep]);
    assert RunFrom(MessagesStage, e2, [OriginalStep]) == RunFrom(BaseStage, Original(e2), []);
    assert e1.path == "/webhooks/" + a + "/" + t;
    assert "/messages" + "/@original" == "/messages/@original";
    assert Original(e2).path == e1.path + ("/messages" + "/@original");
  }

  /** `application(a).commands` is `/applications/a/commands`, and
      `guild(g)` puts `/guilds/g` before `/commands`. */
  lemma CommandsPath(a: string, g: string)
    ensures Run([ApplicationStep(a), CommandsStep])
         == Some(Endpoint(V10, "/applications/" + a + "/commands"))
    ensures Run([ApplicationStep(a), GuildStep(g), CommandsStep])
         == Some(Endpoint(V10, "/applications/" + a + "/guilds/" + g + "/commands"))
  {
    var e1 := Application(Latest(), a);
    assert e1.path == "/applications/" + a;
    assert [ApplicationStep(a), CommandsStep][1..] == [CommandsStep];
    assert Run([ApplicationStep(a), CommandsStep]) == RunFrom(ApplicationStage, e1, [CommandsStep]);
    assert RunFrom(ApplicationStage, e1, [CommandsStep]) == RunFrom(CommandsStage, Commands(e1), []);
    var steps := [ApplicationStep(a), GuildStep(g), CommandsStep];
    var e2 := Guild(e1, g);
    assert steps[1..] == [GuildStep(g), CommandsStep];
    assert steps[1..][1..] == [CommandsStep];
    assert Run(steps) == RunFrom(ApplicationStage, e1, steps[1..]);
    assert RunFrom(ApplicationStage, e1, steps[1..]) == RunFrom(GuildStage, e2, [CommandsStep]);
    assert RunFrom(GuildStage, e2, [CommandsStep]) == RunFrom(CommandsStage, Commands(e2), []);
  }

  // ---------------------------------------------------------------------
  // URLs of chains
  // ---------------------------------------------------------------------

  /** The arguments of a call are plain path segments. */
  predicate PlainArguments(step: Step) {
    forall k :: 0 <= k < |StepSegments(step)| ==> Uri.IsPlainSegment(StepSegments(step)[k])
  }

  lemma {:induction false} ChainSegmentsPlain(steps: seq<Step>)
    requires forall i :: 0 <= i < |steps| ==> PlainArguments(steps[i])
    ensures forall k :: 0 <= k < |ChainSegments(steps)| ==> Uri.IsPlainSegment(ChainSegments(steps)[k])
  {
    if |steps| > 0 {
      ChainSegmentsPlain(steps[1..]);
      var head := StepSegments(steps[0]);
      var tail := ChainSegments(steps[1..]);
      assert PlainArguments(steps[0]);
      forall k | 0 <= k < |head + tail| ensures Uri.IsPlainSegment((head + tail)[k]) {
        if k >= |head| {
          assert (head + tail)[k] == tail[k - |head|];
        }
      }
    }
  }

  /** The first segment of a non-empty chain is a fixed word: non-empty and
      without a `:`. */
  lemma FirstChainSegment(steps: seq<Step>)
    requires |steps| > 0 && Permitted(steps)
    ensures |ChainSegments(steps)| > 0
    ensures ChainSegments(steps)[0] in {"applications", "interactions", "webhooks"}
    ensures |ChainSegments(steps)[0]| > 0
    ensures forall k :: 0 <= k < |ChainSegments(steps)[0]| ==> ChainSegments(steps)[0][k] != ':'
  {
  }

  /** For an admitted chain whose arguments are plain segments, `url` is the
      base URL followed by the accumulated path without its leading `/`. */
  lemma PermittedUrl(steps: seq<Step>)
    requires Permitted(steps)
    requires forall i :: 0 <= i < |steps| ==> PlainArguments(steps[i])
    ensures Run(steps).Some?
    ensures Url(Run(steps).value) == Some(BaseUrl(Run(steps).value) + RelativePath(Run(steps).value.path))
  {
    RunPermitted(steps);
    RunPath(steps);
    var e := Run(steps).value;
    if |steps| == 0 {
      assert e.path == "";
      assert Url(e) == Some(Origin + BasePath(e) + "");
    } else {
      ChainUrl(e.version, steps);
    }
  }

  lemma ChainUrl(v: Version, steps: seq<Step>)
    requires |steps| > 0 && Permitted(steps)
    requires forall i :: 0 <= i < |steps| ==> PlainArguments(steps[i])
    ensures var e := Endpoint(v, Uri.Join(ChainSegments(steps)));
      Url(e) == Some(BaseUrl(e) + RelativePath(e.path))
  {
    ChainSegmentsPlain(steps);
    FirstChainSegment(steps);
    SegmentsUrl(v, ChainSegments(steps));
  }

  /** The URL of a path of plain segments whose first segment is non-empty
      and has no `:`. */
  lemma SegmentsUrl(v: Version, segs: seq<string>)
    requires forall k :: 0 <= k < |segs| ==> Uri.IsPlainSegment(segs[k])
    requires |segs| > 0 && |segs[0]| > 0
    requires forall k :: 0 <= k < |segs[0]| ==> segs[0][k] != ':'
    ensures var e := Endpoint(v, Uri.Join(segs));
      Url(e) == Some(BaseUrl(e) + RelativePath(e.path))
  {
    ResolveSegments(Origin, v, segs);
  }

  /** `SegmentsUrl` for any origin, which keeps the origin's text out of the
      proof. */
  lemma ResolveSegments(origin: string, v: Version, segs: seq<string>)
    requires forall k :: 0 <= k < |segs| ==> Uri.IsPlainSegment(segs[k])
    requires |segs| > 0 && |segs[0]| > 0
    requires forall k :: 0 <= k < |segs[0]| ==> segs[0][k] != ':'
    ensures var e := Endpoint(v, Uri.Join(segs));
      Uri.Resolve(origin, BasePath(e), RelativePath(e.path)) == Some(origin + BasePath(e) + RelativePath(e.path))
  {
    var e := Endpoint(v, Uri.Join(segs));
    var versionSegs := ["api", VersionName(v)];
    var b := Uri.Join(versionSegs);
    JoinTwo("api", VersionName(v));
    assert BasePath(e) == b + "/";
    VersionSegmentsPlain(v);
    Uri.ResolvePlain(origin, versionSegs, segs);
    var p := Uri.Join(segs);
    assert RelativePath(p) == p[1..];
    SlashMoves(origin, b, p);
  }

  /** Moving a path's leading `/` onto the end of what precedes it. */
  lemma SlashMoves(origin: string, b: string, p: string)
    requires |p| > 0 && p[0] == '/'
    ensures origin + b + p == origin + (b + "/") + p[1..]
  {
    assert p == "/" + p[1..];
  }

  lemma VersionSegmentsPlain(v: Version)
    ensures forall k :: 0 <= k < 2 ==> Uri.IsPlainSegment(["api", VersionName(v)][k])
  {
    assert Uri.IsPlainSegment("api");
    match v
    case V6 => assert Uri.IsPlainSegment("v6");
    case V8 => assert Uri.IsPlainSegment("v8");
    case V9 => assert Uri.IsPlainSegment("v9");
    case V10 => assert Uri.IsPlainSegment("v10");
  }
}

=== FILE: environment.dfy ===
/** src/model/Environment.ts with the process state passed in: `argv` is
    the process argument vector (the runtime and the script come first) and
    `env` the environment variables that are set. */
module Environment {

  /** The application credentials read from the environment. */
  datatype Application = Application(id: string, secret: string, publicKey: string)

  /** A variable's value, or `""` when it is unset. */
  function Variable(env: map<string, string>, name: string): (r: string)
    ensures name in env ==> r == env[name]
    ensures name !in env ==> r == ""
  {
    if name in env then env[name] else ""
  }

  /** The `application` getter. */
  function ApplicationOf(env: map<string, string>): (r: Application)
    ensures r.id == (if "APPLICATION_ID" in env then env["APPLICATION_ID"] else "")
    ensures r.secret == (if "APPLICATION_SECRET" in env then env["APPLICATION_SECRET"] else "")
    ensures r.publicKey == (if "APPLICATION_PUBLIC_KEY" in env then env["APPLICATION_PUBLIC_KEY"] else "")
  {
    Application(
      Variable(env, "APPLICATION_ID"),
      Variable(env, "APPLICATION_SECRET"),
      Variable(env, "APPLICATION_PUBLIC_KEY"))
  }

  /** `argv.slice(2)`: the user-supplied arguments. */
  function UserArguments(argv: seq<string>): (r: seq<string>)
    ensures |argv| <= 2 ==> r == []
    ensures |argv| > 2 ==> r == argv[2..]
  {
    if |argv| <= 2 then [] else argv[2..]
  }

  /** `Array.prototype.includes` on strings. */
  function Includes(xs: seq<string>, x: string): (r: bool)
    ensures r <==> exists i :: 0 <= i < |xs| && xs[i] == x
  {
    if |xs| == 0 then false
    else if xs[0] == x then true
    else
      var r := Includes(xs[1..], x);
      assert forall i :: 1 <= i < |xs| ==> xs[i] == xs[1..][i - 1];
      r
  }

  /** `aliases.some(alias => args.includes("-" + alias))`. */
  function SomeAlias(args: seq<string>, aliases: seq<string>): (r: bool)
    ensures r <==> exists k :: 0 <= k < |aliases| && ("-" + aliases[k]) in args
  {
    if |aliases| == 0 then false
    else if Includes(args, "-" + aliases[0]) then true
    else
      var r := SomeAlias(args, aliases[1..]);
      assert forall k :: 1 <= k < |aliases| ==> aliases[k] == aliases[1..][k - 1];
      r
  }

  /** Whether one argument is `--name` or `-alias` for one of the aliases. */
  predicate IsFlag(arg: string, name: string, aliases: seq<string>) {
    arg == "--" + name || exists k :: 0 <= k < |aliases| && arg == "-" + aliases[k]
  }

  /** `hasArgument(name, ...aliases)`: whether `--name`, or `-alias` for one
      of the aliases, is among the arguments after the first two. */
  function HasArgument(argv: seq<string>, name: string, aliases: seq<string>): (r: bool)
    ensures r <==> (exists i :: 2 <= i < |argv| && IsFlag(argv[i], name, aliases))
  {
    var args := UserArguments(argv);
    var r := Includes(args, "--" + name) || SomeAlias(args, aliases);
    assert forall i :: 2 <= i < |argv| ==> argv[i] == args[i - 2];
    r
  }

  /** `shouldPushCommands`: `--push-commands`, `-p` or `-pc` was passed. */
  function ShouldPushCommands(argv: seq<string>): (r: bool)
    ensures r <==> (exists i :: 2 <= i < |argv| && argv[i] in {"--push-commands", "-p", "-pc"})
  {
    var aliases := ["p", "pc"];
    assert "-" + aliases[0] == "-p" && "-" + aliases[1] == "-pc";
    assert "--" + "push-commands" == "--push-commands";
    forall i | 2 <= i < |argv|
      ensures IsFlag(argv[i], "push-commands", aliases) <==> argv[i] in {"--push-commands", "-p", "-pc"}
    {
      if argv[i] == "-p" {
        assert argv[i] == "-" + aliases[0];
      } else if argv[i] == "-pc" {
        assert argv[i] == "-" + aliases[1];
      }
    }
    HasArgument(argv, "push-commands", aliases)
  }
}

=== FILE: handlers.dfy ===
/** The interaction handlers of src/model/interaction/InteractionHandler.ts:
    the four kinds, the interaction type each declares, the type guards and
    the key each is registered under. A handler's `handle` body is user code
    and is not part of this module. */
module Handlers {
  import Commands

  // InteractionType codes.
  const PingType: int := 1
  const ApplicationCommandType: int := 2
  const MessageComponentType: int := 3
  const AutocompleteType: int := 4
  const ModalSubmitType: int := 5

  datatype Handler =
    | AutocompleteRequestHandler(commandName: string)
    | CommandHandler(command: Commands.Command)
    | ComponentHandler(customId: string)
    | ModalSubmissionHandler(customId: string)

  /** The `type` each kind declares. */
  function TypeOf(h: Handler): (t: int)
    ensures t in {ApplicationCommandType, MessageComponentType, AutocompleteType, ModalSubmitType}
  {
    match h
    case AutocompleteRequestHandler(_) => AutocompleteType
    case CommandHandler(_) => ApplicationCommandType
    case ComponentHandler(_) => MessageComponentType
    case ModalSubmissionHandler(_) => ModalSubmitType
  }

  /** `isAutocompleteRequestHandler`. */
  predicate IsAutocompleteRequestHandler(h: Handler) { TypeOf(h) == AutocompleteType }

  /** `isCommandHandler`. */
  predicate IsCommandHandler(h: Handler) { TypeOf(h) == ApplicationCommandType }

  /** `isComponentHandler`. */
  predicate IsComponentHandler(h: Handler) { TypeOf(h) == MessageComponentType }

  /** `isModalSubmissionHandler`. */
  predicate IsModalSubmissionHandler(h: Handler) { TypeOf(h) == ModalSubmitType }

  /** The name or identifier a handler answers to: the command name for the
      two command kinds, the custom identifier otherwise. */
  function Key(h: Handler): string {
    match h
    case AutocompleteRequestHandler(n) => n
    case CommandHandler(c) => c.name
    case ComponentHandler(id) => id
    case ModalSubmissionHandler(id) => id
  }

  /** Each guard holds for exactly its own kind, so exactly one holds. */
  lemma GuardsClassify(h: Handler)
    ensures IsAutocompleteRequestHandler(h) <==> h.AutocompleteRequestHandler?
    ensures IsCommandHandler(h) <==> h.CommandHandler?
    ensures IsComponentHandler(h) <==> h.ComponentHandler?
    ensures IsModalSubmissionHandler(h) <==> h.ModalSubmissionHandler?
    ensures TypeOf(h) != PingType
  {
  }
}

=== FILE: interaction_data.dfy ===
/** The interaction payload wrappers of src/model/interaction/InteractionData.ts:
    command data (chat input and context menu), message component data
    (button and select menu) and modal submission data, each built from the
    raw payload the API sends. The line a factory prints with `console.error`
    is given by `CommandDiagnostic` and `ComponentDiagnostic`. */
module InteractionData {
  import opened Optional
  import opened Json

  // ApplicationCommandType codes.
  const ChatInputType: int := 1
  const UserType: int := 2
  const MessageType: int := 3

  // ApplicationCommandOptionType codes of the two nesting option kinds.
  const SubcommandOptionType: int := 1
  const SubcommandGroupOptionType: int := 2

  // ComponentType codes.
  const ButtonType: int := 2
  const StringSelectType: int := 3
  const UserSelectType: int := 5
  const RoleSelectType: int := 6
  const MentionableSelectType: int := 7
  const ChannelSelectType: int := 8

  // ---------------------------------------------------------------------
  // Command data
  // ---------------------------------------------------------------------

  /** One option of an invoked command: a subcommand group holds its
      subcommands in `options`, a subcommand its parameters. */
  datatype DataOption = DataOption(name: string, typ: int, value: Option<Json>, options: Option<seq<DataOption>>)

  /** `APIApplicationCommandInteractionData`. */
  datatype RawCommandData = RawCommandData(
    id: string,
    name: string,
    typ: int,
    resolved: Option<Json>,
    options: Option<seq<DataOption>>,
    guildId: Option<string>,
    targetId: Option<string>)

  /** `CommandInteractionData` and its two subclasses. */
  datatype CommandData =
    | BaseCommandData(id: string, name: string, typ: int, resolved: Option<Json>)
    | ChatInputData(id: string, name: string, typ: int, resolved: Option<Json>,
                    options: Option<seq<DataOption>>, guildId: Option<string>)
    | ContextMenuData(id: string, name: string, typ: int, resolved: Option<Json>, targetId: Option<string>)

  /** The `ChatInputCommandInteractionData` constructor. */
  function ChatInput(raw: RawCommandData): (d: CommandData)
    ensures d.ChatInputData?
    ensures d.id == raw.id && d.name == raw.name && d.typ == raw.typ && d.resolved == raw.resolved
    ensures d.options == raw.options && d.guildId == raw.guildId
  {
    ChatInputData(raw.id, raw.name, raw.typ, raw.resolved, raw.options, raw.guildId)
  }

  /** `CommandInteractionData.init` as written: only `User` becomes context
      menu data, so a `Message` command falls to the default branch. */
  function InitCommandAsWritten(raw: RawCommandData): CommandData {
    if raw.typ == ChatInputType then ChatInput(raw)
    else if raw.typ == UserType then ContextMenuData(raw.id, raw.name, raw.typ, raw.resolved, raw.targetId)
    else BaseCommandData(raw.id, raw.name, raw.typ, raw.resolved)
  }

  /** `CommandInteractionData.init` with both context menu kinds handled. */
  function InitCommand(raw: RawCommandData): (d: CommandData)
    ensures d.id == raw.id && d.name == raw.name && d.typ == raw.typ && d.resolved == raw.resolved
    ensures d.ChatInputData? ==> d.options == raw.options && d.guildId == raw.guildId
    ensures d.ContextMenuData? ==> d.targetId == raw.targetId
  {
    if raw.typ == ChatInputType then ChatInput(raw)
    else if raw.typ == UserType || raw.typ == MessageType then
      ContextMenuData(raw.id, raw.name, raw.typ, raw.resolved, raw.targetId)
    else BaseCommandData(raw.id, raw.name, raw.typ, raw.resolved)
  }

  /** The line the factory prints to the error console, if any. */
  function CommandDiagnostic(raw: RawCommandData): Option<string> {
    if raw.typ in {ChatInputType, UserType, MessageType} then None else Some("Invalid interaction type.")
  }

  /** The line the factory prints as written: every type but chat input and
      user falls to the default branch, message commands included. */
  function CommandDiagnosticAsWritten(raw: RawCommandData): Option<string> {
    if raw.typ in {ChatInputType, UserType} then None else Some("Invalid interaction type.")
  }

  /** `isCommand`. */
  predicate IsCommand(d: CommandData) { d.typ == ChatInputType }

  /** `isContextMenu`. */
  predicate IsContextMenu(d: CommandData) { d.typ == UserType || d.typ == MessageType }

  /** The factory's choice of subclass agrees with the type guards, which
      never both hold; the diagnostic is printed exactly for the base class. */
  lemma InitCommandClassifies(raw: RawCommandData)
    ensures InitCommand(raw).ChatInputData? <==> IsCommand(InitCommand(raw))
    ensures InitCommand(raw).ContextMenuData? <==> IsContextMenu(InitCommand(raw))
    ensures !(IsCommand(InitCommand(raw)) && IsContextMenu(InitCommand(raw)))
    ensures CommandDiagnostic(raw).Some? <==> InitCommand(raw).BaseCommandData?
  {
  }

  /** As written, a message command gets base data although `isContextMenu`
      holds for it: its `targetId` is dropped and the diagnostic printed,
      where the corrected factory prints nothing. */
  lemma MessageCommandAsWritten(raw: RawCommandData)
    requires raw.typ == MessageType
    ensures InitCommandAsWritten(raw).BaseCommandData?
    ensures IsContextMenu(InitCommandAsWritten(raw))
    ensures InitCommand(raw) == ContextMenuData(raw.id, raw.name, raw.typ, raw.resolved, raw.targetId)
    ensures CommandDiagnosticAsWritten(raw) == Some("Invalid interaction type.")
    ensures CommandDiagnostic(raw) == None
  {
  }

  /** Away from message commands the two diagnostics agree, and the one as
      written is printed exactly when the factory as written builds base data. */
  lemma CommandDiagnosticAgrees(raw: RawCommandData)
    ensures raw.typ != MessageType ==> CommandDiagnosticAsWritten(raw) == CommandDiagnostic(raw)
    ensures CommandDiagnosticAsWritten(raw).Some? <==> InitCommandAsWritten(raw).BaseCommandData?
  {
  }

  /** The two factories differ only on message commands. */
  lemma InitCommandAgrees(raw: RawCommandData)
    requires raw.typ != MessageType
    ensures InitCommandAsWritten(raw) == InitCommand(raw)
  {
  }

  /** The first option of the given type, as `Array.prototype.find` picks it. */
  function FindOption(os: seq<DataOption>, typ: int): (r: Option<DataOption>)
    ensures r.None? <==> forall k :: 0 <= k < |os| ==> os[k].typ != typ
    ensures r.Some? ==> exists k :: 0 <= k < |os| && os[k] == r.value && r.value.typ == typ
                                    && forall j :: 0 <= j < k ==> os[j].typ != typ
  {
    if |os| == 0 then None
    else if os[0].typ == typ then Some(os[0])
    else
      var r := FindOption(os[1..], typ);
      assert forall k :: 1 <= k < |os| ==> os[k] == os[1..][k - 1];
      if r.Some? then
        var k :| 0 <= k < |os[1..]| && os[1..][k] == r.value && r.value.typ == typ
                 && forall j :: 0 <= j < k ==> os[1..][j].typ != typ;
        assert os[k + 1] == r.value && forall j :: 0 <= j < k + 1 ==> os[j].typ != typ;
        r
      else r
  }

  /** `options?.find(...)`: nothing when the options are absent. */
  function FindIn(options: Option<seq<DataOption>>, typ: int): Option<DataOption> {
    if options.Some? then FindOption(options.value, typ) else None
  }

  /** The path text for a group, if any, and a subcommand. */
  function PathText(group: Option<DataOption>, subcommand: DataOption): string {
    (if group.Some? then group.value.name + "/" else "") + subcommand.name
  }

  /** `subcommandPath` as written: both kinds are looked for among the
      top-level options only. */
  function SubcommandPathAsWritten(d: CommandData): Option<string>
    requires d.ChatInputData?
  {
    var group := FindIn(d.options, SubcommandGroupOptionType);
    var subcommand := FindIn(d.options, SubcommandOptionType);
    if subcommand.None? then None else Some(PathText(group, subcommand.value))
  }

  /** `subcommandPath` as its documentation describes it: the subcommand is
      looked for inside the group when a group was invoked, where the API
      puts it, and among the top-level options otherwise. */
  function SubcommandPath(d: CommandData): (r: Option<string>)
    requires d.ChatInputData?
    ensures FindIn(d.options, SubcommandGroupOptionType).None? ==> r == SubcommandPathAsWritten(d)
  {
    var group := FindIn(d.options, SubcommandGroupOptionType);
    var scope := if group.Some? then group.value.options else d.options;
    var subcommand := FindIn(scope, SubcommandOptionType);
    if subcommand.None? then None else Some(PathText(group, subcommand.value))
  }

  /** As written, the path exists exactly when some top-level option is a
      subcommand; it is the first such subcommand's name, after the first
      top-level group's name and a `/` when there is a group. */
  lemma SubcommandPathAsWrittenShape(d: CommandData)
    requires d.ChatInputData?
    ensures SubcommandPathAsWritten(d).Some? <==>
      (d.options.Some? && exists k :: 0 <= k < |d.options.value| && d.options.value[k].typ == SubcommandOptionType)
    ensures var group := FindIn(d.options, SubcommandGroupOptionType);
      var subcommand := FindIn(d.options, SubcommandOptionType);
      subcommand.Some? && group.Some? ==> SubcommandPathAsWritten(d) == Some(group.value.name + "/" + subcommand.value.name)
    ensures var group := FindIn(d.options, SubcommandGroupOptionType);
      var subcommand := FindIn(d.options, SubcommandOptionType);
      subcommand.Some? && group.None? ==> SubcommandPathAsWritten(d) == Some(subcommand.value.name)
  {
    var subcommand := FindIn(d.options, SubcommandOptionType);
    if subcommand.Some? {
      assert "" + subcommand.value.name == subcommand.value.name;
    }
  }

  /** A top-level subcommand, the shape the API sends when no group was
      invoked, gives `subcommand`, as written and as documented. */
  lemma SubcommandPathTopLevel(s: string, parameters: seq<DataOption>, id: string, name: string)
    ensures
      var sub := DataOption(s, SubcommandOptionType, None, Some(parameters));
      var d := ChatInputData(id, name, ChatInputType, None, Some([sub]), None);
      SubcommandPath(d) == Some(s) && SubcommandPathAsWritten(d) == Some(s)
  {
    var sub := DataOption(s, SubcommandOptionType, None, Some(parameters));
    assert FindOption([sub], SubcommandOptionType) == Some(sub);
    assert FindOption([sub], SubcommandGroupOptionType).None?;
    assert PathText(None, sub) == "" + s == s;
  }

  /** A subcommand inside a group, the shape the API sends when a group was
      invoked, gives `group/subcommand`; as written it gives nothing. */
  lemma SubcommandPathInGroup(g: string, s: string, parameters: seq<DataOption>, id: string, name: string)
    ensures
      var sub := DataOption(s, SubcommandOptionType, None, Some(parameters));
      var group := DataOption(g, SubcommandGroupOptionType, None, Some([sub]));
      var d := ChatInputData(id, name, ChatInputType, None, Some([group]), None);
      SubcommandPath(d) == Some(g + "/" + s) && SubcommandPathAsWritten(d).None?
  {
    var sub := DataOption(s, SubcommandOptionType, None, Some(parameters));
    var group := DataOption(g, SubcommandGroupOptionType, None, Some([sub]));
    var d := ChatInputData(id, name, ChatInputType, None, Some([group]), None);
    assert FindOption([sub], SubcommandOptionType) == Some(sub);
    assert FindOption([group], SubcommandGroupOptionType) == Some(group);
    assert FindOption([group], SubcommandOptionType).None?;
    assert FindIn(d.options, SubcommandGroupOptionType) == Some(group);
    assert FindIn(group.options, SubcommandOptionType) == Some(sub);
    assert SubcommandPath(d) == Some(PathText(Some(group), sub));
  }

  /** A path exists exactly when a subcommand is found where it is looked for. */
  lemma SubcommandPathPresent(d: CommandData)
    requires d.ChatInputData?
    ensures FindIn(d.options, SubcommandGroupOptionType).None? ==>
      (SubcommandPath(d).Some? <==> FindIn(d.options, SubcommandOptionType).Some?)
    ensures FindIn(d.options, SubcommandGroupOptionType).Some? ==>
      (SubcommandPath(d).Some? <==>
        FindIn(FindIn(d.options, SubcommandGroupOptionType).value.options, SubcommandOptionType).Some?)
  {
  }

  // ---------------------------------------------------------------------
  // Message component data
  // ---------------------------------------------------------------------

  /** `APIMessageComponentInteractionData`. */
  datatype RawComponentData = RawComponentData(customId: string, componentType: int, values: Option<seq<string>>)

  /** `ComponentInteractionData` and its two subclasses. */
  datatype ComponentData =
    | BaseComponentData(customId: string, typ: int)
    | ButtonData(customId: string, typ: int)
    | SelectMenuData(customId: string, typ: int, values: Option<seq<string>>)

  /** The select menu component types. */
  predicate IsSelectMenuType(t: int) {
    t == StringSelectType || t == UserSelectType || t == RoleSelectType
    || t == MentionableSelectType || t == ChannelSelectType
  }

  /** `ComponentInteractionData.init`. */
  function InitComponent(raw: RawComponentData): (d: ComponentData)
    ensures d.customId == raw.customId && d.typ == raw.componentType
    ensures d.SelectMenuData? ==> d.values == raw.values
  {
    if raw.componentType == ButtonType then ButtonData(raw.customId, raw.componentType)
    else if IsSelectMenuType(raw.componentType) then SelectMenuData(raw.customId, raw.componentType, raw.values)
    else BaseComponentData(raw.customId, raw.componentType)
  }

  /** The line the factory prints to the error console, if any. */
  function ComponentDiagnostic(raw: RawComponentData): Option<string> {
    if raw.componentType == ButtonType || IsSelectMenuType(raw.componentType) then None
    else Some("Invalid component type.")
  }

  /** `isButton`. */
  predicate IsButton(d: ComponentData) { d.typ == ButtonType }

  /** `isSelectMenu`. */
  predicate IsSelectMenu(d: ComponentData) { IsSelectMenuType(d.typ) }

  /** The factory's choice agrees with the type guards, which never both
      hold; the diagnostic is printed exactly for the base class. */
  lemma InitComponentClassifies(raw: RawComponentData)
    ensures InitComponent(raw).ButtonData? <==> IsButton(InitComponent(raw))
    ensures InitComponent(raw).SelectMenuData? <==> IsSelectMenu(InitComponent(raw))
    ensures !(IsButton(InitComponent(raw)) && IsSelectMenu(InitComponent(raw)))
    ensures ComponentDiagnostic(raw).Some? <==> InitComponent(raw).BaseComponentData?
  {
  }

  // ---------------------------------------------------------------------
  // Modal submission data
  // ---------------------------------------------------------------------

  /** `APIModalSubmission`; the action rows are carried as JSON. */
  datatype RawModalData = RawModalData(customId: string, components: seq<Json>)

  /** `ModalSubmissionData`. */
  datatype ModalSubmissionData = ModalSubmissionData(customId: string, components: seq<Json>)

  /** The `ModalSubmissionData` constructor. */
  function InitModal(raw: RawModalData): (d: ModalSubmissionData)
    ensures d.customId == raw.customId && d.components == raw.components
  {
    ModalSubmissionData(raw.customId, raw.components)
  }

  /** The payload a modal submission's data was read from. */
  function ModalToRaw(d: ModalSubmissionData): RawModalData {
    RawModalData(d.customId, d.components)
  }

  /** The constructor loses nothing and adds nothing: it and `ModalToRaw`
      are inverse to each other, so distinct payloads give distinct data. */
  lemma InitModalRoundTrip(raw: RawModalData, d: ModalSubmissionData, other: RawModalData)
    ensures ModalToRaw(InitModal(raw)) == raw
    ensures InitModal(ModalToRaw(d)) == d
    ensures InitModal(raw) == InitModal(other) ==> raw == other
  {
  }
}

=== FILE: interaction_manager.dfy ===
/** The request side of src/model/manager/InteractionManager.ts and the route
    of src/index.ts: handler registration, the lookup of the handler for an
    interaction, `handle`, and the signature check that runs before it.

    The server's collaborators are parameters: `verify` stands for the
    Ed25519 detached-signature check (`Err` with the thrown error's text
    when it throws on a malformed key or signature), `parse` for
    `JSON.parse` (`None` when it throws), and
    `run` for the `handle` body of the handler at a position in the list,
    which is user code. */
module InteractionManagers {
  import opened Optional
  import opened Results
  import Strings
  import Logger
  import Handlers
  import Interactions

  datatype InteractionManager = InteractionManager(handlers: seq<Handlers.Handler>)

  /** The shared instance when first created. */
  const Empty: InteractionManager := InteractionManager([])

  /** `register(handler?)`: a defined handler is appended, nothing else. */
  function Register(m: InteractionManager, handler: Option<Handlers.Handler>): (r: InteractionManager)
    ensures handler.None? ==> r == m
    ensures handler.Some? ==> |r.handlers| == |m.handlers| + 1
    ensures handler.Some? ==> r.handlers[..|m.handlers|] == m.handlers && r.handlers[|m.handlers|] == handler.value
  {
    if handler.Some? then InteractionManager(m.handlers + [handler.value]) else m
  }

  // ---------------------------------------------------------------------
  // Finding the handler
  // ---------------------------------------------------------------------

  /** The callback `handlerFor` passes to `find`. */
  predicate Matches(i: Interactions.Interaction, h: Handlers.Handler) {
    if Interactions.IsAutocompleteRequest(i) && Handlers.IsAutocompleteRequestHandler(h) then
      Interactions.Key(i) == Some(h.commandName)
    else if Interactions.IsCommand(i) && Handlers.IsCommandHandler(h) then
      Interactions.Key(i) == Some(h.command.name)
    else if Interactions.IsComponent(i) && Handlers.IsComponentHandler(h) then
      Interactions.Key(i) == Some(h.customId)
    else if Interactions.IsModalSubmission(i) && Handlers.IsModalSubmissionHandler(h) then
      Interactions.Key(i) == Some(h.customId)
    else false
  }

  /** A handler matches exactly when it declares the interaction's type and
      answers to the interaction's key. */
  lemma MatchesIff(i: Interactions.Interaction, h: Handlers.Handler)
    ensures Matches(i, h) <==> i.base.typ == Handlers.TypeOf(h) && Interactions.Key(i) == Some(Handlers.Key(h))
  {
  }

  /** No handler matches a ping or an interaction of an unknown type. */
  lemma NothingMatchesPing(i: Interactions.Interaction, h: Handlers.Handler)
    requires i.PingInteraction? || i.BaseInteraction? || Interactions.IsPing(i)
    ensures !Matches(i, h)
  {
    MatchesIff(i, h);
  }

  /** The position of the first matching handler, as `find` picks it. */
  function FirstMatch(hs: seq<Handlers.Handler>, i: Interactions.Interaction): (r: Option<nat>)
    ensures r.None? <==> forall k :: 0 <= k < |hs| ==> !Matches(i, hs[k])
    ensures r.Some? ==> r.value < |hs| && Matches(i, hs[r.value])
    ensures r.Some? ==> forall k :: 0 <= k < r.value ==> !Matches(i, hs[k])
  {
    if |hs| == 0 then None
    else if Matches(i, hs[0]) then Some(0)
    else
      var rest := FirstMatch(hs[1..], i);
      assert forall k :: 1 <= k < |hs| ==> hs[k] == hs[1..][k - 1];
      if rest.Some? then Some(rest.value + 1) else None
  }

  /** The message of the error `handlerFor` throws, as `String(error)`
      renders it. */
  function NoHandlerMessage(i: Interactions.Interaction): string {
    "Error: Could not find a handler for the interaction (id: " + i.base.id
    + "; type: " + Strings.IntToString(i.base.typ) + ")."
  }

  /** `handlerFor(interaction)`: a linear search for the first matching
      handler; when there is none, the error it throws. */
  method HandlerFor(m: InteractionManager, i: Interactions.Interaction) returns (r: Result<nat>)
    ensures r.Ok? ==> r.value < |m.handlers| && Matches(i, m.handlers[r.value])
    ensures r.Ok? ==> forall k :: 0 <= k < r.value ==> !Matches(i, m.handlers[k])
    ensures r.Err? <==> forall k :: 0 <= k < |m.handlers| ==> !Matches(i, m.handlers[k])
    ensures r.Err? ==> r.message == NoHandlerMessage(i)
  {
    var k := 0;
    while k < |m.handlers|
      invariant 0 <= k <= |m.handlers|
      invariant forall j :: 0 <= j < k ==> !Matches(i, m.handlers[j])
    {
      if Matches(i, m.handlers[k]) {
        return Ok(k);
      }
      k := k + 1;
    }
    return Err(NoHandlerMessage(i));
  }

  /** Registering a handler never changes which handler an interaction that
      already had one is given: the first registered wins. */
  lemma FirstRegisteredWins(m: InteractionManager, h: Handlers.Handler, i: Interactions.Interaction)
    requires FirstMatch(m.handlers, i).Some?
    ensures FirstMatch(Register(m, Some(h)).handlers, i) == FirstMatch(m.handlers, i)
  {
    var hs := Register(m, Some(h)).handlers;
    var k := FirstMatch(m.handlers, i).value;
    assert hs[k] == m.handlers[k];
    assert forall j :: 0 <= j < k ==> hs[j] == m.handlers[j];
    FirstMatchAt(hs, i, k);
  }

  /** A matching position with no match before it is the first match. */
  lemma FirstMatchAt(hs: seq<Handlers.Handler>, i: Interactions.Interaction, k: nat)
    requires k < |hs| && Matches(i, hs[k])
    requires forall j :: 0 <= j < k ==> !Matches(i, hs[j])
    ensures FirstMatch(hs, i) == Some(k)
  {
    var r := FirstMatch(hs, i);
    assert r.Some?;
    assert r.value <= k;
    assert r.value >= k;
  }

  // ---------------------------------------------------------------------
  // Handling
  // ---------------------------------------------------------------------

  /** How a handler's `handle` ended: normally, or by throwing `error`
      (rendered with `String`). */
  datatype HandlerRun = Completed | Failed(error: string)

  /** The HTTP response: a status and a body (`None` for `null`). */
  datatype Reply = Reply(status: int, body: Option<string>)

  /** A reply and the lines logged on the way, in order. */
  datatype Handled = Handled(reply: Reply, log: seq<string>)

  const OK: int := 200
  const BadRequest: int := 400
  const Unauthorized: int := 401
  const NotFound: int := 404
  const InternalServerError: int := 500
  const NotImplemented: int := 501

  /** The error line of `handle`'s `catch` as written: the object
      `{content, code}` is passed as the content and no properties, so the
      line is the object's default string, in red, with no code. */
  function FailureLogAsWritten(error: string): string {
    Logger.Error("[object Object]", None)
  }

  /** The error line of `handle`'s `catch` as intended: the error text in
      red, after a bold red `[Error 400]: `. */
  function FailureLog(error: string): string {
    Logger.Error(error, Some(Logger.ErrorProperties(Some(BadRequest))))
  }

  /** As written, the line is the same whatever went wrong; as intended, it
      tells errors apart and names code 400. */
  lemma FailureLogAsWrittenLosesError(e1: string, e2: string)
    ensures FailureLogAsWritten(e1) == FailureLogAsWritten(e2)
    ensures FailureLog(e1) == FailureLog(e2) ==> e1 == e2
    ensures FailureLog(e1) == Logger.AnsiWrapped("[Error 400]: ", Logger.ErrorCodeConfiguration)
                              + Logger.AnsiWrapped(e1, Logger.ErrorConfiguration)
  {
    BadRequestText();
    if FailureLog(e1) == FailureLog(e2) {
      var prefix := Logger.AnsiWrapped("[Error 400]: ", Logger.ErrorCodeConfiguration);
      var w1 := Logger.AnsiWrapped(e1, Logger.ErrorConfiguration);
      var w2 := Logger.AnsiWrapped(e2, Logger.ErrorConfiguration);
      assert prefix + w1 == prefix + w2;
      assert w1 == (prefix + w1)[|prefix|..];
      assert w2 == (prefix + w2)[|prefix|..];
      Logger.UnwrapAnsiWrapped(e1, Logger.ErrorConfiguration);
      Logger.UnwrapAnsiWrapped(e2, Logger.ErrorConfiguration);
    }
  }

  lemma BadRequestText()
    ensures Logger.CodePrefix(Some(BadRequest)) == "[Error 400]: "
  {
    assert Strings.NatToString(4) == "4" && Strings.NatToString(40) == "40";
    assert Strings.NatToString(400) == "400";
  }

  /** `handle(context)` for the parsed payload: a ping is acknowledged; any
      other interaction goes to the first matching handler, and a missing
      handler or a handler that throws gives 404 with an error line. The
      log starts with what building the interaction printed. An error from
      `init` is not caught here (`Err`). */
  function Handle(m: InteractionManager, raw: Interactions.RawInteraction,
                  run: (nat, Interactions.Interaction) -> HandlerRun): (r: Result<Handled>)
    ensures r.Err? <==> Interactions.Init(raw).Err?
    ensures r.Ok? ==> r.value.reply.status in {OK, NotFound}
    ensures r.Ok? ==> |Interactions.InitLog(raw)| <= |r.value.log|
                      && r.value.log[..|Interactions.InitLog(raw)|] == Interactions.InitLog(raw)
    ensures r.Ok? && Interactions.IsPing(Interactions.Init(raw).value) ==>
      r.value == Handled(Reply(OK, Some(Interactions.AcknowledgeData)), [])
  {
    match Interactions.Init(raw)
    case Err(e) => Err(e)
    case Ok(i) =>
      var printed := Interactions.InitLog(raw);
      if Interactions.IsPing(i) then Ok(Handled(Reply(OK, Some(Interactions.AcknowledgeData)), printed))
      else
        match FirstMatch(m.handlers, i)
        case None => Ok(Handled(Reply(NotFound, None), printed + [FailureLog(NoHandlerMessage(i))]))
        case Some(k) =>
          match run(k, i)
          case Completed => Ok(Handled(Reply(OK, Some("Interaction received.")), printed))
          case Failed(error) => Ok(Handled(Reply(NotFound, None), printed + [FailureLog(error)]))
  }

  /** The request was handled successfully exactly when it was a ping or a
      matching handler completed; otherwise the reply is 404 with a null body
      and the error line. */
  lemma HandleSucceeds(m: InteractionManager, raw: Interactions.RawInteraction,
                       run: (nat, Interactions.Interaction) -> HandlerRun)
    requires Interactions.Init(raw).Ok?
    ensures var i := Interactions.Init(raw).value;
      var r := Handle(m, raw, run).value;
      r.reply.status == OK <==>
        (Interactions.IsPing(i)
         || (FirstMatch(m.handlers, i).Some? && run(FirstMatch(m.handlers, i).value, i) == Completed))
    ensures var r := Handle(m, raw, run).value;
      r.reply.status == NotFound ==> r.reply.body.None? && |r.log| == |Interactions.InitLog(raw)| + 1
    ensures var r := Handle(m, raw, run).value;
      r.reply.status == OK ==> r.log == Interactions.InitLog(raw)
  {
  }

  /** Without a matching handler no handler code runs: the reply does not
      depend on `run`, and the line carries the lookup's error. */
  lemma HandleWithoutHandler(m: InteractionManager, raw: Interactions.RawInteraction,
                             run1: (nat, Interactions.Interaction) -> HandlerRun,
                             run2: (nat, Interactions.Interaction) -> HandlerRun)
    requires Interactions.Init(raw).Ok?
    requires FirstMatch(m.handlers, Interactions.Init(raw).value).None?
    ensures Handle(m, raw, run1) == Handle(m, raw, run2)
    ensures !Interactions.IsPing(Interactions.Init(raw).value) ==>
      Handle(m, raw, run1) == Ok(Handled(Reply(NotFound, None),
                                         Interactions.InitLog(raw)
                                         + [FailureLog(NoHandlerMessage(Interactions.Init(raw).value))]))
  {
  }

  // ---------------------------------------------------------------------
  // The server route
  // ---------------------------------------------------------------------

  /** What the route reads of an HTTP request: the body (`None` for `null`)
      and the two signature headers. */
  datatype ServerRequest = ServerRequest(body: Option<string>, signature: Option<string>, timestamp: Option<string>)

  /** The route's outcome: a reply, or an error that escapes the route and
      is left to the web framework, with the error's text. */
  datatype Served = Replied(handled: Handled) | Escaped(error: string)

  /** The signed message: the timestamp header, as a template renders it,
      followed by the body. */
  function SignedMessage(timestamp: Option<string>, body: string): string {
    (if timestamp.Some? then timestamp.value else "undefined") + body
  }

  /** What `Buffer.from(undefined, "hex")` throws for a missing header or
      public key. */
  const MissingArgument: string := "TypeError: The first argument must be of type string"

  /** What `JSON.parse` throws for a body that is not JSON. */
  const NotJson: string := "SyntaxError: JSON Parse error"

  /** `verificationMiddleware` followed by the route's handler in
      src/index.ts, which turns an error `handle` throws into a 500. */
  function Serve(m: InteractionManager, request: ServerRequest, publicKey: Option<string>,
                 verify: (string, string, string) -> Result<bool>,
                 parse: string -> Option<Interactions.RawInteraction>,
                 run: (nat, Interactions.Interaction) -> HandlerRun): (r: Served)
    ensures request.body.None? ==> r == Replied(Handled(Reply(NotImplemented, Some("Invalid request signature.")), []))
    ensures r.Replied? ==> r.handled.reply.status in {OK, Unauthorized, NotFound, InternalServerError, NotImplemented}
    ensures request.body.Some? && request.signature.Some? && publicKey.Some?
            && verify(SignedMessage(request.timestamp, request.body.value), request.signature.value, publicKey.value).Err? ==>
      r == Escaped(verify(SignedMessage(request.timestamp, request.body.value), request.signature.value, publicKey.value).message)
  {
    if request.body.None? then
      Replied(Handled(Reply(NotImplemented, Some("Invalid request signature.")), []))
    else if request.signature.None? || publicKey.None? then
      Escaped(MissingArgument)
    else
      var body := request.body.value;
      match verify(SignedMessage(request.timestamp, body), request.signature.value, publicKey.value)
      case Err(error) => Escaped(error)
      case Ok(false) => Replied(Handled(Reply(Unauthorized, Some("Invalid request signature.")), []))
      case Ok(true) =>
        match parse(body)
        case None => Escaped(NotJson)
        case Some(raw) =>
          match Handle(m, raw, run)
          case Err(e) => Replied(Handled(Reply(InternalServerError, Some("Error with interaction server: " + e)), []))
          case Ok(h) => Replied(h)
  }

  /** Whether the request carries a signature the key accepts. */
  predicate Verified(request: ServerRequest, publicKey: Option<string>, verify: (string, string, string) -> Result<bool>) {
    request.body.Some? && request.signature.Some? && publicKey.Some?
    && verify(SignedMessage(request.timestamp, request.body.value), request.signature.value, publicKey.value) == Ok(true)
  }

  /** A request whose signature is rejected gets 401 and reaches neither the
      parser nor any handler. */
  lemma ServeRejectsUnverified(m: InteractionManager, request: ServerRequest, publicKey: Option<string>,
                               verify: (string, string, string) -> Result<bool>,
                               parse1: string -> Option<Interactions.RawInteraction>,
                               parse2: string -> Option<Interactions.RawInteraction>,
                               run1: (nat, Interactions.Interaction) -> HandlerRun,
                               run2: (nat, Interactions.Interaction) -> HandlerRun)
    requires request.body.Some? && request.signature.Some? && publicKey.Some?
    requires verify(SignedMessage(request.timestamp, request.body.value), request.signature.value, publicKey.value) == Ok(false)
    ensures Serve(m, request, publicKey, verify, parse1, run1)
         == Replied(Handled(Reply(Unauthorized, Some("Invalid request signature.")), []))
    ensures Serve(m, request, publicKey, verify, parse1, run1) == Serve(m, request, publicKey, verify, parse2, run2)
  {
  }

  /** Every reply other than 401 and 501 is for a verified request; in
      particular no handler runs for a request that is not. */
  lemma ServeOnlyVerifiedReachesHandlers(m: InteractionManager, request: ServerRequest, publicKey: Option<string>,
                                         verify: (string, string, string) -> Result<bool>,
                                         parse: string -> Option<Interactions.RawInteraction>,
                                         run: (nat, Interactions.Interaction) -> HandlerRun)
    requires Serve(m, request, publicKey, verify, parse, run).Replied?
    requires Serve(m, request, publicKey, verify, parse, run).handled.reply.status in {OK, NotFound, InternalServerError}
    ensures Verified(request, publicKey, verify)
    ensures parse(request.body.value).Some?
    ensures Serve(m, request, publicKey, verify, parse, run).handled.reply.status == InternalServerError <==>
      Interactions.Init(parse(request.body.value).value).Err?
  {
  }

  /** For a verified request that parses, the route's reply is `handle`'s. */
  lemma ServeVerified(m: InteractionManager, request: ServerRequest, publicKey: Option<string>,
                      verify: (string, string, string) -> Result<bool>,
                      parse: string -> Option<Interactions.RawInteraction>,
                      run: (nat, Interactions.Interaction) -> HandlerRun)
    requires Verified(request, publicKey, verify) && parse(request.body.value).Some?
    requires Handle(m, parse(request.body.value).value, run).Ok?
    ensures Serve(m, request, publicKey, verify, parse, run) == Replied(Handle(m, parse(request.body.value).value, run).value)
  {
  }
}

=== FILE: interactions.dfy ===
/** The interactions of src/model/interaction/Interaction.ts: the raw payload,
    `Interaction.init` and its subclasses, the type guards, `sender`, and the
    responders, each of which builds an interaction response and hands it to
    `sendTo`. A responder is modelled as the response it builds; `sendTo` as
    the request it passes to `fetch` and the line it logs for the status
    Discord answers with. */
module Interactions {
  import opened Optional
  import opened Results
  import opened Json
  import Endpoint
  import Clients
  import Logger
  import Strings
  import CommandOptions
  import InteractionData

  // InteractionType codes.
  const PingType: int := 1
  const ApplicationCommandType: int := 2
  const MessageComponentType: int := 3
  const AutocompleteType: int := 4
  const ModalSubmitType: int := 5

  // InteractionResponseType codes.
  const PongResponse: int := 1
  const ChannelMessageWithSourceResponse: int := 4
  const DeferredChannelMessageWithSourceResponse: int := 5
  const DeferredMessageUpdateResponse: int := 6
  const UpdateMessageResponse: int := 7
  const AutocompleteResultResponse: int := 8
  const ModalResponse: int := 9

  /** `MessageFlags.Ephemeral`, bit 6. */
  const EphemeralFlag: int := 64

  // ---------------------------------------------------------------------
  // The raw payload
  // ---------------------------------------------------------------------

  datatype User = User(id: string, username: string)

  /** A guild member; the API may leave out its user. */
  datatype Member = Member(user: Option<User>, nick: Option<string>)

  /** The `data` of a payload, in the shape of its kind. */
  datatype RawData =
    | CommandPayload(command: InteractionData.RawCommandData)
    | ComponentPayload(component: InteractionData.RawComponentData)
    | ModalPayload(modal: InteractionData.RawModalData)

  /** `APIInteraction`. */
  datatype RawInteraction = RawInteraction(
    id: string,
    token: string,
    typ: int,
    applicationId: string,
    appPermissions: Option<string>,
    guildId: Option<string>,
    channel: Option<Json>,
    member: Option<Member>,
    user: Option<User>,
    locale: Option<string>,
    version: int,
    data: Option<RawData>,
    message: Option<Json>)

  // ---------------------------------------------------------------------
  // The interaction classes
  // ---------------------------------------------------------------------

  /** The properties every interaction has. */
  datatype Base = Base(
    id: string,
    token: string,
    typ: int,
    applicationId: string,
    applicationPermissions: Option<string>,
    guildId: Option<string>,
    channel: Option<Json>,
    member: Option<Member>,
    user: Option<User>,
    locale: Option<string>,
    version: int)

  /** The `Interaction` constructor as written: `applicationPermissions` is
      copied from `application_id`, and `locale` is never set. */
  function BaseAsWritten(raw: RawInteraction): Base {
    Base(raw.id, raw.token, raw.typ, raw.applicationId, Some(raw.applicationId),
         raw.guildId, raw.channel, raw.member, raw.user, None, raw.version)
  }

  /** The `Interaction` constructor as its field documentation describes it:
      every property is the payload's own. */
  function BaseOf(raw: RawInteraction): (b: Base)
    ensures b.id == raw.id && b.token == raw.token && b.typ == raw.typ
    ensures b.applicationId == raw.applicationId && b.applicationPermissions == raw.appPermissions
    ensures b.guildId == raw.guildId && b.channel == raw.channel
    ensures b.member == raw.member && b.user == raw.user
    ensures b.locale == raw.locale && b.version == raw.version
  {
    Base(raw.id, raw.token, raw.typ, raw.applicationId, raw.appPermissions,
         raw.guildId, raw.channel, raw.member, raw.user, raw.locale, raw.version)
  }

  /** As written, the permissions are the application's identifier and the
      locale is lost; the two constructors agree on everything else. */
  lemma BaseAsWrittenLosesFields(raw: RawInteraction)
    ensures BaseAsWritten(raw).applicationPermissions == Some(raw.applicationId)
    ensures BaseAsWritten(raw).locale.None?
    ensures BaseAsWritten(raw) == BaseOf(raw).(applicationPermissions := Some(raw.applicationId), locale := None)
    ensures BaseAsWritten(raw) == BaseOf(raw) <==> raw.appPermissions == Some(raw.applicationId) && raw.locale.None?
  {
  }

  datatype Interaction =
    | AutocompleteInteraction(base: Base, commandData: InteractionData.CommandData)
    | CommandInteraction(base: Base, commandData: InteractionData.CommandData)
    | ComponentInteraction(base: Base, message: Option<Json>, componentData: InteractionData.ComponentData)
    | ModalSubmissionInteraction(base: Base, modalData: InteractionData.ModalSubmissionData)
    | PingInteraction(base: Base)
    | BaseInteraction(base: Base)

  /** Whether the payload's `data` has the shape its kind reads: command data
      for commands and autocomplete requests, component data for components,
      modal data for modal submissions; other kinds read none. */
  predicate DataFits(raw: RawInteraction) {
    if raw.typ == ApplicationCommandType || raw.typ == AutocompleteType then
      raw.data.Some? && raw.data.value.CommandPayload?
    else if raw.typ == MessageComponentType then
      raw.data.Some? && raw.data.value.ComponentPayload?
    else if raw.typ == ModalSubmitType then
      raw.data.Some? && raw.data.value.ModalPayload?
    else true
  }

  /** What a subclass constructor throws when it reads a property of missing
      data. */
  const MissingData: string := "TypeError: undefined is not an object"

  /** `Interaction.init`: the subclass for the payload's type, built from its
      data. An autocomplete request always gets chat input data. Reading the
      data of a payload that has none throws. */
  function Init(raw: RawInteraction): (r: Result<Interaction>)
    ensures r.Err? <==> !DataFits(raw)
    ensures r.Ok? ==> r.value.base == BaseOf(raw)
  {
    if !DataFits(raw) then Err(MissingData)
    else
      var base := BaseOf(raw);
      if raw.typ == AutocompleteType then
        Ok(AutocompleteInteraction(base, InteractionData.ChatInput(raw.data.value.command)))
      else if raw.typ == ApplicationCommandType then
        Ok(CommandInteraction(base, InteractionData.InitCommand(raw.data.value.command)))
      else if raw.typ == MessageComponentType then
        Ok(ComponentInteraction(base, raw.message, InteractionData.InitComponent(raw.data.value.component)))
      else if raw.typ == ModalSubmitType then
        Ok(ModalSubmissionInteraction(base, InteractionData.InitModal(raw.data.value.modal)))
      else if raw.typ == PingType then
        Ok(PingInteraction(base))
      else
        Ok(BaseInteraction(base))
  }

  /** The line `init` prints to the error console, if any. */
  function Diagnostic(raw: RawInteraction): Option<string> {
    if 1 <= raw.typ <= 5 then None else Some("Invalid interaction type.")
  }

  /** An optional line as a list of lines. */
  function Lines(line: Option<string>): (r: seq<string>)
    ensures |r| <= 1 && (line.Some? <==> |r| == 1)
    ensures line.Some? ==> r[0] == line.value
  {
    if line.Some? then [line.value] else []
  }

  /** Everything building the interaction prints to the error console:
      `init`'s own line for an unknown kind, or the line of the command or
      component data factory for an unknown data type. A payload whose data
      is missing throws before anything is printed. */
  function InitLog(raw: RawInteraction): (lines: seq<string>)
    ensures |lines| <= 1
    ensures !DataFits(raw) ==> lines == []
    ensures Diagnostic(raw).Some? ==> lines == [Diagnostic(raw).value]
  {
    if !DataFits(raw) then []
    else if raw.typ == ApplicationCommandType then Lines(InteractionData.CommandDiagnostic(raw.data.value.command))
    else if raw.typ == MessageComponentType then Lines(InteractionData.ComponentDiagnostic(raw.data.value.component))
    else Lines(Diagnostic(raw))
  }

  /** `isAutocompleteRequest`. */
  predicate IsAutocompleteRequest(i: Interaction) { i.base.typ == AutocompleteType }

  /** `isCommand`. */
  predicate IsCommand(i: Interaction) { i.base.typ == ApplicationCommandType }

  /** `isComponent`. */
  predicate IsComponent(i: Interaction) { i.base.typ == MessageComponentType }

  /** `isModalSubmission`. */
  predicate IsModalSubmission(i: Interaction) { i.base.typ == ModalSubmitType }

  /** `isPing`. */
  predicate IsPing(i: Interaction) { i.base.typ == PingType }

  /** On what `init` builds, each type guard holds exactly for its own
      subclass, and the diagnostic is printed exactly for the base class. */
  lemma InitClassifies(raw: RawInteraction)
    requires Init(raw).Ok?
    ensures IsAutocompleteRequest(Init(raw).value) <==> Init(raw).value.AutocompleteInteraction?
    ensures IsCommand(Init(raw).value) <==> Init(raw).value.CommandInteraction?
    ensures IsComponent(Init(raw).value) <==> Init(raw).value.ComponentInteraction?
    ensures IsModalSubmission(Init(raw).value) <==> Init(raw).value.ModalSubmissionInteraction?
    ensures IsPing(Init(raw).value) <==> Init(raw).value.PingInteraction?
    ensures Diagnostic(raw).Some? <==> Init(raw).value.BaseInteraction?
  {
  }

  /** Only the four kinds that carry data can throw, and only for want of it. */
  lemma InitThrows(raw: RawInteraction)
    ensures Init(raw).Err? ==> raw.typ in {ApplicationCommandType, MessageComponentType, AutocompleteType, ModalSubmitType}
    ensures (raw.typ in {ApplicationCommandType, MessageComponentType, AutocompleteType, ModalSubmitType}
             && raw.data.None?) ==> Init(raw).Err?
  {
  }

  /** Building an interaction prints a line exactly when some level falls
      back to a base class: the interaction itself, or its command or
      component data. The line names what was not recognised. */
  lemma InitLogIff(raw: RawInteraction)
    requires Init(raw).Ok?
    ensures var i := Init(raw).value;
      |InitLog(raw)| == 1 <==>
        (i.BaseInteraction?
         || (i.CommandInteraction? && i.commandData.BaseCommandData?)
         || (i.ComponentInteraction? && i.componentData.BaseComponentData?))
    ensures |InitLog(raw)| == 1 ==>
      InitLog(raw)[0] == (if raw.typ == MessageComponentType then "Invalid component type." else "Invalid interaction type.")
  {
    if raw.typ == ApplicationCommandType {
      InteractionData.InitCommandClassifies(raw.data.value.command);
    } else if raw.typ == MessageComponentType {
      InteractionData.InitComponentClassifies(raw.data.value.component);
    }
  }

  /** `InitLog` as written: the command factory prints for message commands
      too. */
  function InitLogAsWritten(raw: RawInteraction): seq<string> {
    if DataFits(raw) && raw.typ == ApplicationCommandType then
      Lines(InteractionData.CommandDiagnosticAsWritten(raw.data.value.command))
    else InitLog(raw)
  }

  /** The two logs differ exactly on message commands, where the program as
      written prints a line the corrected one does not. */
  lemma InitLogAsWrittenDiffers(raw: RawInteraction)
    ensures InitLogAsWritten(raw) != InitLog(raw) <==>
      DataFits(raw) && raw.typ == ApplicationCommandType
      && raw.data.value.command.typ == InteractionData.MessageType
    ensures InitLogAsWritten(raw) != InitLog(raw) ==>
      InitLogAsWritten(raw) == ["Invalid interaction type."] && InitLog(raw) == []
  {
    if DataFits(raw) && raw.typ == ApplicationCommandType {
      InteractionData.CommandDiagnosticAgrees(raw.data.value.command);
    }
  }

  /** The data of what `init` builds is the payload's, read by the data
      factories. */
  lemma InitData(raw: RawInteraction)
    requires Init(raw).Ok?
    ensures Init(raw).value.AutocompleteInteraction? ==>
      Init(raw).value.commandData == InteractionData.ChatInput(raw.data.value.command)
    ensures Init(raw).value.CommandInteraction? ==>
      Init(raw).value.commandData == InteractionData.InitCommand(raw.data.value.command)
    ensures Init(raw).value.ComponentInteraction? ==>
      Init(raw).value.componentData == InteractionData.InitComponent(raw.data.value.component)
      && Init(raw).value.message == raw.message
    ensures Init(raw).value.ModalSubmissionInteraction? ==>
      Init(raw).value.modalData == InteractionData.InitModal(raw.data.value.modal)
  {
  }

  /** The name or identifier handlers are matched against: `commandName`
      for the two command kinds, `customId` for components and modals. */
  function Key(i: Interaction): (k: Option<string>)
    ensures k.Some? <==> !(i.PingInteraction? || i.BaseInteraction?)
  {
    match i
    case AutocompleteInteraction(_, d) => Some(d.name)
    case CommandInteraction(_, d) => Some(d.name)
    case ComponentInteraction(_, _, d) => Some(d.customId)
    case ModalSubmissionInteraction(_, d) => Some(d.customId)
    case PingInteraction(_) => None
    case BaseInteraction(_) => None
  }

  /** The payload field a built interaction's key comes from. */
  lemma InitKey(raw: RawInteraction)
    requires Init(raw).Ok?
    ensures raw.typ in {ApplicationCommandType, AutocompleteType} ==>
      Key(Init(raw).value) == Some(raw.data.value.command.name)
    ensures raw.typ == MessageComponentType ==> Key(Init(raw).value) == Some(raw.data.value.component.customId)
    ensures raw.typ == ModalSubmitType ==> Key(Init(raw).value) == Some(raw.data.value.modal.customId)
  {
  }

  /** `sender`: the member's user when there is one, the user otherwise. */
  function Sender(i: Interaction): (r: Option<User>)
    ensures i.base.member.Some? && i.base.member.value.user.Some? ==> r == i.base.member.value.user
    ensures !(i.base.member.Some? && i.base.member.value.user.Some?) ==> r == i.base.user
  {
    var fromMember := if i.base.member.Some? then i.base.member.value.user else None;
    if fromMember.Some? then fromMember else i.base.user
  }

  /** The sender of what `init` builds, read off the payload: the member's
      user in a guild, the top-level user in a direct message, and nobody
      when the payload has neither. The sender is always one of the
      payload's users, and where both are sent the member's wins. */
  lemma SenderOfInit(raw: RawInteraction)
    requires Init(raw).Ok?
    ensures raw.member.Some? && raw.member.value.user.Some? ==> Sender(Init(raw).value) == raw.member.value.user
    ensures raw.member.None? ==> Sender(Init(raw).value) == raw.user
    ensures Sender(Init(raw).value).None? <==>
      raw.user.None? && (raw.member.None? || raw.member.value.user.None?)
    ensures Sender(Init(raw).value).Some? ==>
      Sender(Init(raw).value) == raw.user
      || (raw.member.Some? && Sender(Init(raw).value) == raw.member.value.user)
  {
  }

  /** A modal submission built by `init` carries the payload's modal data
      unchanged: its key is the payload's custom identifier and the data
      reads back as the payload's. */
  lemma InitModalSubmission(raw: RawInteraction)
    requires Init(raw).Ok? && raw.typ == ModalSubmitType
    ensures Init(raw).value.ModalSubmissionInteraction?
    ensures InteractionData.ModalToRaw(Init(raw).value.modalData) == raw.data.value.modal
    ensures Key(Init(raw).value) == Some(raw.data.value.modal.customId)
  {
    InteractionData.InitModalRoundTrip(raw.data.value.modal, Init(raw).value.modalData, raw.data.value.modal);
  }

  // ---------------------------------------------------------------------
  // Responses
  // ---------------------------------------------------------------------

  /** `APIInteractionResponse`: the response type and its data, if any. */
  datatype Callback = Callback(responseType: int, data: Option<Json>)

  /** A response and the endpoint it is sent to. */
  datatype Response = Response(target: Endpoint.Endpoint, callback: Callback)

  /** What a responder is given to say: text or message fields. */
  datatype MessageInput = Text(content: string) | Fields(fields: map<string, Json>)

  /** The callback data with `flags` set for an ephemeral response. The
      spread puts `flags: undefined` over any `flags` the fields had, and
      `JSON.stringify` drops the undefined member. */
  function Flagged(fields: map<string, Json>, ephemeral: bool): (r: map<string, Json>)
    ensures "flags" in r <==> ephemeral
    ensures ephemeral ==> r["flags"] == Number(EphemeralFlag)
    ensures forall k :: k != "flags" ==> (k in r <==> k in fields)
    ensures forall k :: k != "flags" && k in fields ==> r[k] == fields[k]
  {
    var rest := fields - {"flags"};
    if ephemeral then rest["flags" := Number(EphemeralFlag)] else rest
  }

  /** Whether a response is marked ephemeral. */
  predicate IsEphemeral(c: Callback) {
    c.data.Some? && c.data.value.Object? && "flags" in c.data.value.members
    && c.data.value.members["flags"] == Number(EphemeralFlag)
  }

  /** The kinds with `defer`, `editResponse` and `respond`. */
  predicate IsRespondable(i: Interaction) {
    i.CommandInteraction? || i.ComponentInteraction? || i.ModalSubmissionInteraction?
  }

  /** The kinds with `showModal`. */
  predicate IsModalable(i: Interaction) {
    i.CommandInteraction? || i.ComponentInteraction?
  }

  /** `Endpoint.latest.interaction(id, token).callback`. */
  function CallbackEndpoint(i: Interaction): (e: Endpoint.Endpoint)
    ensures Endpoint.Run([Endpoint.InteractionStep(i.base.id, i.base.token), Endpoint.CallbackStep]) == Some(e)
    ensures e.path == "/interactions/" + i.base.id + "/" + i.base.token + "/callback"
  {
    Endpoint.CallbackPath(i.base.id, i.base.token);
    Endpoint.Run([Endpoint.InteractionStep(i.base.id, i.base.token), Endpoint.CallbackStep]).value
  }

  /** `Endpoint.latest.webhook(applicationId, token).messages.original`. */
  function OriginalEndpoint(i: Interaction): (e: Endpoint.Endpoint)
    ensures Endpoint.Run([Endpoint.WebhookStep(i.base.applicationId, i.base.token),
                          Endpoint.MessagesStep, Endpoint.OriginalStep]) == Some(e)
    ensures e.path == "/webhooks/" + i.base.applicationId + "/" + i.base.token + "/messages/@original"
  {
    Endpoint.OriginalMessagePath(i.base.applicationId, i.base.token);
    Endpoint.Run([Endpoint.WebhookStep(i.base.applicationId, i.base.token),
                  Endpoint.MessagesStep, Endpoint.OriginalStep]).value
  }

  /** `defer(ephemeral = false)`: a deferred channel message to the callback
      endpoint, carrying only the flags. */
  function Defer(i: Interaction, ephemeral: bool := false): (r: Response)
    requires IsRespondable(i)
    ensures r.target == CallbackEndpoint(i)
    ensures r.callback.responseType == DeferredChannelMessageWithSourceResponse
    ensures r.callback.data.Some? && r.callback.data.value.Object?
    ensures r.callback.data.value.members.Keys <= {"flags"}
    ensures IsEphemeral(r.callback) <==> ephemeral
  {
    Response(CallbackEndpoint(i), Callback(DeferredChannelMessageWithSourceResponse, Some(Object(Flagged(map[], ephemeral)))))
  }

  /** `editResponse(data, ephemeral = false)`: a channel message response
      sent to the original response's webhook message. */
  function EditResponse(i: Interaction, fields: map<string, Json>, ephemeral: bool := false): (r: Response)
    requires IsRespondable(i)
    ensures r.target == OriginalEndpoint(i)
    ensures r.callback.responseType == ChannelMessageWithSourceResponse
    ensures r.callback.data == Some(Object(Flagged(fields, ephemeral)))
    ensures IsEphemeral(r.callback) <==> ephemeral
  {
    Response(OriginalEndpoint(i), Callback(ChannelMessageWithSourceResponse, Some(Object(Flagged(fields, ephemeral)))))
  }

  /** The fields a message input stands for. */
  function FieldsOf(input: MessageInput): map<string, Json> {
    match input
    case Text(content) => map["content" := String(content)]
    case Fields(fields) => fields
  }

  /** `respond(data, ephemeral = false)`: a channel message response to the
      callback endpoint; text becomes the message `content`. */
  function Respond(i: Interaction, input: MessageInput, ephemeral: bool := false): (r: Response)
    requires IsRespondable(i)
    ensures r.target == CallbackEndpoint(i)
    ensures r.callback.responseType == ChannelMessageWithSourceResponse
    ensures IsEphemeral(r.callback) <==> ephemeral
    ensures input.Text? ==>
      (r.callback.data.Some? && r.callback.data.value.Object? && "content" in r.callback.data.value.members
       && r.callback.data.value.members["content"] == String(input.content))
  {
    var data := match input
      case Text(content) => Flagged(map["content" := String(content)], ephemeral)
      case Fields(fields) => Flagged(fields, ephemeral);
    Response(CallbackEndpoint(i), Callback(ChannelMessageWithSourceResponse, Some(Object(data))))
  }

  /** Responding with text is responding with a message whose only field is
      that content, and `respond` sends what `editResponse` sends, to the
      callback endpoint instead of the original message. */
  lemma RespondTextIsContent(i: Interaction, content: string, fields: map<string, Json>, ephemeral: bool)
    requires IsRespondable(i)
    ensures Respond(i, Text(content), ephemeral) == Respond(i, Fields(map["content" := String(content)]), ephemeral)
    ensures Respond(i, Fields(fields), ephemeral).callback == EditResponse(i, fields, ephemeral).callback
    ensures Respond(i, Text(content), ephemeral).callback == EditResponse(i, FieldsOf(Text(content)), ephemeral).callback
  {
  }

  /** `showModal(data)`: a modal response to the callback endpoint, with the
      modal's data as given. */
  function ShowModal(i: Interaction, modal: map<string, Json>): (r: Response)
    requires IsModalable(i)
    ensures r.target == CallbackEndpoint(i)
    ensures r.callback == Callback(ModalResponse, Some(Object(modal)))
  {
    Response(CallbackEndpoint(i), Callback(ModalResponse, Some(Object(modal))))
  }

  /** A choice as JSON. */
  function ChoiceJson(c: CommandOptions.Choice): Json {
    Object(map["name" := String(c.name),
               "value" := match c.value
                          case StringValue(t) => String(t)
                          case NumberValue(n) => Number(n)])
  }

  /** The choice a JSON value describes, if any. */
  function ChoiceOfJson(j: Json): Option<CommandOptions.Choice> {
    if j.Object? && "name" in j.members && "value" in j.members && j.members["name"].String? then
      var v := j.members["value"];
      if v.String? then Some(CommandOptions.Choice(j.members["name"].s, CommandOptions.StringValue(v.s)))
      else if v.Number? then Some(CommandOptions.Choice(j.members["name"].s, CommandOptions.NumberValue(v.n)))
      else None
    else None
  }

  lemma ChoiceRoundTrip(c: CommandOptions.Choice)
    ensures ChoiceOfJson(ChoiceJson(c)) == Some(c)
  {
  }

  /** The choices as a JSON array, in order. */
  function ChoicesJson(cs: seq<CommandOptions.Choice>): (r: seq<Json>)
    ensures |r| == |cs|
    ensures forall k :: 0 <= k < |cs| ==> ChoiceOfJson(r[k]) == Some(cs[k])
  {
    if |cs| == 0 then []
    else
      ChoiceRoundTrip(cs[0]);
      [ChoiceJson(cs[0])] + ChoicesJson(cs[1..])
  }

  /** `respondWith(choices)`: an autocomplete result to the callback
      endpoint, whose only data member is the choices in order. */
  function RespondWith(i: Interaction, choices: seq<CommandOptions.Choice>): (r: Response)
    requires i.AutocompleteInteraction?
    ensures r.target == CallbackEndpoint(i)
    ensures r.callback.responseType == AutocompleteResultResponse
    ensures r.callback.data.Some? && r.callback.data.value.Object?
    ensures r.callback.data.value.members.Keys == {"choices"}
    ensures var sent := r.callback.data.value.members["choices"];
      sent.Array? && |sent.items| == |choices|
      && forall k :: 0 <= k < |choices| ==> ChoiceOfJson(sent.items[k]) == Some(choices[k])
  {
    Response(CallbackEndpoint(i), Callback(AutocompleteResultResponse, Some(Object(map["choices" := Array(ChoicesJson(choices))]))))
  }

  /** `deferUpdateOriginalMessage()`: a deferred message update, no data. */
  function DeferUpdateOriginalMessage(i: Interaction): (r: Response)
    requires i.ComponentInteraction?
    ensures r.target == CallbackEndpoint(i)
    ensures r.callback == Callback(DeferredMessageUpdateResponse, None)
    ensures !IsEphemeral(r.callback)
  {
    Response(CallbackEndpoint(i), Callback(DeferredMessageUpdateResponse, None))
  }

  /** `updateOriginalMessage(data)`: a message update with the fields as
      given; unlike the other message responders it leaves `flags` alone. */
  function UpdateOriginalMessage(i: Interaction, fields: map<string, Json>): (r: Response)
    requires i.ComponentInteraction?
    ensures r.target == CallbackEndpoint(i)
    ensures r.callback == Callback(UpdateMessageResponse, Some(Object(fields)))
  {
    Response(CallbackEndpoint(i), Callback(UpdateMessageResponse, Some(Object(fields))))
  }

  /** Every responder answers through the interaction's own callback
      endpoint, except `editResponse`, which goes to the original message. */
  lemma RespondersTargets(i: Interaction, input: MessageInput, fields: map<string, Json>, e: bool)
    requires i.ComponentInteraction?
    ensures Defer(i, e).target == Respond(i, input, e).target == ShowModal(i, fields).target
      == DeferUpdateOriginalMessage(i).target == UpdateOriginalMessage(i, fields).target
    ensures EditResponse(i, fields, e).target != Defer(i, e).target
  {
    var c := CallbackEndpoint(i);
    var o := OriginalEndpoint(i);
    assert c.path[1] == 'i';
    assert o.path[1] == 'w';
  }

  /** The response types `defer`, `respond`, `showModal`, `respondWith`,
      `deferUpdateOriginalMessage` and `updateOriginalMessage` send are 5,
      4, 9, 8, 6 and 7: pairwise distinct, and none of them is the pong of
      a ping. Only `editResponse` shares a type, with `respond`. */
  lemma ResponseTypesDistinct(i: Interaction, a: Interaction, input: MessageInput, fields: map<string, Json>,
                              modal: map<string, Json>, choices: seq<CommandOptions.Choice>, e: bool)
    requires i.ComponentInteraction? && a.AutocompleteInteraction?
    ensures var types := [Defer(i, e).callback.responseType, Respond(i, input, e).callback.responseType,
                          ShowModal(i, modal).callback.responseType, RespondWith(a, choices).callback.responseType,
                          DeferUpdateOriginalMessage(i).callback.responseType,
                          UpdateOriginalMessage(i, fields).callback.responseType];
      types == [5, 4, 9, 8, 6, 7]
      && (forall j, k :: 0 <= j < k < |types| ==> types[j] != types[k])
      && (forall j :: 0 <= j < |types| ==> types[j] != PongResponse)
    ensures EditResponse(i, fields, e).callback.responseType == Respond(i, input, e).callback.responseType
  {
  }

  /** Of the responders that send message fields, only
      `updateOriginalMessage` passes a caller's `flags` through: `respond`
      and `editResponse` replace them with the ephemeral bit, or drop them,
      and `defer` sends no field but the flags it sets. */
  lemma OnlyUpdateKeepsFlags(i: Interaction, fields: map<string, Json>, e: bool)
    requires i.ComponentInteraction? && "flags" in fields
    ensures "flags" in UpdateOriginalMessage(i, fields).callback.data.value.members
    ensures UpdateOriginalMessage(i, fields).callback.data.value.members["flags"] == fields["flags"]
    ensures var sent := Respond(i, Fields(fields), e).callback.data.value.members;
      ("flags" in sent <==> e) && (e ==> sent["flags"] == Number(EphemeralFlag))
    ensures var sent := EditResponse(i, fields, e).callback.data.value.members;
      ("flags" in sent <==> e) && (e ==> sent["flags"] == Number(EphemeralFlag))
    ensures var sent := Defer(i, e).callback.data.value.members;
      ("flags" in sent <==> e) && (e ==> sent["flags"] == Number(EphemeralFlag))
  {
  }

  /** `acknowledgeData`: the serialized pong response. */
  const AcknowledgeData: string := "{\"type\":1}"

  // ---------------------------------------------------------------------
  // Sending
  // ---------------------------------------------------------------------

  /** `sendTo` as written: it calls the value of the `requestHeaders`
      getter, which is not a function, so every responder throws before any
      request is made. */
  function SendToAsWritten(response: Response, secret: string): Result<Clients.Request<Callback>> {
    Err(Clients.NotAFunction("requestHeaders"))
  }

  /** `sendTo` as intended: a `POST` of the response to its endpoint's URL,
      authorized with the application secret. */
  function SendTo(response: Response, secret: string): (r: Clients.Request<Callback>)
    ensures r.verb == Clients.Post
    ensures r.url == Endpoint.Url(response.target)
    ensures Clients.SecretOf(r.headers) == Some(secret)
    ensures r.body == response.callback
  {
    Clients.RequestHeadersCarrySecret(secret);
    Clients.Request(Clients.Post, Endpoint.Url(response.target), Clients.RequestHeaders(secret), response.callback)
  }

  /** The written `sendTo` never produces the intended request. */
  lemma SendToAsWrittenThrows(response: Response, secret: string)
    ensures SendToAsWritten(response, secret).Err?
    ensures SendToAsWritten(response, secret) != Ok(SendTo(response, secret))
  {
  }

  /** Status 204, the one status `sendTo` does not report. */
  const NoContent: int := 204

  /** The line `sendTo` logs once Discord has answered with `status`. */
  function SendToLog(status: int): Option<string> {
    if status != NoContent then
      Some(Logger.Error("Failed to respond to interaction.", Some(Logger.ErrorProperties(Some(status)))))
    else None
  }

  /** A failure is logged exactly for a status other than 204. */
  lemma SendToLogPresence(status: int)
    ensures SendToLog(status).Some? <==> status != NoContent
  {
  }

  /** The failure line names the status Discord sent in bold red, then the
      message in red. */
  lemma SendToLogReportsStatus(status: int)
    requires status != NoContent && status != 0
    ensures SendToLog(status) == Some(
      Logger.Sgr("1;38;2;247;79;82") + Logger.CodePrefix(Some(status)) + Logger.Reset
      + Logger.Sgr(";38;2;247;79;82") + "Failed to respond to interaction." + Logger.Reset)
    ensures Logger.CodePrefix(Some(status)) == "[Error " + Strings.IntToString(status) + "]: "
  {
    Logger.ErrorWithCode("Failed to respond to interaction.", status);
  }
}

=== FILE: logger.dfy ===
/** The line formatting of src/model/Logger.ts. Each operation yields the
    string the source hands to `console.log`; the printing itself is not
    part of the model. */
module Logger {
  import opened Optional
  import opened Strings

  datatype Color = Color(red: int, green: int, blue: int)

  /** A message style; an absent flag behaves like `false`. */
  datatype MessageConfiguration = MessageConfiguration(
    color: Option<Color>,
    bold: Option<bool>,
    italic: Option<bool>)

  /** `{ code?: StatusCode }`, the extra data of an error line. */
  datatype ErrorProperties = ErrorProperties(code: Option<int>)

  const Escape: string := "\U{1b}"

  /** The reset sequence every styled message ends with. */
  const Reset: string := Escape + "[0m"

  /** The colour used for error lines. */
  const ErrorColor: Color := Color(247, 79, 82)

  predicate IsBold(c: MessageConfiguration) { c.bold == Some(true) }

  predicate IsItalic(c: MessageConfiguration) { c.italic == Some(true) }

  /** Whether the configuration asks for any styling at all. */
  predicate IsStyled(c: MessageConfiguration) {
    IsBold(c) || IsItalic(c) || c.color.Some?
  }

  /** The attribute codes, `1` for bold then `3` for italic. */
  function StyleCodes(c: MessageConfiguration): string {
    (if IsBold(c) then "1" else "") + (if IsItalic(c) then "3" else "")
  }

  /** A Select Graphic Rendition control sequence with the given parameters. */
  function Sgr(parameters: string): string {
    Escape + "[" + parameters + "m"
  }

  /** The 24-bit foreground colour parameters `38;2;r;g;b`. */
  function ColorParameters(rgb: Color): string {
    "38;2;" + IntToString(rgb.red) + ";" + IntToString(rgb.green) + ";" + IntToString(rgb.blue)
  }

  /** What the source writes before the content of a styled message. */
  function Opening(c: MessageConfiguration): string {
    if c.color.Some? then Sgr(StyleCodes(c) + ";" + ColorParameters(c.color.value))
    else Escape + "[" + StyleCodes(c)
  }

  /** `ansiWrapped(content, configuration)`. */
  function AnsiWrapped(content: string, c: MessageConfiguration): (r: string)
    ensures !IsStyled(c) ==> r == content
    ensures c.color.Some? ==>
      r == Sgr(StyleCodes(c) + ";" + ColorParameters(c.color.value)) + content + Sgr("0")
    ensures IsStyled(c) && c.color.None? ==> r == Escape + "[" + StyleCodes(c) + content + Reset
  {
    ResetIsSgr();
    if !IsStyled(c) then content else Opening(c) + content + Reset
  }

  /** The reset sequence is the control sequence with parameter 0. */
  lemma ResetIsSgr()
    ensures Reset == Sgr("0")
  {
  }

  /** The content back out of a wrapped message, given its configuration. */
  function Unwrap(wrapped: string, c: MessageConfiguration): string {
    if !IsStyled(c) then wrapped
    else if |Opening(c)| + |Reset| <= |wrapped| then wrapped[|Opening(c)|..|wrapped| - |Reset|]
    else wrapped
  }

  /** Wrapping keeps the content intact: it can be read back between the
      opening sequence and the reset. */
  lemma UnwrapAnsiWrapped(content: string, c: MessageConfiguration)
    ensures Unwrap(AnsiWrapped(content, c), c) == content
  {
    if IsStyled(c) {
      var w := AnsiWrapped(content, c);
      assert w == Opening(c) + content + Reset;
      assert w[|Opening(c)|..|w| - |Reset|] == content;
    }
  }

  /** Without a colour the opening is not a complete control sequence: the
      attribute codes run straight into the content, with no `m` between. */
  lemma StyleOnlyIsUnterminated(content: string, c: MessageConfiguration)
    requires IsStyled(c) && c.color.None?
    ensures AnsiWrapped(content, c)[..2 + |StyleCodes(c)| + |content|] == Escape + "[" + StyleCodes(c) + content
    ensures |content| > 0 && content[0] != 'm' ==> AnsiWrapped(content, c)[2 + |StyleCodes(c)|] != 'm'
  {
    var w := AnsiWrapped(content, c);
    assert w == (Escape + "[" + StyleCodes(c) + content) + Reset;
    if |content| > 0 {
      assert w[2 + |StyleCodes(c)|] == content[0];
    }
  }

  /** `log(content, configuration)`: the printed line. */
  function Log(content: string, configuration: Option<MessageConfiguration>): (r: string)
    ensures configuration.None? ==> r == content
    ensures configuration.Some? ==> r == AnsiWrapped(content, configuration.value)
  {
    match configuration
    case None => content
    case Some(c) => AnsiWrapped(content, c)
  }

  /** One part of a joined line: the content, wrapped when it has a style. */
  function Part(part: (string, Option<MessageConfiguration>)): string {
    if part.1.Some? then AnsiWrapped(part.0, part.1.value) else part.0
  }

  /** The parts, each formatted, joined with `""`. */
  function JoinParts(parts: seq<(string, Option<MessageConfiguration>)>): string {
    if |parts| == 0 then "" else Part(parts[0]) + JoinParts(parts[1..])
  }

  /** `joinedLog(...messages)`: the printed line. */
  function JoinedLog(parts: seq<(string, Option<MessageConfiguration>)>): (r: string)
    ensures |parts| == 0 ==> r == ""
    ensures |parts| == 1 ==> r == Log(parts[0].0, parts[0].1)
  {
    JoinPartsOfOne(parts);
    Log(JoinParts(parts), None)
  }

  /** A single part joins to that part formatted. */
  lemma JoinPartsOfOne(parts: seq<(string, Option<MessageConfiguration>)>)
    ensures |parts| == 1 ==> JoinParts(parts) == Part(parts[0])
  {
    if |parts| == 1 {
      assert parts[1..] == [];
      assert JoinParts(parts) == Part(parts[0]) + "";
      assert Part(parts[0]) + "" == Part(parts[0]);
    }
  }

  /** Joining distributes over concatenation of the part lists: each part is
      formatted on its own and the results appear in order. */
  lemma {:induction false} JoinedLogAppend(a: seq<(string, Option<MessageConfiguration>)>,
                                          b: seq<(string, Option<MessageConfiguration>)>)
    ensures JoinedLog(a + b) == JoinedLog(a) + JoinedLog(b)
  {
    JoinPartsAppend(a, b);
  }

  lemma {:induction false} JoinPartsAppend(a: seq<(string, Option<MessageConfiguration>)>,
                                          b: seq<(string, Option<MessageConfiguration>)>)
    ensures JoinParts(a + b) == JoinParts(a) + JoinParts(b)
  {
    if |a| == 0 {
      assert a + b == b;
    } else {
      assert (a + b)[1..] == a[1..] + b;
      JoinPartsAppend(a[1..], b);
    }
  }

  /** Parts without a style are copied unchanged. */
  lemma {:induction false} JoinedLogPlain(parts: seq<(string, Option<MessageConfiguration>)>)
    requires forall k :: 0 <= k < |parts| ==> parts[k].1.None?
    ensures JoinedLog(parts) == JoinPlain(parts)
  {
    PlainParts(parts);
  }

  function JoinPlain(parts: seq<(string, Option<MessageConfiguration>)>): string {
    if |parts| == 0 then "" else parts[0].0 + JoinPlain(parts[1..])
  }

  lemma {:induction false} PlainParts(parts: seq<(string, Option<MessageConfiguration>)>)
    requires forall k :: 0 <= k < |parts| ==> parts[k].1.None?
    ensures JoinParts(parts) == JoinPlain(parts)
  {
    if |parts| > 0 {
      PlainParts(parts[1..]);
    }
  }

  /** The style of the error-code prefix. */
  const ErrorCodeConfiguration: MessageConfiguration :=
    MessageConfiguration(Some(ErrorColor), Some(true), None)

  /** The style of the error content. */
  const ErrorConfiguration: MessageConfiguration :=
    MessageConfiguration(Some(ErrorColor), None, None)

  /** `[Error {code}]: ` for a truthy code, nothing otherwise (0 is falsy). */
  function CodePrefix(code: Option<int>): (r: string)
    ensures code.None? || code == Some(0) ==> r == ""
    ensures code.Some? && code.value != 0 ==> r == "[Error " + IntToString(code.value) + "]: "
  {
    if code.Some? && code.value != 0 then "[Error " + IntToString(code.value) + "]: " else ""
  }

  predicate AllDigits(m: string) {
    forall i :: 0 <= i < |m| ==> '0' <= m[i] <= '9'
  }

  /** The integer a decimal text denotes, after an optional `-`. */
  function ReadInt(m: string): Option<int> {
    if AllDigits(m) then Some(ParseNat(m))
    else if |m| > 0 && m[0] == '-' && AllDigits(m[1..]) then
      var n: int := ParseNat(m[1..]);
      Some(-n)
    else None
  }

  /** Printing an integer and reading it back gives the integer. */
  lemma ReadIntToString(x: int)
    ensures ReadInt(IntToString(x)) == Some(x)
  {
    var s := IntToString(x);
    SignShows(x);
    if x >= 0 {
      assert AllDigits(s);
      NatToStringRoundTrip(x);
    } else {
      assert !AllDigits(s) by { assert s[0] == '-'; }
      assert s[1..] == NatToString(-x);
      NatToStringRoundTrip(-x);
    }
  }

  /** The code a prefix names: the text between `[Error ` and `]: ` read as
      an integer; `None` for anything else. */
  function CodeOfPrefix(r: string): Option<int> {
    if |r| > 10 && r[..7] == "[Error " && r[|r| - 3..] == "]: " then ReadInt(r[7..|r| - 3])
    else None
  }

  /** The prefix names its code: reading it back gives the code when it is
      non-zero, and nothing when the code is missing or zero. */
  lemma CodePrefixReadsBack(code: Option<int>)
    ensures CodeOfPrefix(CodePrefix(code)) == if code.Some? && code.value != 0 then code else None
  {
    if code.Some? && code.value != 0 {
      var s := IntToString(code.value);
      Between("[Error ", s, "]: ");
      ReadIntToString(code.value);
    }
  }

  /** Two codes give the same prefix only when both are falsy or they are
      equal. */
  lemma CodePrefixInjective(code: Option<int>, other: Option<int>)
    requires CodePrefix(other) == CodePrefix(code)
    ensures (code.Some? && code.value != 0) || (other.Some? && other.value != 0) ==> other == code
  {
    CodePrefixReadsBack(code);
    CodePrefixReadsBack(other);
  }

  /** The three parts of a concatenation can be sliced back out. */
  lemma Between(p: string, s: string, q: string)
    ensures var r := p + s + q;
      r[..|p|] == p && r[|p| + |s|..] == q && r[|p|..|p| + |s|] == s
  {
  }

  /** A printed integer starts with `-` exactly when it is negative. */
  lemma SignShows(x: int)
    ensures (IntToString(x)[0] == '-') == (x < 0)
    ensures x >= 0 ==> IntToString(x) == NatToString(x)
  {
    if x >= 0 {
      assert '0' <= NatToString(x)[0] <= '9';
    }
  }

  /** `error(content, properties)`: the printed line. With properties it is
      the bold red code prefix followed by the red content; without, the red
      content alone. */
  function Error(content: string, properties: Option<ErrorProperties>): (r: string)
    ensures properties.None? ==> r == AnsiWrapped(content, ErrorConfiguration)
    ensures properties.Some? ==>
      r == AnsiWrapped(CodePrefix(properties.value.code), ErrorCodeConfiguration)
           + AnsiWrapped(content, ErrorConfiguration)
  {
    match properties
    case Some(p) =>
      var parts := [(CodePrefix(p.code), Some(ErrorCodeConfiguration)), (content, Some(ErrorConfiguration))];
      assert parts[1..][1..] == [];
      assert JoinParts(parts[1..]) == Part(parts[1]) + JoinParts(parts[1..][1..]);
      assert JoinParts(parts) == Part(parts[0]) + JoinParts(parts[1..]);
      assert Part(parts[1]) + "" == Part(parts[1]);
      JoinedLog(parts)
    case None => Log(content, Some(ErrorConfiguration))
  }

  /** An error line with a non-zero code reads `[Error {code}]: ` (see
      `CodePrefix`) in bold red, then the content in red. */
  lemma ErrorWithCode(content: string, code: int)
    requires code != 0
    ensures Error(content, Some(ErrorProperties(Some(code)))) ==
      Sgr("1;38;2;247;79;82") + CodePrefix(Some(code)) + Reset + Sgr(";38;2;247;79;82") + content + Reset
  {
    var prefix := CodePrefix(Some(code));
    BoldRedWrapped(prefix);
    RedWrapped(content);
  }

  lemma BoldRedWrapped(text: string)
    ensures AnsiWrapped(text, ErrorCodeConfiguration) == Sgr("1;38;2;247;79;82") + text + Reset
  {
    ErrorColorParameters();
    assert StyleCodes(ErrorCodeConfiguration) == "1";
    assert "1" + ";" + "38;2;247;79;82" == "1;38;2;247;79;82";
  }

  lemma RedWrapped(text: string)
    ensures AnsiWrapped(text, ErrorConfiguration) == Sgr(";38;2;247;79;82") + text + Reset
  {
    ErrorColorParameters();
    assert StyleCodes(ErrorConfiguration) == "";
    assert "" + ";" + "38;2;247;79;82" == ";38;2;247;79;82";
  }

  lemma ErrorColorParameters()
    ensures ColorParameters(ErrorColor) == "38;2;247;79;82"
  {
    RedText();
    GreenText();
    BlueText();
  }

  lemma RedText()
    ensures IntToString(247) == "247"
  {
    assert NatToString(2) == "2" && NatToString(24) == "24";
  }

  lemma GreenText()
    ensures IntToString(79) == "79"
  {
    assert NatToString(7) == "7";
  }

  lemma BlueText()
    ensures IntToString(82) == "82"
  {
    assert NatToString(8) == "8";
  }
}

=== FILE: uint8_arrays.dfy ===
/** Byte utilities of src/util/Uint18Array.ts: conversion of the accepted
    value kinds to a byte array (hex strings decoded as the source does it,
    with a global `/.{1,2}/g` match and `parseInt(chunk, 16)`), and the
    concatenation of byte arrays. */
module Uint8Arrays {
  import opened Optional
  import opened Results

  /** An element of a `Uint8Array`. */
  type Byte = x: int | 0 <= x < 256

  // ---------------------------------------------------------------------
  // The chunking done by `value.match(/.{1,2}/g)`
  // ---------------------------------------------------------------------

  /** The characters a regular-expression `.` does not match. */
  predicate IsLineTerminator(c: char) {
    c == '\n' || c == '\r' || c == '\U{2028}' || c == '\U{2029}'
  }

  /** The successive matches of the global pattern `/.{1,2}/g`: from each
      position the longest run of one or two non-line-terminators, skipping
      line terminators, which no match covers. */
  function Chunks(s: string): (r: seq<string>)
    ensures forall k :: 0 <= k < |r| ==> 1 <= |r[k]| <= 2
    decreases |s|
  {
    if |s| == 0 then []
    else if IsLineTerminator(s[0]) then Chunks(s[1..])
    else if 2 <= |s| && !IsLineTerminator(s[1]) then [s[..2]] + Chunks(s[2..])
    else [s[..1]] + Chunks(s[1..])
  }

  /** A JavaScript string is a sequence of UTF-16 code units, and the
      pattern has no `u` flag, so `.` matches one code unit: a character
      outside the Basic Multilingual Plane is two units, a surrogate pair.
      A lone surrogate is not a Dafny `char`, so each unit of a pair is
      written as U+FFFD, which every step of the decoder treats as it treats
      a surrogate: not a line terminator, not white space, not a sign, not
      part of the `0x` prefix and not a digit. */
  const SurrogateStandIn: char := '\U{FFFD}'

  /** The string as the code units the pattern steps through. */
  function CodeUnits(s: string): (u: string)
    ensures |u| >= |s|
    ensures (forall i :: 0 <= i < |s| ==> s[i] as int < 0x10000) ==> u == s
  {
    if |s| == 0 then []
    else (if s[0] as int < 0x10000 then [s[0]] else [SurrogateStandIn, SurrogateStandIn]) + CodeUnits(s[1..])
  }

  /** A string's code units are all line terminators exactly when its
      characters are: a surrogate never is one. */
  lemma {:induction false} CodeUnitsLineTerminators(s: string)
    ensures (forall i :: 0 <= i < |CodeUnits(s)| ==> IsLineTerminator(CodeUnits(s)[i]))
        <==> (forall i :: 0 <= i < |s| ==> IsLineTerminator(s[i]))
    decreases |s|
  {
    if |s| > 0 {
      CodeUnitsLineTerminators(s[1..]);
      var head := if s[0] as int < 0x10000 then [s[0]] else [SurrogateStandIn, SurrogateStandIn];
      var u := CodeUnits(s);
      assert u == head + CodeUnits(s[1..]);
      if forall i :: 0 <= i < |u| ==> IsLineTerminator(u[i]) {
        assert IsLineTerminator(u[0]) && u[0] == head[0];
        assert s[0] as int < 0x10000;
        assert IsLineTerminator(s[0]);
        var rest := CodeUnits(s[1..]);
        forall i | 0 <= i < |rest| ensures IsLineTerminator(rest[i]) {
          assert rest[i] == u[|head| + i];
        }
        assert forall i :: 0 <= i < |s[1..]| ==> IsLineTerminator(s[1..][i]);
        forall i | 0 <= i < |s| ensures IsLineTerminator(s[i]) {
          if i > 0 { assert s[i] == s[1..][i - 1]; }
        }
      }
      if forall i :: 0 <= i < |s| ==> IsLineTerminator(s[i]) {
        assert IsLineTerminator(s[0]);
        forall i | 0 <= i < |s[1..]| ensures IsLineTerminator(s[1..][i]) {
          assert s[1..][i] == s[i + 1];
        }
        forall i | 0 <= i < |u| ensures IsLineTerminator(u[i]) {
          if i > 0 { assert u[i] == CodeUnits(s[1..])[i - 1]; }
        }
      }
    }
  }

  /** `match` returns `null` exactly when the pattern matches nowhere: the
      string is empty or made only of line terminators. */
  lemma {:induction false} ChunksEmptyIff(s: string)
    ensures Chunks(s) == [] <==> forall i :: 0 <= i < |s| ==> IsLineTerminator(s[i])
    decreases |s|
  {
    if |s| > 0 {
      ChunksEmptyIff(s[1..]);
      if IsLineTerminator(s[0]) {
        forall i | 0 <= i < |s| && (forall j :: 0 <= j < |s[1..]| ==> IsLineTerminator(s[1..][j]))
          ensures IsLineTerminator(s[i])
        {
          if i > 0 { assert s[i] == s[1..][i - 1]; }
        }
      }
    }
  }

  // ---------------------------------------------------------------------
  // `parseInt(chunk, 16)` and the conversion of its result to a byte
  // ---------------------------------------------------------------------

  /** The code points `parseInt` strips from the front of its argument: the
      ECMAScript WhiteSpace and LineTerminator characters. */
  predicate IsJsWhiteSpace(c: char) {
    || c == '\t' || c == '\U{b}' || c == '\U{c}' || c == ' ' || c == '\U{a0}'
    || c == '\U{feff}' || c == '\U{1680}' || ('\U{2000}' <= c <= '\U{200a}')
    || c == '\U{202f}' || c == '\U{205f}' || c == '\U{3000}'
    || IsLineTerminator(c)
  }

  function TrimStart(s: string): (r: string)
    ensures |r| <= |s| && r == s[|s| - |r|..]
    ensures |r| > 0 ==> !IsJsWhiteSpace(r[0])
  {
    if |s| > 0 && IsJsWhiteSpace(s[0]) then TrimStart(s[1..]) else s
  }

  predicate IsHexDigit(c: char) {
    ('0' <= c <= '9') || ('a' <= c <= 'f') || ('A' <= c <= 'F')
  }

  function HexDigitValue(c: char): (d: nat)
    requires IsHexDigit(c)
    ensures d < 16
  {
    if '0' <= c <= '9' then (c as int - '0' as int) as nat
    else if 'a' <= c <= 'f' then (c as int - 'a' as int + 10) as nat
    else (c as int - 'A' as int + 10) as nat
  }

  /** Length of the longest prefix of `s` made of hexadecimal digits. */
  function HexRun(s: string): (n: nat)
    ensures n <= |s|
    ensures forall i :: 0 <= i < n ==> IsHexDigit(s[i])
    ensures n < |s| ==> !IsHexDigit(s[n])
  {
    if |s| > 0 && IsHexDigit(s[0]) then 1 + HexRun(s[1..]) else 0
  }

  /** The value of a string of hexadecimal digits, most significant first. */
  function HexValue(z: string): nat
    requires forall i :: 0 <= i < |z| ==> IsHexDigit(z[i])
  {
    if |z| == 0 then 0 else HexValue(z[..|z| - 1]) * 16 + HexDigitValue(z[|z| - 1])
  }

  /** `-` when the (trimmed) text starts with a minus sign. */
  predicate IsNegative(t: string) {
    |t| > 0 && t[0] == '-'
  }

  /** The text after one optional sign character. */
  function StripSign(t: string): (u: string)
    ensures |u| <= |t|
  {
    if |t| > 0 && (t[0] == '-' || t[0] == '+') then t[1..] else t
  }

  /** The text after an optional `0x`/`0X` prefix (radix 16 strips it). */
  function StripHexPrefix(u: string): (v: string)
    ensures |v| <= |u|
  {
    if 2 <= |u| && u[0] == '0' && (u[1] == 'x' || u[1] == 'X') then u[2..] else u
  }

  /** The characters `parseInt(s, 16)` reads digits from. */
  function DigitsPart(s: string): string {
    StripHexPrefix(StripSign(TrimStart(s)))
  }

  /** `parseInt(s, 16)`: `None` stands for `NaN`. Leading white space is
      skipped, one sign is accepted, then an optional `0x`/`0X` prefix, then
      the longest run of hexadecimal digits is read; no digits gives `NaN`,
      and `-0` is 0. */
  function ParseIntHex(s: string): (r: Option<int>)
    ensures r.None? <==> HexRun(DigitsPart(s)) == 0
    ensures r.Some? && !IsNegative(TrimStart(s)) ==> r.value >= 0
    ensures r.Some? && IsNegative(TrimStart(s)) ==> r.value <= 0
  {
    var v := DigitsPart(s);
    var z := v[..HexRun(v)];
    if |z| == 0 then None
    else if IsNegative(TrimStart(s)) then Some(-(HexValue(z) as int))
    else Some(HexValue(z))
  }

  /** The ECMAScript ToUint8 conversion applied when a number is stored into
      a `Uint8Array`: `NaN` becomes 0, everything else is taken modulo 256. */
  function ToUint8(n: Option<int>): Byte {
    match n
    case None => 0
    case Some(x) => x % 256
  }

  // ---------------------------------------------------------------------
  // Hex decoding
  // ---------------------------------------------------------------------

  const InvalidHex: string := "Value is not a valid hex string"

  /** The hex branch of `valueToUint8Array`: one byte per match of
      `/.{1,2}/g` over the string's code units, each the
      `parseInt(match, 16)` stored as a byte; a string with no match is an
      error. */
  function DecodeHex(s: string): (r: Result<seq<Byte>>)
    ensures r.Err? <==> Chunks(CodeUnits(s)) == []
    ensures r.Err? ==> r.message == InvalidHex
    ensures r.Ok? ==> |r.value| == |Chunks(CodeUnits(s))|
    ensures r.Ok? ==> forall k :: 0 <= k < |r.value| ==>
      r.value[k] == ToUint8(ParseIntHex(Chunks(CodeUnits(s))[k]))
  {
    var matches := Chunks(CodeUnits(s));
    if matches == [] then Err(InvalidHex)
    else Ok(seq(|matches|, k requires 0 <= k < |matches| => ToUint8(ParseIntHex(matches[k]))))
  }

  predicate AllHexDigits(s: string) {
    forall i :: 0 <= i < |s| ==> IsHexDigit(s[i])
  }

  /** Decoding fails exactly for a string with no character a `.` matches:
      the empty string and strings of line terminators only. */
  lemma DecodeHexFailsIff(s: string)
    ensures DecodeHex(s).Err? <==> forall i :: 0 <= i < |s| ==> IsLineTerminator(s[i])
  {
    ChunksEmptyIff(CodeUnits(s));
    CodeUnitsLineTerminators(s);
  }

  /** A character outside the Basic Multilingual Plane is two code units
      and so a whole match of its own: such a character (an emoji, say)
      followed by a hexadecimal digit decodes to two bytes, 0 for the pair,
      which has no digit, and the digit's value. */
  lemma DecodeSupplementary(c: char, d: char)
    requires c as int >= 0x10000 && IsHexDigit(d)
    ensures DecodeHex([c, d]) == Ok([0, HexDigitValue(d)])
  {
    SupplementaryChunks(c, d);
    DecodePairThenDigit([c, d], d);
  }

  /** A string whose matches are a stand-in pair and then one digit decodes
      to 0 and the digit's value. */
  lemma DecodePairThenDigit(s: string, d: char)
    requires IsHexDigit(d)
    requires Chunks(CodeUnits(s)) == [[SurrogateStandIn, SurrogateStandIn], [d]]
    ensures DecodeHex(s) == Ok([0, HexDigitValue(d)])
  {
    var pair, digit := [SurrogateStandIn, SurrogateStandIn], [d];
    DecodeTwoChunks(s, pair, digit);
    PairIsNaN();
    DigitByte(d);
  }

  /** A single hexadecimal digit parses to its own value. */
  lemma DigitByte(d: char)
    requires IsHexDigit(d)
    ensures ToUint8(ParseIntHex([d])) == HexDigitValue(d)
  {
    ChunkByte([d]);
  }

  /** A string of two matches decodes to the two bytes they parse to. */
  lemma DecodeTwoChunks(s: string, a: string, b: string)
    requires Chunks(CodeUnits(s)) == [a, b]
    ensures DecodeHex(s) == Ok([ToUint8(ParseIntHex(a)), ToUint8(ParseIntHex(b))])
  {
    var r := DecodeHex(s);
    assert r.Ok? && |r.value| == 2;
    assert r.value[0] == ToUint8(ParseIntHex(a)) && r.value[1] == ToUint8(ParseIntHex(b));
    assert r.value == [ToUint8(ParseIntHex(a)), ToUint8(ParseIntHex(b))];
  }

  lemma SupplementaryChunks(c: char, d: char)
    requires c as int >= 0x10000 && IsHexDigit(d)
    ensures Chunks(CodeUnits([c, d])) == [[SurrogateStandIn, SurrogateStandIn], [d]]
  {
    var s := [c, d];
    var pair := [SurrogateStandIn, SurrogateStandIn];
    assert s[1..] == [d];
    assert CodeUnits([d]) == [d] by {
      assert [d][1..] == [];
    }
    assert CodeUnits(s) == pair + [d];
    var u := pair + [d];
    assert u[2..] == [d];
    assert !IsLineTerminator(u[0]) && !IsLineTerminator(u[1]);
    assert Chunks(u) == [u[..2]] + Chunks(u[2..]);
    assert u[..2] == pair;
    assert !IsLineTerminator(d);
    assert Chunks([d]) == [[d]] by {
      assert [d][1..] == [];
    }
  }

  lemma PairIsNaN()
    ensures ParseIntHex([SurrogateStandIn, SurrogateStandIn]) == None
  {
    var pair := [SurrogateStandIn, SurrogateStandIn];
    assert TrimStart(pair) == pair;
    assert StripSign(pair) == pair;
    assert StripHexPrefix(pair) == pair;
    assert HexRun(pair) == 0;
  }

  /** Hexadecimal digits are each one code unit. */
  lemma HexDigitsAreUnits(s: string)
    requires AllHexDigits(s)
    ensures CodeUnits(s) == s
  {
  }

  /** A chunk of one or two hexadecimal digits parses to its value. */
  lemma ParseHexChunk(c: string)
    requires 1 <= |c| <= 2 && AllHexDigits(c)
    ensures ParseIntHex(c) == Some(HexValue(c))
  {
    DigitsPartOfHexDigits(c);
    HexRunOfHexDigits(c);
    assert c[..HexRun(c)] == c;
  }

  /** `parseInt` reads a nonempty string of hexadecimal digits whole, as a
      positive number. */
  lemma DigitsPartOfHexDigits(c: string)
    requires 1 <= |c| && AllHexDigits(c)
    ensures TrimStart(c) == c && !IsNegative(c)
    ensures DigitsPart(c) == c
  {
    assert IsHexDigit(c[0]) && !IsJsWhiteSpace(c[0]);
    assert StripSign(c) == c;
    assert |c| >= 2 ==> IsHexDigit(c[1]);
  }

  /** The digit run of a string of hexadecimal digits is all of it. */
  lemma {:induction false} HexRunOfHexDigits(c: string)
    requires AllHexDigits(c)
    ensures HexRun(c) == |c|
    decreases |c|
  {
    if |c| > 0 {
      assert AllHexDigits(c[1..]) by {
        forall i | 0 <= i < |c[1..]| ensures IsHexDigit(c[1..][i]) { assert c[1..][i] == c[i + 1]; }
      }
      HexRunOfHexDigits(c[1..]);
    }
  }

  /** On a string of hexadecimal digits the matches are the successive pairs,
      with a single last digit when the length is odd. */
  lemma {:induction false} ChunksOfHexDigits(s: string)
    requires AllHexDigits(s)
    ensures |Chunks(s)| == (|s| + 1) / 2
    ensures forall k :: 0 <= k < |Chunks(s)| ==>
      Chunks(s)[k] == if 2 * k + 1 < |s| then s[2 * k..2 * k + 2] else s[2 * k..2 * k + 1]
    decreases |s|
  {
    if |s| == 1 {
      assert !IsLineTerminator(s[0]);
      assert Chunks(s) == [s[..1]] + Chunks(s[1..]);
    } else if |s| >= 2 {
      assert !IsLineTerminator(s[0]) && !IsLineTerminator(s[1]);
      var rest := s[2..];
      assert AllHexDigits(rest) by {
        forall i | 0 <= i < |rest| ensures IsHexDigit(rest[i]) { assert rest[i] == s[i + 2]; }
      }
      ChunksOfHexDigits(rest);
      assert Chunks(s) == [s[..2]] + Chunks(rest);
      forall k | 1 <= k < |Chunks(s)|
        ensures Chunks(s)[k] == if 2 * k + 1 < |s| then s[2 * k..2 * k + 2] else s[2 * k..2 * k + 1]
      {
        assert Chunks(s)[k] == Chunks(rest)[k - 1];
        SlicesShift(s, k);
      }
    }
  }

  /** The slices of `s[2..]` one pair earlier are the slices of `s`. */
  lemma SlicesShift(s: string, k: nat)
    requires 1 <= k && 2 * k < |s|
    ensures s[2..][2 * (k - 1)..2 * (k - 1) + 1] == s[2 * k..2 * k + 1]
    ensures 2 * k + 1 < |s| ==> s[2..][2 * (k - 1)..2 * (k - 1) + 2] == s[2 * k..2 * k + 2]
  {
    DropTwoSlice(s, 2 * (k - 1), 2 * (k - 1) + 1);
    if 2 * k + 1 < |s| {
      DropTwoSlice(s, 2 * (k - 1), 2 * (k - 1) + 2);
    }
  }

  lemma DropTwoSlice(s: string, a: nat, b: nat)
    requires a <= b && b + 2 <= |s|
    ensures s[2..][a..b] == s[a + 2..b + 2]
  {
    forall j | 0 <= j < b - a ensures s[2..][a..b][j] == s[a + 2..b + 2][j] {
      assert s[2..][a..b][j] == s[a + j + 2];
    }
  }

  lemma HexValueOfPair(c: string)
    requires |c| == 2 && AllHexDigits(c)
    ensures HexValue(c) == 16 * HexDigitValue(c[0]) + HexDigitValue(c[1])
  {
    var first := c[..1];
    assert HexValue(c) == HexValue(first) * 16 + HexDigitValue(c[1]);
    assert first[..0] == [] && first[0] == c[0];
    assert HexValue(first) == HexDigitValue(c[0]);
  }

  lemma HexValueOfDigit(c: string)
    requires |c| == 1 && AllHexDigits(c)
    ensures HexValue(c) == HexDigitValue(c[0])
  {
    assert c[..0] == [];
  }

  lemma ToUint8Small(v: int)
    requires 0 <= v < 256
    ensures ToUint8(Some(v)) == v
  {
  }

  /** The byte one chunk of one or two hexadecimal digits decodes to. */
  lemma ChunkByte(c: string)
    requires 1 <= |c| <= 2 && AllHexDigits(c)
    ensures |c| == 2 ==> ToUint8(ParseIntHex(c)) == 16 * HexDigitValue(c[0]) + HexDigitValue(c[1])
    ensures |c| == 1 ==> ToUint8(ParseIntHex(c)) == HexDigitValue(c[0])
  {
    ParseHexChunk(c);
    if |c| == 2 {
      HexValueOfPair(c);
      ToUint8Small(HexValue(c));
    } else {
      HexValueOfDigit(c);
      ToUint8Small(HexValue(c));
    }
  }

  /** Hex decoding of a non-empty string of n hexadecimal digits gives
      ceil(n/2) bytes: byte k is the value of digits 2k and 2k+1, and when n
      is odd the last byte is the value of the final digit alone. */
  lemma DecodeHexDigits(s: string)
    requires AllHexDigits(s) && |s| > 0
    ensures DecodeHex(s).Ok?
    ensures |DecodeHex(s).value| == (|s| + 1) / 2
    ensures forall k :: 0 <= k < |s| / 2 ==>
      DecodeHex(s).value[k] == 16 * HexDigitValue(s[2 * k]) + HexDigitValue(s[2 * k + 1])
    ensures |s| % 2 == 1 ==> DecodeHex(s).value[|s| / 2] == HexDigitValue(s[|s| - 1])
  {
    HexDigitsAreUnits(s);
    ChunksOfHexDigits(s);
    forall k | 0 <= k < |s| / 2
      ensures DecodeHex(s).value[k] == 16 * HexDigitValue(s[2 * k]) + HexDigitValue(s[2 * k + 1])
    {
      DecodedPair(s, k);
    }
    if |s| % 2 == 1 {
      DecodedLast(s);
    }
  }

  /** Byte k of a string of hexadecimal digits is the pair at 2k. */
  lemma DecodedPair(s: string, k: nat)
    requires AllHexDigits(s) && k < |s| / 2
    ensures DecodeHex(s).Ok? && k < |DecodeHex(s).value|
    ensures DecodeHex(s).value[k] == 16 * HexDigitValue(s[2 * k]) + HexDigitValue(s[2 * k + 1])
  {
    HexDigitsAreUnits(s);
    ChunksOfHexDigits(s);
    var c := Chunks(s)[k];
    assert c == s[2 * k..2 * k + 2];
    assert c[0] == s[2 * k] && c[1] == s[2 * k + 1];
    ChunkByte(c);
  }

  /** With an odd number of digits the last byte is the last digit alone. */
  lemma DecodedLast(s: string)
    requires AllHexDigits(s) && |s| % 2 == 1
    ensures DecodeHex(s).Ok? && |s| / 2 < |DecodeHex(s).value|
    ensures DecodeHex(s).value[|s| / 2] == HexDigitValue(s[|s| - 1])
  {
    HexDigitsAreUnits(s);
    ChunksOfHexDigits(s);
    var k := |s| / 2;
    var c := Chunks(s)[k];
    assert c == s[2 * k..2 * k + 1];
    assert c[0] == s[|s| - 1];
    ChunkByte(c);
  }

  /** The empty string has no match, so it is rejected. */
  lemma DecodeEmptyHexFails()
    ensures DecodeHex("") == Err(InvalidHex)
  {
  }

  // ---------------------------------------------------------------------
  // Hex encoding, the inverse the decoder is checked against
  // ---------------------------------------------------------------------

  function HexDigit(d: nat): (c: char)
    requires d < 16
    ensures IsHexDigit(c) && HexDigitValue(c) == d
  {
    "0123456789abcdef"[d]
  }

  /** Two lower-case digits per byte, as `Buffer.toString("hex")` writes. */
  function EncodeHex(bytes: seq<Byte>): (s: string)
    ensures |s| == 2 * |bytes| && AllHexDigits(s)
    ensures forall k :: 0 <= k < |bytes| ==>
      HexDigitValue(s[2 * k]) == bytes[k] / 16 && HexDigitValue(s[2 * k + 1]) == bytes[k] % 16
  {
    if |bytes| == 0 then []
    else
      var rest := EncodeHex(bytes[1..]);
      var pair := [HexDigit(bytes[0] / 16), HexDigit(bytes[0] % 16)];
      PairThenRest(pair, rest);
      assert forall k :: 1 <= k < |bytes| ==> bytes[k] == bytes[1..][k - 1];
      pair + rest
  }

  /** Past the first pair, position 2k of `pair + rest` is position 2(k-1)
      of `rest`. */
  lemma PairThenRest(pair: string, rest: string)
    requires |pair| == 2 && |rest| % 2 == 0
    ensures forall k :: 1 <= k < |rest| / 2 + 1 ==>
      (pair + rest)[2 * k] == rest[2 * (k - 1)] && (pair + rest)[2 * k + 1] == rest[2 * (k - 1) + 1]
  {
  }

  lemma ByteDigits(b: Byte)
    ensures 16 * (b / 16) + b % 16 == b
  {
  }

  /** Decoding inverts encoding for every non-empty byte sequence. */
  lemma DecodeEncodeHex(bytes: seq<Byte>)
    requires |bytes| > 0
    ensures DecodeHex(EncodeHex(bytes)) == Ok(bytes)
  {
    EncodedLength(bytes);
    EncodedBytes(bytes);
    var r := DecodeHex(EncodeHex(bytes)).value;
    assert r == bytes;
  }

  lemma EncodedLength(bytes: seq<Byte>)
    requires |bytes| > 0
    ensures DecodeHex(EncodeHex(bytes)).Ok? && |DecodeHex(EncodeHex(bytes)).value| == |bytes|
  {
    var s := EncodeHex(bytes);
    DecodedLength(s);
    HalfOfDouble(|bytes|);
  }

  lemma EncodedBytes(bytes: seq<Byte>)
    requires |bytes| > 0
    ensures DecodeHex(EncodeHex(bytes)).Ok?
    ensures forall k :: 0 <= k < |bytes| ==>
      k < |DecodeHex(EncodeHex(bytes)).value| && DecodeHex(EncodeHex(bytes)).value[k] == bytes[k]
  {
    EncodedLength(bytes);
    forall k | 0 <= k < |bytes|
      ensures k < |DecodeHex(EncodeHex(bytes)).value| && DecodeHex(EncodeHex(bytes)).value[k] == bytes[k]
    {
      EncodedByte(bytes, k);
    }
  }

  lemma HalfOfDouble(n: nat)
    ensures (2 * n + 1) / 2 == n
  {
  }

  /** A non-empty string of n hexadecimal digits decodes to ceil(n/2) bytes. */
  lemma DecodedLength(s: string)
    requires AllHexDigits(s) && |s| > 0
    ensures DecodeHex(s).Ok? && |DecodeHex(s).value| == (|s| + 1) / 2
  {
    HexDigitsAreUnits(s);
    ChunksOfHexDigits(s);
  }

  /** Byte k survives encoding and decoding. */
  lemma EncodedByte(bytes: seq<Byte>, k: nat)
    requires k < |bytes|
    ensures DecodeHex(EncodeHex(bytes)).Ok? && k < |DecodeHex(EncodeHex(bytes)).value|
    ensures DecodeHex(EncodeHex(bytes)).value[k] == bytes[k]
  {
    var s := EncodeHex(bytes);
    DecodedPair(s, k);
    assert HexDigitValue(s[2 * k]) == bytes[k] / 16;
    assert HexDigitValue(s[2 * k + 1]) == bytes[k] % 16;
    ByteDigits(bytes[k]);
  }

  // ---------------------------------------------------------------------
  // valueToUint8Array
  // ---------------------------------------------------------------------

  /** The run-time kinds of value `valueToUint8Array` can be called with:
      `null`/`undefined`, a string, a Node `Buffer`, an `ArrayBuffer`, a
      `Uint8Array`, or anything else. */
  datatype Value =
    | Nullish
    | Text(s: string)
    | BufferValue(bufferBytes: seq<Byte>)
    | ArrayBufferValue(arrayBytes: seq<Byte>)
    | Uint8ArrayValue(viewBytes: seq<Byte>)
    | Unrecognized

  const UnrecognizedType: string :=
    "Unrecognized value type, must be one of: string, Buffer, ArrayBuffer, Uint8Array"

  /** `valueToUint8Array(value, format)`; `utf8` is the `TextEncoder` used for
      strings when the format is not `"hex"`. */
  function ValueToUint8Array(value: Value, format: Option<string>, utf8: string -> seq<Byte>): (r: Result<seq<Byte>>)
    ensures value.Nullish? ==> r == Ok([])
    ensures value.Text? && format == Some("hex") ==> r == DecodeHex(value.s)
    ensures value.Text? && format != Some("hex") ==> r == Ok(utf8(value.s))
    ensures value.BufferValue? ==> r == Ok(value.bufferBytes)
    ensures value.ArrayBufferValue? ==> r == Ok(value.arrayBytes)
    ensures value.Uint8ArrayValue? ==> r == Ok(value.viewBytes)
    ensures r.Err? <==>
      (value.Unrecognized?
       || (value.Text? && format == Some("hex") && forall i :: 0 <= i < |value.s| ==> IsLineTerminator(value.s[i])))
  {
    match value
    case Nullish => Ok([])
    case Text(s) =>
      if format == Some("hex") then
        DecodeHexFailsIff(s);
        DecodeHex(s)
      else Ok(utf8(s))
    case BufferValue(b) => Ok(b)
    case ArrayBufferValue(b) => Ok(b)
    case Uint8ArrayValue(b) => Ok(b)
    case Unrecognized => Err(UnrecognizedType)
  }

  // ---------------------------------------------------------------------
  // concatUint8Arrays
  // ---------------------------------------------------------------------

  /** The in-order concatenation of the inputs: the reference definition. */
  function Flatten(arrays: seq<seq<Byte>>): seq<Byte> {
    if |arrays| == 0 then [] else arrays[0] + Flatten(arrays[1..])
  }

  /** The `reduce` in the source: the sum of the input lengths. */
  function TotalLength(arrays: seq<seq<Byte>>): nat {
    if |arrays| == 0 then 0 else |arrays[0]| + TotalLength(arrays[1..])
  }

  lemma {:induction false} FlattenLength(arrays: seq<seq<Byte>>)
    ensures |Flatten(arrays)| == TotalLength(arrays)
  {
    if |arrays| > 0 {
      FlattenLength(arrays[1..]);
    }
  }

  lemma {:induction false} FlattenSnoc(arrays: seq<seq<Byte>>, a: seq<Byte>)
    ensures Flatten(arrays + [a]) == Flatten(arrays) + a
  {
    if |arrays| == 0 {
      assert arrays + [a] == [a];
    } else {
      assert (arrays + [a])[1..] == arrays[1..] + [a];
      FlattenSnoc(arrays[1..], a);
    }
  }

  /** One more array copied behind the concatenation of the earlier ones
      extends it to the concatenation including that array. */
  lemma ConcatStep(arrays: seq<seq<Byte>>, i: nat, b: seq<Byte>, offset: nat)
    requires i + 1 < |arrays| && offset + |arrays[i + 1]| <= |b|
    requires b[..offset] == Flatten(arrays[..i + 1])
    requires b[offset..offset + |arrays[i + 1]|] == arrays[i + 1]
    ensures |Flatten(arrays[..i + 2])| == offset + |arrays[i + 1]|
    ensures b[..offset + |arrays[i + 1]|] == Flatten(arrays[..i + 2])
  {
    var n := |arrays[i + 1]|;
    assert b[..offset + n] == b[..offset] + b[offset..offset + n];
    assert arrays[..i + 2] == arrays[..i + 1] + [arrays[i + 1]];
    FlattenSnoc(arrays[..i + 1], arrays[i + 1]);
  }

  /** Copies `src` into `merged` at `offset` (`TypedArray.prototype.set`). */
  method SetAt(merged: array<Byte>, src: seq<Byte>, offset: nat)
    requires offset + |src| <= merged.Length
    modifies merged
    ensures merged[..offset] == old(merged[..offset])
    ensures merged[offset..offset + |src|] == src
  {
    var j := 0;
    while j < |src|
      invariant 0 <= j <= |src|
      invariant merged[..offset] == old(merged[..offset])
      invariant merged[offset..offset + j] == src[..j]
    {
      merged[offset + j] := src[j];
      j := j + 1;
    }
  }

  /** `concatUint8Arrays(...arrays)`: no argument gives an empty array;
      otherwise the result holds every input, in argument order, and its
      length is the sum of the input lengths. */
  method ConcatUint8Arrays(arrays: seq<seq<Byte>>) returns (merged: seq<Byte>)
    ensures merged == Flatten(arrays)
    ensures |merged| == TotalLength(arrays)
  {
    var length := TotalLength(arrays);
    FlattenLength(arrays);
    if |arrays| == 0 {
      return [];
    }
    var first := arrays[0];
    var rest := arrays[1..];
    var buffer := new Byte[length];
    assert length == |first| + TotalLength(rest);
    SetAt(buffer, first, 0);
    var offset := |first|;
    var i := 0;
    assert arrays[..1] == [first];
    while i < |rest|
      invariant 0 <= i <= |rest|
      invariant offset == |Flatten(arrays[..i + 1])|
      invariant offset + TotalLength(rest[i..]) == length
      invariant buffer[..offset] == Flatten(arrays[..i + 1])
    {
      assert rest[i..] == [rest[i]] + rest[i + 1..];
      SetAt(buffer, rest[i], offset);
      ConcatStep(arrays, i, buffer[..], offset);
      offset := offset + |rest[i]|;
      i := i + 1;
    }
    assert arrays[..i + 1] == arrays;
    merged := buffer[..];
  }
}

=== FILE: uri.dfy ===
/** Relative-reference resolution of section 5.2 of RFC 3986, for a base URI
    with an authority and a path, and a reference that is a relative-path
    reference (no scheme, no authority, a path not starting with `/`). */
module Uri {
  import opened Optional

  /** Index of the first `/` at or after `i`, or `|s|` when there is none. */
  function NextSlash(s: string, i: nat): (j: nat)
    requires i <= |s|
    ensures i <= j <= |s|
    ensures j < |s| ==> s[j] == '/'
    ensures forall k :: i <= k < j ==> s[k] != '/'
    decreases |s| - i
  {
    if i == |s| || s[i] == '/' then i else NextSlash(s, i + 1)
  }

  /** Index of the last `/` in `s`, or 0 when there is none. */
  function LastSlash(s: string): (j: nat)
    ensures j <= |s|
    ensures j < |s| ==> s[j] == '/' || j == 0
    ensures forall k :: j < k < |s| ==> s[k] != '/'
  {
    if |s| == 0 then 0
    else if s[|s| - 1] == '/' then |s| - 1
    else LastSlash(s[..|s| - 1])
  }

  /** Step 2.E's inverse: drop the last segment of the output buffer and the
      `/` before it. */
  function RemoveLastSegment(output: string): (r: string)
    ensures |r| <= |output| && r == output[..|r|]
  {
    output[..LastSlash(output)]
  }

  /** `remove_dot_segments` (section 5.2.4 of RFC 3986) for an input buffer
      that is empty or starts with `/`, which is always the case for a merged
      path: rules 2.B and 2.C replace a leading `/.` or `/..` segment by `/`
      (2.C also dropping the last output segment), and rule 2.E moves the
      first segment, with its leading `/`, to the output. */
  function RemoveDotSegments(input: string, output: string): string
    requires input == "" || input[0] == '/'
    decreases |input|
  {
    if input == "" then output
    else
      var j := NextSlash(input, 1);
      var segment := input[1..j];
      var rest := input[j..];
      if segment == "." then
        RemoveDotSegments(if rest == "" then "/" else rest, output)
      else if segment == ".." then
        RemoveDotSegments(if rest == "" then "/" else rest, RemoveLastSegment(output))
      else
        RemoveDotSegments(rest, output + input[..j])
  }

  /** Merging (section 5.2.3): all of the base path but its last segment,
      followed by the reference's path. */
  function Merge(basePath: string, path: string): string {
    var k := LastSlash(basePath);
    if k < |basePath| then basePath[..k + 1] + path else path
  }

  /** Where the path of a reference ends: the first `?` or `#`, or its end. */
  function PathEnd(ref: string): (j: nat)
    ensures j <= |ref|
    ensures forall k :: 0 <= k < j ==> ref[k] != '?' && ref[k] != '#'
    ensures j < |ref| ==> ref[j] == '?' || ref[j] == '#'
  {
    if |ref| == 0 || ref[0] == '?' || ref[0] == '#' then 0 else 1 + PathEnd(ref[1..])
  }

  /** Whether the first segment of a reference holds a `:`, which makes it
      parse as a scheme (or as no valid reference at all). */
  predicate ColonInFirstSegment(ref: string) {
    exists k :: 0 <= k < |ref| && ref[k] == ':' &&
      forall m :: 0 <= m < k ==> ref[m] != '/' && ref[m] != '?' && ref[m] != '#'
  }

  /** Whether `ref` is a relative-path reference. */
  predicate IsPathRelative(ref: string) {
    !(|ref| > 0 && ref[0] == '/') && !ColonInFirstSegment(ref)
  }

  /** The target URI of a relative-path reference against a base made of an
      origin (scheme and authority) and an absolute path; `None` for the
      other reference forms, which this model does not resolve. The query
      and fragment of the reference are carried over unchanged. */
  function Resolve(origin: string, basePath: string, ref: string): (r: Option<string>)
    requires |basePath| > 0 && basePath[0] == '/'
    ensures r.Some? <==> IsPathRelative(ref)
  {
    if !IsPathRelative(ref) then None
    else
      var p := PathEnd(ref);
      var path := ref[..p];
      var suffix := ref[p..];
      if path == "" then Some(origin + basePath + suffix)
      else Some(origin + RemoveDotSegments(Merge(basePath, path), "") + suffix)
  }

  // ---------------------------------------------------------------------
  // Paths made of plain segments
  // ---------------------------------------------------------------------

  /** A segment that needs no resolution work: no `/`, no `?` or `#`, not a
      dot segment. */
  predicate IsPlainSegment(x: string) {
    && (forall k :: 0 <= k < |x| ==> x[k] != '/' && x[k] != '?' && x[k] != '#')
    && x != "." && x != ".."
  }

  /** The path `/x1/x2/.../xn`. */
  function Join(segments: seq<string>): string {
    if |segments| == 0 then "" else "/" + segments[0] + Join(segments[1..])
  }

  lemma {:induction false} JoinAppend(a: seq<string>, b: seq<string>)
    ensures Join(a + b) == Join(a) + Join(b)
  {
    if |a| == 0 {
      assert a + b == b;
    } else {
      assert (a + b)[1..] == a[1..] + b;
      JoinAppend(a[1..], b);
    }
  }

  lemma {:induction false} JoinNoQueryOrFragment(segments: seq<string>)
    requires forall i :: 0 <= i < |segments| ==> IsPlainSegment(segments[i])
    ensures forall k :: 0 <= k < |Join(segments)| ==> Join(segments)[k] != '?' && Join(segments)[k] != '#'
  {
    if |segments| > 0 {
      JoinNoQueryOrFragment(segments[1..]);
      var x := segments[0];
      var j := Join(segments);
      assert j == "/" + x + Join(segments[1..]);
      forall k | 0 <= k < |j| ensures j[k] != '?' && j[k] != '#' {
        if 1 <= k < 1 + |x| {
          assert j[k] == x[k - 1];
        } else if k >= 1 + |x| {
          assert j[k] == Join(segments[1..])[k - 1 - |x|];
        }
      }
    }
  }

  /** In a joined path, the first segment is the first element. */
  lemma FirstSegmentOfJoin(segments: seq<string>)
    requires |segments| > 0 && IsPlainSegment(segments[0])
    ensures Join(segments)[0] == '/'
    ensures NextSlash(Join(segments), 1) == 1 + |segments[0]|
    ensures Join(segments)[1..1 + |segments[0]|] == segments[0]
    ensures Join(segments)[..1 + |segments[0]|] == "/" + segments[0]
    ensures Join(segments)[1 + |segments[0]|..] == Join(segments[1..])
  {
    var x := segments[0];
    var rest := Join(segments[1..]);
    var input := Join(segments);
    assert input == "/" + x + rest;
    if |segments| > 1 {
      assert rest[0] == '/';
      assert input[1 + |x|] == '/';
    }
    assert forall k :: 1 <= k < 1 + |x| ==> input[k] == x[k - 1];
  }

  /** A path of plain segments has no dot segment to remove. */
  lemma {:induction false} RemoveDotSegmentsPlain(segments: seq<string>, output: string)
    requires forall i :: 0 <= i < |segments| ==> IsPlainSegment(segments[i])
    ensures Join(segments) == "" || Join(segments)[0] == '/'
    ensures RemoveDotSegments(Join(segments), output) == output + Join(segments)
    decreases |segments|
  {
    if |segments| > 0 {
      var x := segments[0];
      var rest := Join(segments[1..]);
      var input := Join(segments);
      FirstSegmentOfJoin(segments);
      RemoveDotSegmentsPlain(segments[1..], output + "/" + x);
      var j := 1 + |x|;
      assert input[1..j] == x && input[j..] == rest;
      assert RemoveDotSegments(input, output) == RemoveDotSegments(rest, output + input[..j]);
      assert output + input[..j] == output + "/" + x;
      assert output + "/" + x + rest == output + input;
    }
  }

  /** A relative path made of plain segments, the first without a `:`, has
      no colon in its first segment. */
  lemma PlainNoColon(segments: seq<string>)
    requires |segments| > 0 && IsPlainSegment(segments[0])
    requires forall k :: 0 <= k < |segments[0]| ==> segments[0][k] != ':'
    ensures !ColonInFirstSegment(Join(segments)[1..])
  {
    var x := segments[0];
    FirstSegmentOfJoin(segments);
    var rel := Join(segments)[1..];
    var n := NextSlash(Join(segments), 1);
    assert forall k :: 0 <= k < |x| ==> rel[k] == x[k];
    if |segments| > 1 {
      assert Join(segments)[1 + |x|..] == Join(segments[1..]);
      assert rel[|x|] == '/';
    } else {
      assert segments[1..] == [];
      assert |rel| == |x|;
    }
  }

  /** A relative-path reference without query or fragment resolves to the
      merged path with its dot segments removed. */
  lemma ResolveWholePath(origin: string, basePath: string, ref: string)
    requires |basePath| > 0 && basePath[0] == '/'
    requires IsPathRelative(ref) && |ref| > 0
    requires forall k :: 0 <= k < |ref| ==> ref[k] != '?' && ref[k] != '#'
    ensures Resolve(origin, basePath, ref) == Some(origin + RemoveDotSegments(Merge(basePath, ref), ""))
  {
    assert PathEnd(ref) == |ref|;
    assert ref[..|ref|] == ref && ref[|ref|..] == "";
    var merged := RemoveDotSegments(Merge(basePath, ref), "");
    assert origin + merged + "" == origin + merged;
  }

  /** Merging against a base path that ends with `/` appends the reference. */
  lemma MergeAfterSlash(basePath: string, ref: string)
    requires |basePath| > 0 && basePath[|basePath| - 1] == '/'
    ensures Merge(basePath, ref) == basePath + ref
  {
    assert LastSlash(basePath) == |basePath| - 1;
    assert basePath[..|basePath|] == basePath;
  }

  /** A joined path of plain segments, without its leading `/`, is a
      non-empty relative-path reference with no query or fragment. */
  lemma PlainRelative(segments: seq<string>)
    requires forall k :: 0 <= k < |segments| ==> IsPlainSegment(segments[k])
    requires |segments| > 0 && |segments[0]| > 0
    requires forall k :: 0 <= k < |segments[0]| ==> segments[0][k] != ':'
    ensures |Join(segments)| > 1 && Join(segments) == "/" + Join(segments)[1..]
    ensures IsPathRelative(Join(segments)[1..])
    ensures forall k :: 0 <= k < |Join(segments)[1..]| ==> Join(segments)[1..][k] != '?' && Join(segments)[1..][k] != '#'
  {
    FirstSegmentOfJoin(segments);
    var path := Join(segments);
    var rel := path[1..];
    PlainNoColon(segments);
    JoinNoQueryOrFragment(segments);
    assert forall k :: 0 <= k < |rel| ==> rel[k] == path[k + 1];
    assert |path| == 1 + |segments[0]| + |Join(segments[1..])|;
  }

  /** Resolving a relative path of plain segments against a base path of
      plain segments followed by `/` appends the reference to the base: no
      dot segment is removed and nothing is split off as query or fragment. */
  lemma ResolvePlain(origin: string, baseSegments: seq<string>, segments: seq<string>)
    requires forall k :: 0 <= k < |baseSegments| ==> IsPlainSegment(baseSegments[k])
    requires forall k :: 0 <= k < |segments| ==> IsPlainSegment(segments[k])
    requires |segments| > 0 && |segments[0]| > 0
    requires forall k :: 0 <= k < |segments[0]| ==> segments[0][k] != ':'
    ensures |Join(segments)| > 0 && Join(segments)[0] == '/'
    ensures Resolve(origin, Join(baseSegments) + "/", Join(segments)[1..])
         == Some(origin + Join(baseSegments) + Join(segments))
  {
    ResolveJoined(origin, baseSegments, segments);
    JoinedPlain(baseSegments, segments);
    var whole := Join(baseSegments) + Join(segments);
    assert origin + whole == origin + Join(baseSegments) + Join(segments);
  }

  lemma ResolveJoined(origin: string, baseSegments: seq<string>, segments: seq<string>)
    requires forall k :: 0 <= k < |segments| ==> IsPlainSegment(segments[k])
    requires |segments| > 0 && |segments[0]| > 0
    requires forall k :: 0 <= k < |segments[0]| ==> segments[0][k] != ':'
    ensures |Join(segments)| > 0 && Join(segments)[0] == '/'
    ensures Resolve(origin, Join(baseSegments) + "/", Join(segments)[1..])
         == Some(origin + RemoveDotSegments(Join(baseSegments) + Join(segments), ""))
  {
    PlainRelative(segments);
    var path := Join(segments);
    var basePath := Join(baseSegments) + "/";
    JoinStartsWithSlash(baseSegments);
    var rel := path[1..];
    var b := Join(baseSegments);
    assert path == "/" + rel;
    assert b + path == b + "/" + rel;
    ResolveAppended(origin, basePath, rel);
  }

  lemma JoinStartsWithSlash(segments: seq<string>)
    ensures Join(segments) == "" || Join(segments)[0] == '/'
  {
  }

  lemma ResolveAppended(origin: string, basePath: string, rel: string)
    requires |basePath| > 0 && basePath[0] == '/' && basePath[|basePath| - 1] == '/'
    requires IsPathRelative(rel) && |rel| > 0
    requires forall k :: 0 <= k < |rel| ==> rel[k] != '?' && rel[k] != '#'
    ensures basePath + rel == "" || (basePath + rel)[0] == '/'
    ensures Resolve(origin, basePath, rel) == Some(origin + RemoveDotSegments(basePath + rel, ""))
  {
    ResolveWholePath(origin, basePath, rel);
    MergeAfterSlash(basePath, rel);
  }

  lemma JoinedPlain(baseSegments: seq<string>, segments: seq<string>)
    requires forall k :: 0 <= k < |baseSegments| ==> IsPlainSegment(baseSegments[k])
    requires forall k :: 0 <= k < |segments| ==> IsPlainSegment(segments[k])
    ensures Join(baseSegments) + Join(segments) == "" || (Join(baseSegments) + Join(segments))[0] == '/'
    ensures RemoveDotSegments(Join(baseSegments) + Join(segments), "") == Join(baseSegments) + Join(segments)
  {
    JoinAppend(baseSegments, segments);
    PlainConcat(baseSegments, segments);
    RemoveDotSegmentsPlain(baseSegments + segments, "");
    assert "" + Join(baseSegments + segments) == Join(baseSegments + segments);
  }

  lemma PlainConcat(a: seq<string>, b: seq<string>)
    requires forall k :: 0 <= k < |a| ==> IsPlainSegment(a[k])
    requires forall k :: 0 <= k < |b| ==> IsPlainSegment(b[k])
    ensures forall k :: 0 <= k < |a + b| ==> IsPlainSegment((a + b)[k])
  {
    forall k | 0 <= k < |a + b| ensures IsPlainSegment((a + b)[k]) {
      if k >= |a| {
        assert (a + b)[k] == b[k - |a|];
      }
    }
  }
}
